=== FILE: README.md ===
# Facility Assist: notices, documents and start-up seeding

Facility Assist is a Spring Boot service with a React front end. It serves
notices (announcements) and uploaded documents to the staff of air-force
units. This project models the following parts of it as pure Dafny
functions over immutable values and proves properties about them:

- **Repositories.** The active-document and notice queries of the two
  query-builder repositories: filtering, newest-first ordering, offset/limit
  pages with a total count, and the case-insensitive title/content search.
- **Spring Data paging.** `PageRequest.of` with its argument checks, and
  `PageImpl` with its total-page and has-next/has-previous metadata. Java
  `int` arithmetic is written out where the services use it.
- **Services.**
  - `DocumentService`: recent/paged documents, look-up by id, download
    data, the full list, the three converters, and `formatFileSize`.
  - `NoticeService`: the same queries, plus `createNotice` with its
    signed-in author.
  - `UserService`: look-up by username and the current user.
- **Controllers.** `NoticeController` and `DocumentController`: the
  `ApiResponse` envelope, status codes, and the download headers, where
  `MediaType.parseMediaType` is modelled on the stored file type.
- **Start-up seeding (`DataInitializer`).**
  - The administrator, the twenty units with one manager each, and the
    sample notices and documents.
  - Every step is skipped when its rows exist.
  - `generateUnitCode`: digits and Hangul kept, "제" dropped, an ordered
    list of substitutions, a fallback for names without digits, then
    upper-casing. The seeding uses the substitutions in their written
    order; the reordered list appears only under "## Findings".
- **Front end.**
  - The notice and upload dialogs: validation, trimmed requests, the
    10 MB file limit, and the reset on close.
  - The server-paged notice and document lists: the pagination bar, the
    file icon and the type label.
  - The earlier, browser-paged lists: five rows per page cut with
    `Array.prototype.slice`.

Modules follow the program's layers:

| Layer | Modules |
|---|---|
| Shared helpers | `Results`, `Seqs`, `Text`, `Entities`, `Paging`, `Security`, `Api`, `MediaTypes` |
| Repositories | `DocumentRepository`, `NoticeRepository` |
| Services | `DocumentService`, `NoticeService`, `UserService` |
| Controllers | `DocumentController`, `NoticeController` |
| Seeding | `UnitCode`, `Seeding` |
| Front end | `NoticeForm`, `UploadForm`, `DocumentListView`, `ListPagination`, `ClientPagination` |

The database is a sequence of rows per table. The `SecurityContext` is an
explicit `Option<Authentication>` argument. The password encoder's output,
the sample rows and the clock are arguments. The outcome of a front-end
`onSubmit` promise is a function argument.

## Model

| member | source | states |
|---|---|---|
| Seqs.Filter | src/main/java/com/facilityassist/repository/DocumentRepositoryImpl.java:31-37 | A `where` clause keeps each row the predicate accepts as often as it occurs, drops every other row, and keeps the result no longer than its input |
| Seqs.InsertDesc | src/main/java/com/facilityassist/repository/NoticeRepositoryImpl.java:31-36 | Inserting into a newest-first list adds exactly one copy of the row and keeps the list ordered |
| Seqs.SortDesc | src/main/java/com/facilityassist/repository/NoticeRepositoryImpl.java:31-36 | `orderBy(... .desc())` returns a permutation of its rows ordered by non-increasing key |
| Seqs.Slice | src/main/java/com/facilityassist/repository/DocumentRepositoryImpl.java:45-46 | `offset/limit` returns at most `limit` rows, exactly the rows from the offset on, and none past the end |
| Seqs.CeilDivIsLeast | src/main/java/com/facilityassist/repository/DocumentRepositoryImpl.java:54 | The page count covers every row, and one page fewer would not |
| Seqs.CeilDivPageBound | src/main/java/com/facilityassist/repository/DocumentRepositoryImpl.java:54 | Page `k` exists exactly when its first row index `k*size` is below the total |
| Seqs.PagesArePrefix | src/main/java/com/facilityassist/repository/DocumentRepositoryImpl.java:45-46 | Reading pages 0 .. count-1 in turn gives the first `count*size` rows |
| Seqs.AllPagesReassemble | src/main/java/com/facilityassist/repository/DocumentRepositoryImpl.java:40-55 | Reading all pages in turn gives back the whole ordered list |
| Paging.WrapInt | src/main/java/com/facilityassist/service/DocumentService.java:50-51 | Java `int` arithmetic and the `(int)` cast of a `long` agree with the exact value modulo 2^32 and are exact within `int` range |
| Paging.SaturateInt | src/main/java/com/facilityassist/service/DocumentService.java:52 | `getTotalPages()`: the `(int)` cast of `Math.ceil` never exceeds the exact value and is exact within `int` range |
| Paging.PageRequestOf | src/main/java/com/facilityassist/service/DocumentService.java:40 | `PageRequest.of` succeeds exactly for a non-negative page and a size of at least one, and keeps both; a negative page is the first error reported |
| Paging.NextAndPrevious | src/main/java/com/facilityassist/service/DocumentService.java:53-54 | `hasNext` holds exactly when the next page starts before the total (equivalently, when it is below the page count); `hasPrevious` holds exactly when the page is past the first |
| Paging.PageOf | src/main/java/com/facilityassist/repository/NoticeRepositoryImpl.java:39-52 | A page keeps its request and the full total; its rows are the ordered rows from the offset, at most `size` of them |
| Paging.PageContents | src/main/java/com/facilityassist/repository/NoticeRepositoryImpl.java:39-52 | Page `k` of the sequence of pages is the content of the request for page `k` |
| Paging.ConcatIsPages | src/main/java/com/facilityassist/repository/NoticeRepositoryImpl.java:39-52 | Concatenating the page contents is the same as reading pages one after the other |
| Paging.PagesReassemble | src/main/java/com/facilityassist/repository/NoticeRepositoryImpl.java:39-52 | The reported page count is the ceiling of total/size, and those pages together are the whole ordered list |
| Entities.NextId | src/main/java/com/facilityassist/service/NoticeService.java:135 | An identity value assigned on save is larger than every id already in the table |
| Entities.FindUserByUsername | src/main/java/com/facilityassist/service/UserService.java:62-71 | `findByUsername` finds a stored user with that username exactly when one exists |
| DocumentRepository.FindAllActive | src/main/java/com/facilityassist/repository/DocumentRepositoryImpl.java:31-37 | The active-document list holds exactly the active documents, each as often as it is stored, newest upload first |
| DocumentRepository.CountActive | src/main/java/com/facilityassist/repository/DocumentRepositoryImpl.java:79-84 | The active count is the length of the active list and at most the number of stored documents |
| DocumentRepository.FindAllActivePage | src/main/java/com/facilityassist/repository/DocumentRepositoryImpl.java:40-55 | A page of active documents keeps its request, reports the active count as its total, and holds the ordered active rows from the offset, at most `size` of them |
| DocumentRepository.FindByIdActive | src/main/java/com/facilityassist/repository/DocumentRepositoryImpl.java:58-66 | The look-up by id finds a stored active document with that id exactly when one exists |
| DocumentRepository.FindByUploaderActive | src/main/java/com/facilityassist/repository/DocumentRepositoryImpl.java:69-76 | The uploader's list holds exactly that user's active documents, with multiplicity, newest first |
| DocumentRepository.UploaderListIsSublist | src/main/java/com/facilityassist/repository/DocumentRepositoryImpl.java:69-84 | One uploader's active documents are a sub-multiset of all active documents, so there are no more of them than the active count |
| DocumentRepository.ActivePagesReassemble | src/main/java/com/facilityassist/repository/DocumentRepositoryImpl.java:40-55 | The active pages number ceil(count/size) and together give the whole active list in order, when every page query orders ties the same way |
| NoticeRepository.FindAll | src/main/java/com/facilityassist/repository/NoticeRepositoryImpl.java:31-36 | The notice list is a permutation of the stored notices, newest first |
| NoticeRepository.FindAllPage | src/main/java/com/facilityassist/repository/NoticeRepositoryImpl.java:39-52 | A page of notices keeps its request, reports all notices as its total, and holds the ordered rows from the offset, at most `size` of them |
| NoticeRepository.FindTopN | src/main/java/com/facilityassist/repository/NoticeRepositoryImpl.java:55-62 | The top-N query returns the content of the paged query: the ordered notices from the offset, at most `size` of them |
| NoticeRepository.FindByWrittenBy | src/main/java/com/facilityassist/repository/NoticeRepositoryImpl.java:65-71 | The author's list holds exactly the notices that user wrote, with multiplicity, newest first |
| NoticeRepository.Search | src/main/java/com/facilityassist/repository/NoticeRepositoryImpl.java:74-86 | The search returns exactly the notices whose title or content contains the text, ignoring case, with multiplicity, newest first |
| NoticeRepository.EmptySearchFindsAll | src/main/java/com/facilityassist/repository/NoticeRepositoryImpl.java:74-86 | Searching for the empty text returns every notice |
| NoticeRepository.NoticePagesReassemble | src/main/java/com/facilityassist/repository/NoticeRepositoryImpl.java:39-52 | The notice pages number ceil(total/size) and together give the whole ordered list, when every page query orders ties the same way |
| DocumentService.Pow1024 | src/main/java/com/facilityassist/service/DocumentService.java:189-192 | Every power of 1024 used as a unit is at least one |
| DocumentService.UnitIndex | src/main/java/com/facilityassist/service/DocumentService.java:189-192 | The division loop stops at the largest unit, up to TB, whose size does not exceed the byte count |
| DocumentService.PowMono | src/main/java/com/facilityassist/service/DocumentService.java:189-192 | Larger unit indices have larger unit sizes |
| DocumentService.ScaleStep | src/main/java/com/facilityassist/service/DocumentService.java:190 | Dividing by one more factor of 1024 keeps the value between consecutive multiples of the larger unit |
| DocumentService.QuotientIsUnique | src/main/java/com/facilityassist/service/DocumentService.java:190 | The whole part of the scaled size is the unique quotient between consecutive multiples of the unit |
| DocumentService.UnitIndexUnique | src/main/java/com/facilityassist/service/DocumentService.java:189-192 | Only one unit index satisfies the bounds of the unit choice |
| DocumentService.FormatFileSize | src/main/java/com/facilityassist/service/DocumentService.java:180-195 | Null or zero bytes show "0 B". Any other size gets the unit B, KB, MB, GB or TB whose size it reaches. The whole part is at least 1 and below 1024, except in TB |
| DocumentService.ConvertersAgree | src/main/java/com/facilityassist/service/DocumentService.java:123-172 | The summary, detail and download views copy id, title, file name, type, size and time from the document. The first two agree on the description, uploader and formatted size, and the download view carries the bytes. A missing uploader shows "알 수 없음" and "unknown" |
| DocumentService.UploaderName | src/main/java/com/facilityassist/service/DocumentService.java:131 | The uploader's name, or "알 수 없음" when the document has no uploader |
| DocumentService.UploaderUsername | src/main/java/com/facilityassist/service/DocumentService.java:132 | The uploader's username, or "unknown" when the document has no uploader |
| DocumentService.GetRecentDocuments | src/main/java/com/facilityassist/service/DocumentService.java:36-61 | Fails with the fetch message exactly when `PageRequest.of` rejects its arguments; otherwise returns at most `size` summaries, and `hasPrevious` holds exactly when the page is past the first |
| DocumentService.RecentDocumentsContent | src/main/java/com/facilityassist/service/DocumentService.java:40-46 | The summaries are those of the active documents from the offset, in upload order |
| DocumentService.RecentDocumentsMetadata | src/main/java/com/facilityassist/service/DocumentService.java:48-55 | The metadata reports the 1-based page, the active count, the ceiling page count, and has-next/has-previous exactly when a neighbouring page holds rows |
| DocumentService.GetDocumentById | src/main/java/com/facilityassist/service/DocumentService.java:68-79 | Empty exactly when no active document has the id; otherwise the detail response of such a document |
| DocumentService.GetDocumentForDownload | src/main/java/com/facilityassist/service/DocumentService.java:86-97 | Empty exactly when no active document has the id; otherwise the download data of such a document |
| DocumentService.GetAllDocuments | src/main/java/com/facilityassist/service/DocumentService.java:103-116 | One summary per active document, in newest-first order |
| NoticeService.NoticeConvertersAgree | src/main/java/com/facilityassist/service/NoticeService.java:152-177 | The summary and detail views copy id, title and time from the notice and agree on the author's name. The detail view carries the content. A missing author shows "알 수 없음" and "unknown" |
| NoticeService.AuthorName | src/main/java/com/facilityassist/service/NoticeService.java:157 | The author's name, or "알 수 없음" when the notice has no author |
| NoticeService.AuthorUsername | src/main/java/com/facilityassist/service/NoticeService.java:158 | The author's username, or "unknown" when the notice has no author |
| NoticeService.GetRecentNotices | src/main/java/com/facilityassist/service/NoticeService.java:43-68 | Fails with the fetch message exactly when `PageRequest.of` rejects its arguments; otherwise returns at most `size` summaries, and `hasPrevious` holds exactly when the page is past the first |
| NoticeService.RecentNoticesContent | src/main/java/com/facilityassist/service/NoticeService.java:47-53 | The summaries are those of the notices from the offset, newest first |
| NoticeService.RecentNoticesMetadata | src/main/java/com/facilityassist/service/NoticeService.java:55-62 | The metadata reports the 1-based page, the total, the ceiling page count, and has-next/has-previous exactly when a neighbouring page holds rows |
| NoticeService.FindNoticeById | src/main/java/com/facilityassist/service/NoticeService.java:79 | `findById` finds a stored notice with the id exactly when one exists |
| NoticeService.GetNoticeById | src/main/java/com/facilityassist/service/NoticeService.java:75-86 | Empty exactly when no notice has the id; otherwise the response of a notice with that id |
| NoticeService.GetAllNotices | src/main/java/com/facilityassist/service/NoticeService.java:92-105 | One summary per notice, newest first |
| NoticeService.CreateNotice | src/main/java/com/facilityassist/service/NoticeService.java:113-145 | Fails, saving nothing, exactly when the caller is not signed in or not a stored user. Otherwise one notice is appended with a fresh id, the request's title and content, the caller as author and the current time |
| NoticeService.CreatedNoticeIsFound | src/main/java/com/facilityassist/service/NoticeService.java:113-145 | A created notice is found again by its id with the very response `createNotice` returned, and shows the caller's stored name |
| NoticeService.FirstWithIdIsLast | src/main/java/com/facilityassist/service/NoticeService.java:135 | A notice saved with a fresh id is the one the look-up of that id finds |
| UserService.ToUserInfo | src/main/java/com/facilityassist/service/UserService.java:78-96 | The user info copies id, username, name and role, and has unit data exactly when the user belongs to a unit |
| UserService.GetUserInfoByUsername | src/main/java/com/facilityassist/service/UserService.java:62-71 | Present exactly when a user has the username, and then it is that user's info |
| UserService.GetCurrentUserInfo | src/main/java/com/facilityassist/service/UserService.java:29-55 | Present exactly when the caller is signed in as a user principal that is stored; then it describes the caller |
| MediaTypes.LowerToken | src/main/java/com/facilityassist/controller/DocumentController.java:119 | Lower-casing a token keeps it a token and leaves no upper-case letter |
| MediaTypes.BeforeParameters | src/main/java/com/facilityassist/controller/DocumentController.java:119 | The text before the parameters is a prefix without ';', followed by the first ';' when it is not the whole text |
| MediaTypes.FullType | src/main/java/com/facilityassist/controller/DocumentController.java:119 | The full type is at most as long as the text before the first ';', holds no ';', and neither starts nor ends with a character `trim()` removes |
| MediaTypes.FullTypeIsTrimmedHead | src/main/java/com/facilityassist/controller/DocumentController.java:119 | The full type sits inside the text before the first ';', with only trimmable characters cut from either side |
| MediaTypes.ParseMediaType | src/main/java/com/facilityassist/controller/DocumentController.java:119 | A parsed media type is well formed. A lone `*` gives `*/*`, any other result prints as the full type lower-cased, and the empty text is rejected |
| MediaTypes.SplitFullType | src/main/java/com/facilityassist/controller/DocumentController.java:119 | A split full type is well formed and prints as the full type lower-cased |
| MediaTypes.SplitStar | src/main/java/com/facilityassist/controller/DocumentController.java:119 | The `*/*` that a lone `*` stands for splits into two wildcards |
| MediaTypes.SplitFullTypeAccepts | src/main/java/com/facilityassist/controller/DocumentController.java:119 | Splitting succeeds exactly on a type token, '/', and a subtype token, with a wildcard type only before a wildcard subtype |
| MediaTypes.ParseMediaTypeAccepts | src/main/java/com/facilityassist/controller/DocumentController.java:119 | The parser accepts exactly a lone `*` or a full type of that shape, so every other non-empty text is rejected |
| MediaTypes.FormatFullType | src/main/java/com/facilityassist/controller/DocumentController.java:119 | A formatted media type has no parameters to strip |
| MediaTypes.FormatSlash | src/main/java/com/facilityassist/controller/DocumentController.java:119 | The first '/' of a formatted media type separates exactly its type and subtype |
| MediaTypes.ParseFormat | src/main/java/com/facilityassist/controller/DocumentController.java:119 | Parsing a formatted well-formed media type gives it back |
| DocumentController.GetRecentDocuments | src/main/java/com/facilityassist/controller/DocumentController.java:39-64 | 200 with the page exactly when the service succeeds; otherwise 500 with the error message and no data |
| DocumentController.GetDocumentById | src/main/java/com/facilityassist/controller/DocumentController.java:72-99 | 404 with no body exactly when no active document has the id; otherwise 200 with its detail |
| DocumentController.DownloadDocument | src/main/java/com/facilityassist/controller/DocumentController.java:107-134 | 404 exactly when no active document has the id. A missing size, a stored type whose type and subtype the media-type parser rejects, or a parsed type that `setContentType` refuses as a wildcard gives 500 with no headers. Otherwise the bytes are sent with the parsed type, which has no wildcard, the stored length, and a form-data disposition named "attachment" that carries the file name exactly when the name has a non-whitespace character |
| DocumentController.WildcardTypeIsRefused | src/main/java/com/facilityassist/controller/DocumentController.java:119-132 | A stored type that parses to a wildcard type, a `*` subtype or a `*+` subtype is refused by `setContentType`, and the download is answered 500 with nothing sent |
| DocumentController.StoredWildcardsAreRefused | src/main/java/com/facilityassist/controller/DocumentController.java:119-132 | The stored types "*/*", "image/*" and "application/*+json" all get 500 |
| MediaTypes.SuffixWildcard | src/main/java/com/facilityassist/controller/DocumentController.java:119-120 | A `*+suffix` subtype after a lower-case type parses as well formed, and is still a wildcard that `setContentType` refuses |
| DocumentController.FormDataDisposition | src/main/java/com/facilityassist/controller/DocumentController.java:122 | `setContentDispositionFormData` keeps the name, and adds the file name, unchanged, exactly when `StringUtils.hasText` holds for it |
| DocumentController.BlankFileNameOmitted | src/main/java/com/facilityassist/controller/DocumentController.java:122 | An empty or all-space file name is left out of the disposition; a name with a visible character is kept with its spaces |
| DocumentController.AllAsOnePage | src/main/java/com/facilityassist/controller/DocumentController.java:147-154 | The full list is reported as page 1 of 1, with no neighbours, and with its length as the total when that fits an `int` |
| DocumentController.GetAllDocuments | src/main/java/com/facilityassist/controller/DocumentController.java:141-173 | Always 200, with every active document's summary as a single page |
| DocumentController.UploadDocument | src/main/java/com/facilityassist/controller/DocumentController.java:183-216 | Every answer has a body and is 200 or 500. It is 200 exactly when the upload service, given the form fields unchanged, succeeds, and then the body carries the service's document. Otherwise the message is the failure prefix followed by the service's error text, recoverable from it, and no data |
| NoticeController.GetRecentNotices | src/main/java/com/facilityassist/controller/NoticeController.java:34-59 | 200 with the page exactly when the service succeeds; otherwise 500 with the error message and no data |
| NoticeController.GetNoticeById | src/main/java/com/facilityassist/controller/NoticeController.java:67-94 | 404 with no body exactly when no notice has the id; otherwise 200 with its response |
| NoticeController.AllAsOnePage | src/main/java/com/facilityassist/controller/NoticeController.java:107-114 | The full list is reported as page 1 of 1, with no neighbours, and with its length as the total when that fits an `int` |
| NoticeController.GetAllNotices | src/main/java/com/facilityassist/controller/NoticeController.java:101-133 | Always 200, with every notice's summary as a single page |
| NoticeController.CreateNotice | src/main/java/com/facilityassist/controller/NoticeController.java:141-164 | 400 with nothing saved exactly when validation rejects a blank title or content. 200 exactly when the request is valid and the caller can write. 500 with the creation error otherwise |
| NoticeController.CreatedNoticeEchoesRequest | src/main/java/com/facilityassist/controller/NoticeController.java:141-164 | A successful creation answers with the title and content that were sent |
| UnitCode.Normalize | src/main/java/com/facilityassist/config/DataInitializer.java:87-88 | After the first two replacements only digits and Hangul syllables remain |
| UnitCode.Fallback | src/main/java/com/facilityassist/config/DataInitializer.java:103-106 | The fallback code is at most five characters, all Hangul syllables |
| UnitCode.GenerateAsWrittenProperties | src/main/java/com/facilityassist/config/DataInitializer.java:83-109 | The code the start-up seeding saves uses only digits, Hangul, upper-case letters and '_', so upper-casing it changes nothing. It has a digit exactly when the unit name has one, and a name without a digit gets the fallback |
| UnitCode.GenerateProperties | src/main/java/com/facilityassist/config/DataInitializer.java:83-109 | With the longer wing patterns first, the code keeps the same alphabet, digit and fallback properties |
| UnitCode.TrainingWingCode | src/main/java/com/facilityassist/config/DataInitializer.java:89-100 | "제<n>훈련비행단" is coded "<n>훈련WING" as written and "<n>TRAIN" with the longer patterns first |
| UnitCode.MobilityWingCode | src/main/java/com/facilityassist/config/DataInitializer.java:89-100 | "제<n>공중기동비행단" is coded "<n>공중기동WING" as written and "<n>MOBILE" with the longer patterns first |
| UnitCode.SpecialWingCode | src/main/java/com/facilityassist/config/DataInitializer.java:89-100 | "제<n>특수임무비행단" is coded "<n>특수임무WING" as written and "<n>SPECIAL" with the longer patterns first |
| UnitCode.ThirdTrainingWing | src/main/java/com/facilityassist/config/DataInitializer.java:89-91 | "제3훈련비행단" is coded "3훈련WING" as written and "3TRAIN" corrected |
| Seeding.ManagerUsernameRoundTrip | src/main/java/com/facilityassist/config/DataInitializer.java:113 | The unit code can be read back from its manager's username |
| Seeding.ManagerUsernameInjective | src/main/java/com/facilityassist/config/DataInitializer.java:113 | Distinct unit codes give distinct manager usernames |
| Seeding.CreateManagerForUnit | src/main/java/com/facilityassist/config/DataInitializer.java:111-132 | Afterwards the manager account exists. An existing one leaves the users unchanged. Otherwise exactly one manager is appended, with the unit, the role and the encoded password |
| Seeding.InitializeTestAdmin | src/main/java/com/facilityassist/config/DataInitializer.java:134-151 | Afterwards "admin" exists. An existing one leaves the store unchanged. Otherwise exactly one administrator is appended |
| Seeding.SeedUnit | src/main/java/com/facilityassist/config/DataInitializer.java:59-80 | A unit name already present is skipped. The step fails exactly when the name is new and its generated code is taken, and reports that code. Otherwise the unit is saved under its generated code, earlier rows are kept, and its manager exists afterwards |
| Seeding.SeededTrainingWing | src/main/java/com/facilityassist/config/DataInitializer.java:59-80 | Seeding a new "제3훈련비행단" saves it under "3훈련WING" |
| Seeding.SeedUnits | src/main/java/com/facilityassist/config/DataInitializer.java:51-81 | Seeding the units leaves notices and documents unchanged |
| Seeding.SampleNotices | src/main/java/com/facilityassist/config/DataInitializer.java:153-276 | One notice per sample, in order, with consecutive ids, the admin as author and the sample's title and content |
| Seeding.SampleDocuments | src/main/java/com/facilityassist/config/DataInitializer.java:278-389 | One document per sample, in order, with consecutive ids |
| Seeding.DocumentOf | src/main/java/com/facilityassist/config/DataInitializer.java:280-388 | A sample document is active, uploaded by the admin, and carries the sample's title, description, file name, type, size and bytes |
| Seeding.InitializeSampleNotices | src/main/java/com/facilityassist/config/DataInitializer.java:153-165 | Nothing happens when notices exist or there is no admin. Otherwise exactly the sample notices are added |
| Seeding.InitializeSampleDocuments | src/main/java/com/facilityassist/config/DataInitializer.java:278-290 | Nothing happens when documents exist or there is no admin. Otherwise exactly the sample documents are added |
| Seeding.Run | src/main/java/com/facilityassist/config/DataInitializer.java:33-49 | A completed start-up, with the twenty unit names and `generateUnitCode` as written, leaves an "admin" account |
| Seeding.RunWith | src/main/java/com/facilityassist/config/DataInitializer.java:33-49 | The four steps leave an "admin" account whenever they complete, for any unit names and code generator |
| Seeding.SeedUnitsKeepsUsers | src/main/java/com/facilityassist/config/DataInitializer.java:51-81 | Seeding units only adds users: every earlier user is kept in place |
| Seeding.SeedUnitsCoversNames | src/main/java/com/facilityassist/config/DataInitializer.java:51-81 | After a successful unit seeding every listed unit name exists |
| Seeding.SeedUnitsSkipsTaken | src/main/java/com/facilityassist/config/DataInitializer.java:59-64 | When every listed unit already exists, unit seeding changes nothing |
| Seeding.RunIsIdempotent | src/main/java/com/facilityassist/config/DataInitializer.java:33-49 | Running start-up seeding again on its own result changes nothing |
| Seeding.RunWithIsIdempotent | src/main/java/com/facilityassist/config/DataInitializer.java:33-49 | The same holds for any unit names and code generator |
| NoticeForm.Check | frontend/src/components/CreateNoticeModal/CreateNoticeModal.tsx:42-59 | Each message is shown exactly when its check is the first to fail: blank title, blank content, title over 200, content over 5000. No message means all checks pass |
| NoticeForm.Submit | frontend/src/components/CreateNoticeModal/CreateNoticeModal.tsx:42-69 | A failed check sends nothing and shows its message. Otherwise the trimmed title and content are sent. Success closes and clears the dialog; failure keeps the inputs and shows the failure message |
| NoticeForm.Close | frontend/src/components/CreateNoticeModal/CreateNoticeModal.tsx:35-40 | Closing clears both inputs and the error |
| NoticeForm.SentRequestPassesCheck | frontend/src/components/CreateNoticeModal/CreateNoticeModal.tsx:42-69 | A sent request passes the same checks again and is no longer than what was typed |
| NoticeForm.CheckTrimmed | frontend/src/components/CreateNoticeModal/CreateNoticeModal.tsx:44-59 | Trimming an accepted title and content keeps them accepted |
| NoticeForm.AcceptedIsNotBlankOnServer | frontend/src/components/CreateNoticeModal/CreateNoticeModal.tsx:44-49 | For text with no control characters other than JavaScript whitespace, the form and the server's not-blank check agree |
| NoticeForm.ControlCharacterPassesOnlyTheForm | frontend/src/components/CreateNoticeModal/CreateNoticeModal.tsx:44-49 | A lone U+0001 passes the form but is blank to the server's Java `trim()` |
| UploadForm.SelectFile | frontend/src/components/UploadDocumentModal/UploadDocumentModal.tsx:49-60 | No file leaves the form unchanged. A file over 10 MB is refused with a message and the earlier choice stays. Otherwise the file is kept and the error cleared. The limit is preserved |
| UploadForm.Check | frontend/src/components/UploadDocumentModal/UploadDocumentModal.tsx:62-79 | Each message is shown exactly when its check is the first to fail: blank title, no file, title over 200, description over 1000 |
| UploadForm.SentDescription | frontend/src/components/UploadDocumentModal/UploadDocumentModal.tsx:86 | A blank description is not sent; otherwise its trimmed text is sent |
| UploadForm.Submit | frontend/src/components/UploadDocumentModal/UploadDocumentModal.tsx:62-93 | A failed check sends nothing. Otherwise the trimmed title, the description and the kept file are sent. Success clears the dialog; failure shows the upload error |
| UploadForm.Close | frontend/src/components/UploadDocumentModal/UploadDocumentModal.tsx:41-47 | Closing clears inputs, file and error |
| UploadForm.SentRequestIsValid | frontend/src/components/UploadDocumentModal/UploadDocumentModal.tsx:62-93 | A sent request has a non-blank title of at most 200 characters, the kept file, and a description that is absent or non-blank with at most 1000 characters |
| UploadForm.NoOversizedFileIsKept | frontend/src/components/UploadDocumentModal/UploadDocumentModal.tsx:49-60 | No sequence of choices, edits, submissions and closings ever leaves a file over 10 MB selected |
| DocumentListView.FileIconAsWritten | frontend/src/components/DocumentList/DocumentList.tsx:38-45 | As written, each icon is chosen exactly when its keyword group matches and no earlier group does, in the order pdf, sheet, word, slide, image |
| DocumentListView.FileIcon | frontend/src/components/DocumentList/DocumentList.tsx:38-45 | The same choice with presentation keywords tried before word-processor ones |
| DocumentListView.PptxIcon | frontend/src/components/DocumentList/DocumentList.tsx:41-42 | The OOXML presentation type gets the word-processor icon as written and the presentation icon when corrected |
| DocumentListView.Subtype | frontend/src/components/DocumentList/DocumentList.tsx:91 | `split('/')[1]` is absent exactly when there is no '/'. Otherwise it is the '/'-free text starting right after the first '/' |
| DocumentListView.TypeLabel | frontend/src/components/DocumentList/DocumentList.tsx:91 | The label is the upper-cased subtype, or "FILE" when the subtype is absent or empty; it is never empty |
| DocumentListView.TypeLabelOfMediaType | frontend/src/components/DocumentList/DocumentList.tsx:91 | For a well-formed media type the label is its subtype in capitals |
| ListPagination.PageChange | frontend/src/components/DocumentList/DocumentList.tsx:24-26 | The 1-based page pressed is requested as the 0-based page one lower |
| ListPagination.HookPageIsListPage | frontend/src/hooks/useDocuments.ts:29 | The page the hooks keep, made 0-based again, is the page the list asked for; the lists draw from their own page state |
| ListPagination.Previous | frontend/src/components/DocumentList/DocumentList.tsx:107-114 | "이전" is enabled exactly when the server reports a previous page, and requests the page before |
| ListPagination.Next | frontend/src/components/DocumentList/DocumentList.tsx:131-138 | "다음" is enabled exactly when the server reports a next page, and requests the page after |
| ListPagination.PageButtons | frontend/src/components/DocumentList/DocumentList.tsx:116-128 | Buttons numbered 1 .. totalPages request pages 0 .. totalPages-1, and only the current page's button is strong |
| ListPagination.OneStrongButton | frontend/src/components/NoticeList/NoticeList.tsx:130-136 | Exactly one button is strong when the current page is in range, and none otherwise |
| ListPagination.MetadataKeepsRequestsInRange | frontend/src/components/NoticeList/NoticeList.tsx:120-150 | With metadata as the services compute it, every pressable button requests a page that holds rows |
| ListPagination.NoticeRequestsStayInRange | frontend/src/components/NoticeList/NoticeList.tsx:120-150 | After fetching a page of notices, the bar requests only pages that hold notices |
| ListPagination.DocumentRequestsStayInRange | frontend/src/components/DocumentList/DocumentList.tsx:105-138 | After fetching a page of documents, the bar requests only pages that hold active documents |
| ListPagination.ShownIffSeveralPages | frontend/src/components/NoticeList/NoticeList.tsx:120 | The bar appears exactly when the notices fill more than one page |
| ClientPagination.TotalPages | frontend-cra-backup/src/components/NoticeList/NoticeList.tsx:81 | `Math.ceil(length/5)` pages cover every row, and one fewer would not |
| ClientPagination.SliceBound | frontend-cra-backup/src/components/NoticeList/NoticeList.tsx:84 | A `slice` bound counts negative values from the end and clamps every value to the length |
| ClientPagination.JsSlice | frontend-cra-backup/src/components/NoticeList/NoticeList.tsx:84 | `slice` returns the rows between its clamped bounds, and none when the end is not past the start |
| ClientPagination.CurrentItems | frontend-cra-backup/src/components/NoticeList/NoticeList.tsx:81-84 | At most five rows are shown; for page 1 or later they are the five rows from `(page-1)*5` |
| ClientPagination.ShownPagesArePages | frontend-cra-backup/src/components/DocumentList/DocumentList.tsx:103-106 | Reading pages 1 .. n in the browser gives the same rows as the server-side pages 0 .. n-1 |
| ClientPagination.AllRowsShown | frontend-cra-backup/src/components/DocumentList/DocumentList.tsx:103-106 | Reading pages 1 .. totalPages shows every row once, in order |
| ClientPagination.PageInRangeHasRows | frontend-cra-backup/src/components/NoticeList/NoticeList.tsx:81-84 | Every page from 1 to totalPages shows at least one row |
| ClientPagination.Previous | frontend-cra-backup/src/components/NoticeList/NoticeList.tsx:126-127 | "이전" is disabled exactly on page 1 and requests the page before |
| ClientPagination.Next | frontend-cra-backup/src/components/NoticeList/NoticeList.tsx:150-151 | "다음" is disabled exactly on the last page and requests the page after |
| ClientPagination.PageButtons | frontend-cra-backup/src/components/NoticeList/NoticeList.tsx:133-137 | Buttons numbered 1 .. totalPages request their own number, and only the current page's button is strong |
| ClientPagination.OneStrongButton | frontend-cra-backup/src/components/DocumentList/DocumentList.tsx:177 | Exactly one button is strong when the page is in range, and none otherwise |
| ClientPagination.PageStaysInRange | frontend-cra-backup/src/components/DocumentList/DocumentList.tsx:161-191 | Starting on a valid page, no sequence of presses leaves pages 1 .. totalPages (or page 1 when there are none) |
| ClientPagination.LegacyFileIcon | frontend-cra-backup/src/components/DocumentList/DocumentList.tsx:117-130 | Each icon is chosen exactly for its short name "PDF", "XLSX", "DOCX" or "PPTX"; every other name gets the folder |
| ClientPagination.PdfIconsAgree | frontend-cra-backup/src/components/DocumentList/DocumentList.tsx:117-130 | For every well-formed media type with subtype "pdf", the newer list labels it "PDF", and the earlier list's icon for that label is the PDF icon the newer list chooses |
| Text.IndexOfFirst | frontend/src/components/DocumentList/DocumentList.tsx:91 | `indexOf` finds the first occurrence: no earlier position holds the character |
| Text.Trim | frontend/src/components/CreateNoticeModal/CreateNoticeModal.tsx:64 | The trimmed text is a slice of the input with only characters of the class cut from either side, and neither of its ends is in the class; it is empty exactly when every character is in the class |
| Text.TrimIdempotent | frontend/src/components/CreateNoticeModal/CreateNoticeModal.tsx:64 | Trimming twice is trimming once |
| Text.ReplaceAllKeepsClass | src/main/java/com/facilityassist/config/DataInitializer.java:87-100 | Replacing within a character class, by text of that class, stays inside the class |

## Left out

- Authentication and login (`AuthController`, `CustomUserDetailsService`, the security filter chain) are left out. The signed-in caller is an `Option<Authentication>` argument.
- `DocumentService.uploadDocument` is not part of this model. The upload controller receives it as a function argument.
- NoticeController.ValidRequest: `CreateNoticeRequest` is not part of this model. The predicate assumes that its `@NotBlank` title and content are all the validation the controller applies, with the Hibernate Validator meaning of `@NotBlank`: not null, and something left after `trim()`. `NoticeControllerTest` shows only that empty strings are rejected.
- Dates and their formatting (`formattedDate`, `LocalDateTime.now()`) are left out. Times are natural numbers, and one seeding run uses a single `now` for every row.
- DocumentService.FormatFileSize: models the unit choice and the whole part of the scaled size. The one decimal of `"%.1f"` is left out because it is floating-point rounding. The `double` divisions are modelled as exact; sizes above 2^53 bytes, where `doubleValue()` rounds, are not distinguished.
- String lengths count Unicode code points, where Java and JavaScript count UTF-16 units. The two agree for the Hangul and ASCII text of the application.
- Case folding (`likeIgnoreCase`, `toUpperCase`, `toLowerCase`) is ASCII-only.
- NoticeRepository.Search: `%` and `_` in the search text are taken literally. SQL `LIKE` would treat them as wildcards.
- Null fields are modelled as `Option`. Database failures are left out, except the unique unit code, which is the only one the seeding code can trigger.
- Column lengths and the JPA entity listeners are left out.
- The password encoder's output, and the sample notices and documents, are arguments of the seeding.
- Seqs.SortDesc: is one fixed order. Rows with equal keys keep their table order, while SQL `ORDER BY` on a non-unique column leaves ties in no promised order. The model therefore picks one of the orders the database may return.
- DocumentRepository.ActivePagesReassemble: holds only if every page query orders documents with equal `uploaded_at` the same way. SQL does not promise this, and without it a tied row may appear on two pages or on none. Seeding gives every sample row the same time, so the sample rows are all tied.
- NoticeRepository.NoticePagesReassemble: holds only if every page query orders notices with equal `created_at` the same way, for the same reason.
- DocumentController.UploadDocument: is glue around the upload service. That service (`DocumentService.uploadDocument`, with file storage and validation) is not part of this model, so its result is an argument.
- MediaTypes.ParseMediaType: the parameters after ';' are not checked. Spring also requires each attribute to be a token, each value a token or a quoted string, a `charset` the Java runtime supports, and a `q` between 0 and 1, and otherwise throws.
- DocumentController.DownloadDocument: wildcard types are refused as `HttpHeaders.setContentType` refuses them. Because parameters are not checked, a stored type such as "text/plain;charset=bogus" gets 200 in the model, where the source answers 500 (DocumentController.java:129-132). The `filename` of the disposition is modelled as present or absent. Its quoting and RFC 5987 encoding for non-ASCII names are left out.
- React state updates, effects, asynchronous promises and the API clients are left out. A submission's outcome is an `accepts` argument, and a list's state is the metadata of one response.
- The earlier lists' mock rows are the list argument.
- Seeding.SeedUnits: that the twenty start-up names give twenty distinct codes is not proved. A collision is modelled as the failure the unique constraint would raise.
- `UnitController`, `UserController` and the facility task and assignment entities are left out. They are outside the notice, document and seeding core.

## Findings

| source | as written | input that shows it | evidently intended | confidence | as-written member | corrected member |
|---|---|---|---|---|---|---|
| src/main/java/com/facilityassist/config/DataInitializer.java:89-100 | "비행단" is replaced by "WING" before the longer "훈련비행단", "공중기동비행단" and "특수임무비행단" patterns, so those never match | "제3훈련비행단" gives "3훈련WING" | "3TRAIN", as the comment next to the rule says (likewise "MOBILE" and "SPECIAL") | high; not executed | UnitCode.GenerateAsWritten (shown by UnitCode.TrainingWingCode and UnitCode.ThirdTrainingWing) | UnitCode.Generate (UnitCode.TrainingWingCode; the seeding model keeps the code as written) |
| frontend/src/components/DocumentList/DocumentList.tsx:41-42 | The word-processor keywords are tested before the presentation ones, and "document" occurs in "officedocument" | "application/vnd.openxmlformats-officedocument.presentationml.presentation" gets the 📝 icon | the 📋 presentation icon | high; not executed | DocumentListView.FileIconAsWritten (shown by DocumentListView.PptxIcon) | DocumentListView.FileIcon (DocumentListView.PptxIcon) |

=== FILE: api.dfy ===
/** The HTTP envelope the controllers answer with: a status and, for most
    answers, an `ApiResponse` body. */
module Api {
  import opened Results

  datatype Status = Ok | BadRequest | NotFound | InternalServerError

  /** `ApiResponse<T>`: `data` is null unless set by the builder. */
  datatype ApiResponse<T> = ApiResponse(success: bool, message: string, data: Option<T>)

  /** `ResponseEntity<ApiResponse<T>>`: `notFound().build()` and the
      validation failure carry no body. */
  datatype Reply<T> = Reply(status: Status, body: Option<ApiResponse<T>>)

  /** `ResponseEntity.ok(ApiResponse.success(true).message(m).data(d))`. */
  function Succeeded<T>(message: string, data: T): Reply<T>
  {
    Reply(Ok, Some(ApiResponse(true, message, Some(data))))
  }

  /** `ResponseEntity.internalServerError().body(ApiResponse.success(false).message(m))`. */
  function Failed<T>(message: string): Reply<T>
  {
    Reply(InternalServerError, Some(ApiResponse(false, message, None)))
  }

  /** A reply is well formed when `success` agrees with the status and data
      is present exactly on success. */
  predicate Consistent<T>(r: Reply<T>)
  {
    match r.body
    case None => r.status != Ok
    case Some(b) => (b.success <==> r.status == Ok) && (b.data.Some? <==> b.success)
  }
}

=== FILE: client_pagination.dfy ===
/** The earlier lists (`NoticeList` and `DocumentList` of the first
    front end), which page a fixed list in the browser: a 1-based current
    page, five rows per page cut with `Array.prototype.slice`, and a bar of
    previous/next and numbered buttons. The document list also picks an
    icon from a short type name. */
module ClientPagination {
  import opened Seqs
  import ListPagination
  import DocumentListView
  import Text
  import MediaTypes

  const ITEMS_PER_PAGE: nat := 5

  /** `Math.ceil(length / itemsPerPage)`. */
  function TotalPages(n: nat): (r: nat)
    ensures r * ITEMS_PER_PAGE >= n
    ensures r == 0 || (r - 1) * ITEMS_PER_PAGE < n
  {
    CeilDivIsLeast(n, ITEMS_PER_PAGE);
    CeilDiv(n, ITEMS_PER_PAGE)
  }

  /** A `slice` bound: negative values count from the end, and every value
      is clamped to `0 .. length`. */
  function SliceBound(len: nat, k: int): (r: nat)
    ensures r <= len
    ensures 0 <= k <= len ==> r == k
    ensures k > len ==> r == len
    ensures k < 0 ==> r == if len + k > 0 then len + k else 0
  {
    if k < 0 then (if len + k > 0 then len + k else 0)
    else if k > len then len
    else k
  }

  /** `s.slice(start, end)`: the rows between the two bounds, none when the
      end bound is not past the start bound. */
  function JsSlice<T>(s: seq<T>, start: int, end: int): (r: seq<T>)
    ensures var a := SliceBound(|s|, start); var b := SliceBound(|s|, end);
      (a < b ==> r == s[a..b]) && (a >= b ==> r == [])
  {
    var a := SliceBound(|s|, start);
    var b := SliceBound(|s|, end);
    if a < b then s[a..b] else []
  }

  /** The rows of 1-based page `page`: from `(page - 1) * itemsPerPage` to
      `itemsPerPage` further. */
  function CurrentItems<T>(s: seq<T>, page: int): (r: seq<T>)
    ensures |r| <= ITEMS_PER_PAGE
    ensures page >= 1 ==> r == Slice(s, (page - 1) * ITEMS_PER_PAGE, ITEMS_PER_PAGE)
  {
    var start := (page - 1) * ITEMS_PER_PAGE;
    JsSlice(s, start, start + ITEMS_PER_PAGE)
  }

  /** Pages 1 .. count, one after the other. */
  function ShownPages<T>(s: seq<T>, count: nat): seq<T>
  {
    if count == 0 then [] else ShownPages(s, count - 1) + CurrentItems(s, count)
  }

  lemma {:induction false} ShownPagesArePages<T>(s: seq<T>, count: nat)
    ensures ShownPages(s, count) == Pages(s, ITEMS_PER_PAGE, count)
  {
    if count > 0 {
      ShownPagesArePages(s, count - 1);
    }
  }

  /** Reading pages 1 .. totalPages in turn shows every row once, in order. */
  lemma AllRowsShown<T>(s: seq<T>)
    ensures ShownPages(s, TotalPages(|s|)) == s
  {
    ShownPagesArePages(s, TotalPages(|s|));
    AllPagesReassemble(s, ITEMS_PER_PAGE);
  }

  /** Every page in range has a row. */
  lemma PageInRangeHasRows<T>(s: seq<T>, page: int)
    requires 1 <= page <= TotalPages(|s|)
    ensures CurrentItems(s, page) != []
  {
    var start := (page - 1) * ITEMS_PER_PAGE;
    assert start < |s|;
    assert s[start] == CurrentItems(s, page)[0];
  }

  /** The bar is drawn when the rows fill more than one page. */
  predicate Shown(totalPages: nat)
  {
    totalPages > 1
  }

  /** "이전" is disabled on page 1 and asks for the page before. */
  function Previous(page: int): (b: ListPagination.Button)
    ensures b.enabled <==> page != 1
    ensures b.target == page - 1
  {
    ListPagination.Button(page != 1, page - 1)
  }

  /** "다음" is disabled on the last page and asks for the page after. */
  function Next(page: int, totalPages: nat): (b: ListPagination.Button)
    ensures b.enabled <==> page != totalPages
    ensures b.target == page + 1
  {
    ListPagination.Button(page != totalPages, page + 1)
  }

  /** The numbered buttons 1 .. totalPages; the current page's is strong. */
  function PageButtons(page: int, totalPages: nat): (r: seq<ListPagination.PageButton>)
    ensures |r| == totalPages
    ensures forall i :: 0 <= i < |r| ==> r[i].number == i + 1 && r[i].target == i + 1
    ensures forall i :: 0 <= i < |r| ==> (r[i].strong <==> i + 1 == page)
  {
    seq(totalPages, i requires 0 <= i < totalPages => ListPagination.PageButton(i + 1, page == i + 1, i + 1))
  }

  /** Exactly one numbered button is strong while the page is in range. */
  lemma OneStrongButton(page: int, totalPages: nat)
    ensures var r := PageButtons(page, totalPages);
      (exists i :: 0 <= i < |r| && r[i].strong) <==> 1 <= page <= totalPages
    ensures var r := PageButtons(page, totalPages);
      forall i, j :: 0 <= i < |r| && 0 <= j < |r| && r[i].strong && r[j].strong ==> i == j
  {
    var r := PageButtons(page, totalPages);
    if 1 <= page <= totalPages {
      assert r[page - 1].strong;
    }
  }

  /** A press on the bar: previous, next, or the numbered button at an
      index. */
  datatype Press = PressPrevious | PressNext | PressNumber(index: int)

  /** The page after a press. Nothing happens when the bar is not drawn,
      the button is disabled, or there is no button at that index. */
  function Step(page: int, totalPages: nat, p: Press): int
  {
    if !Shown(totalPages) then page
    else match p
      case PressPrevious => if Previous(page).enabled then Previous(page).target else page
      case PressNext => if Next(page, totalPages).enabled then Next(page, totalPages).target else page
      case PressNumber(i) =>
        var r := PageButtons(page, totalPages);
        if 0 <= i < |r| then r[i].target else page
  }

  function Replay(page: int, totalPages: nat, presses: seq<Press>): int
    decreases |presses|
  {
    if presses == [] then page else Replay(Step(page, totalPages, presses[0]), totalPages, presses[1..])
  }

  /** Starting on page 1, no sequence of presses leaves the pages
      1 .. totalPages (or page 1 when there are none), so the rows shown are
      always a page of the list. */
  lemma {:induction false} PageStaysInRange(page: int, totalPages: nat, presses: seq<Press>)
    requires 1 <= page && (page <= totalPages || page == 1)
    ensures var q := Replay(page, totalPages, presses);
      1 <= q && (q <= totalPages || q == 1)
    decreases |presses|
  {
    if presses != [] {
      PageStaysInRange(Step(page, totalPages, presses[0]), totalPages, presses[1..]);
    }
  }

  /** The earlier document list's icon, chosen from the short type name. */
  function LegacyFileIcon(t: string): (r: DocumentListView.Icon)
    ensures r == DocumentListView.Pdf <==> t == "PDF"
    ensures r == DocumentListView.Sheet <==> t == "XLSX"
    ensures r == DocumentListView.Word <==> t == "DOCX"
    ensures r == DocumentListView.Slide <==> t == "PPTX"
    ensures r == DocumentListView.Folder <==> t !in {"PDF", "XLSX", "DOCX", "PPTX"}
  {
    match t
    case "PDF" => DocumentListView.Pdf
    case "XLSX" => DocumentListView.Sheet
    case "DOCX" => DocumentListView.Word
    case "PPTX" => DocumentListView.Slide
    case _ => DocumentListView.Folder
  }

  /** The two lists agree on every PDF upload: for a well-formed media type
      with subtype "pdf" the newer list's label is "PDF", the earlier list's
      icon for that label is the PDF icon, and so is the newer list's
      keyword choice on the full type. */
  lemma PdfIconsAgree(m: MediaTypes.MediaType)
    requires MediaTypes.WellFormed(m) && m.subtype == "pdf"
    ensures DocumentListView.TypeLabel(MediaTypes.Format(m)) == "PDF"
    ensures LegacyFileIcon(DocumentListView.TypeLabel(MediaTypes.Format(m)))
      == DocumentListView.FileIcon(MediaTypes.Format(m)) == DocumentListView.Pdf
  {
    DocumentListView.TypeLabelOfMediaType(m);
    assert Text.Upper("pdf") == "PDF";
    MediaTypes.FormatSlash(m);
    assert Text.SliceAt(MediaTypes.Format(m), "pdf", |m.mainType| + 1);
  }
}

=== FILE: document_controller.dfy ===
/** `DocumentController`: wraps the document service's results in the HTTP
    envelope, builds the single-page "all" listing and the download
    response. */
module DocumentController {
  import opened Results
  import opened Entities
  import opened Paging
  import opened Api
  import opened MediaTypes
  import opened Text
  import opened DocumentRepository
  import DocumentService

  const FOUND := "문서를 성공적으로 조회했습니다."
  const FETCH_FAILED := "문서 조회 중 오류가 발생했습니다."
  const ALL_FOUND := "전체 문서를 성공적으로 조회했습니다."
  const UPLOADED := "문서가 성공적으로 업로드되었습니다."
  const UPLOAD_FAILED := "문서 업로드 중 오류가 발생했습니다: "

  /** `GET /api/documents?page&size`: the service's page on success; the
      service throws exactly when `PageRequest.of` rejects the arguments,
      and that becomes a 500 without data. */
  function GetRecentDocuments(docs: seq<Document>, page: int32, size: int32): (r: Reply<DocumentService.DocumentListResponse>)
    ensures Consistent(r)
    ensures r.status == Ok <==> page >= 0 && size >= 1
    ensures r.status != Ok ==> r == Failed(FETCH_FAILED)
    ensures r.status == Ok ==> (r.body.value.message == FOUND
      && r.body.value.data.value.currentPage == WrapInt(page + 1)
      && |r.body.value.data.value.documents| <= size)
  {
    match DocumentService.GetRecentDocuments(docs, page, size)
    case Success(list) => Succeeded(FOUND, list)
    case Failure(_) => Failed(FETCH_FAILED)
  }

  /** `GET /api/documents/{id}`: the full response of the active document,
      or 404 without a body. */
  function GetDocumentById(docs: seq<Document>, id: nat): (r: Reply<DocumentService.DocumentResponse>)
    ensures Consistent(r)
    ensures r.status == NotFound <==> forall i :: 0 <= i < |docs| ==> !(docs[i].id == id && IsActive(docs[i]))
    ensures r.status == NotFound ==> r.body.None?
    ensures r.status != NotFound ==> (r.status == Ok && r.body.value.message == FOUND
      && exists d :: d in docs && d.id == id && IsActive(d) && r.body.value.data == Some(DocumentService.ToResponse(d)))
  {
    match DocumentService.GetDocumentById(docs, id)
    case Some(d) => Succeeded(FOUND, d)
    case None => Reply(NotFound, None)
  }

  /** A `form-data` `Content-Disposition`: its `name` and, when present,
      its `filename`. */
  datatype Disposition = FormData(name: string, fileName: Option<string>)

  /** `setContentDispositionFormData(name, fileName)`: the file name is
      added only when `StringUtils.hasText` holds for it, so a blank name
      gives `form-data; name="..."` alone. */
  function FormDataDisposition(name: string, fileName: string): (d: Disposition)
    ensures d.name == name
    ensures d.fileName.Some? <==> HasText(fileName)
    ensures d.fileName.Some? ==> d.fileName.value == fileName
  {
    FormData(name, if HasText(fileName) then Some(fileName) else None)
  }

  /** An empty or all-space file name is left out of the header, while a
      name with one visible character is kept whole. */
  lemma BlankFileNameOmitted()
    ensures FormDataDisposition("attachment", "").fileName.None?
    ensures FormDataDisposition("attachment", "   ").fileName.None?
    ensures FormDataDisposition("attachment", " a.pdf").fileName == Some(" a.pdf")
  {
    assert !IsJavaWhitespace(" a.pdf"[1]);
  }

  datatype DownloadHeaders = DownloadHeaders(contentType: MediaType, disposition: Disposition, contentLength: nat)

  /** `ResponseEntity<byte[]>`: headers and body are set only on 200. */
  datatype DownloadReply = DownloadReply(status: Status, headers: Option<DownloadHeaders>, body: seq<byte>)

  /** The stored row can be sent: its type parses, `setContentType` takes
      it (no wildcard), and its size is set (`setContentLength` unboxes the
      `Long`). */
  predicate Sendable(w: DocumentService.DocumentDownload)
  {
    ParseMediaType(w.fileType).Some? && IsConcrete(ParseMediaType(w.fileType).value) && w.fileSize.Some?
  }

  /** `GET /api/documents/{id}/download`: 404 when no active document has
      the id; 500 when the stored type does not parse or is a wildcard, or
      the size is missing; otherwise 200 with the stored bytes, and headers that carry
      the stored type, the file name unless it is blank, and the size. */
  function DownloadDocument(docs: seq<Document>, id: nat): (r: DownloadReply)
    ensures r.status == NotFound <==> forall i :: 0 <= i < |docs| ==> !(docs[i].id == id && IsActive(docs[i]))
    ensures r.status != Ok ==> r.headers.None? && r.body == []
    ensures var found := DocumentService.GetDocumentForDownload(docs, id);
      r.status == InternalServerError <==> found.Some? && !Sendable(found.value)
    ensures r.status == Ok ==> (exists d :: d in docs && d.id == id && IsActive(d) && Sent(d, r))
    ensures r.status == Ok ==> IsConcrete(r.headers.value.contentType)
    ensures r.status == Ok ==> var w := DocumentService.GetDocumentForDownload(docs, id).value;
      r.headers.value.disposition.name == "attachment"
      && (r.headers.value.disposition.fileName.Some? <==> HasText(w.fileName))
  {
    match FindByIdActive(docs, id)
    case None => DownloadReply(NotFound, None, [])
    case Some(d) =>
      var w := DocumentService.ToDownload(d);
      if !Sendable(w) then DownloadReply(InternalServerError, None, [])
      else
        var r := DownloadReply(Ok, Some(DownloadHeaders(ParseMediaType(w.fileType).value, FormDataDisposition("attachment", w.fileName), w.fileSize.value)),
          w.fileContent);
        assert Sent(d, r);
        r
  }

  /** Any stored type that parses to a wildcard type or subtype is
      refused by `setContentType`, so its download is answered 500 with
      nothing sent. */
  lemma WildcardTypeIsRefused(docs: seq<Document>, id: nat, m: MediaType)
    requires WellFormed(m) && !IsConcrete(m)
    requires DocumentService.GetDocumentForDownload(docs, id).Some?
    requires DocumentService.GetDocumentForDownload(docs, id).value.fileType == Format(m)
    ensures DownloadDocument(docs, id).status == InternalServerError
    ensures DownloadDocument(docs, id).headers.None? && DownloadDocument(docs, id).body == []
  {
    ParseFormat(m);
  }

  // The stored types "*/*", "image/*" and "application/*+json" all parse,
  // and all get 500.
  lemma StoredWildcardsAreRefused(docs: seq<Document>, id: nat)
    requires DocumentService.GetDocumentForDownload(docs, id).Some?
    requires DocumentService.GetDocumentForDownload(docs, id).value.fileType in ["*/*", "image/*", "application/*+json"]
    ensures DownloadDocument(docs, id).status == InternalServerError
  {
    var t := DocumentService.GetDocumentForDownload(docs, id).value.fileType;
    if t == "*/*" {
      AnyTypeExample();
      WildcardTypeIsRefused(docs, id, MediaType("*", "*"));
    } else if t == "image/*" {
      AnyImageExample();
      WildcardTypeIsRefused(docs, id, MediaType("image", "*"));
    } else {
      AnyJsonExample();
      WildcardTypeIsRefused(docs, id, MediaType("application", "*+json"));
    }
  }

  /** The 200 answer mirrors the stored row: its bytes as the body, and its
      type, file name (when not blank) and size in the headers. */
  predicate Sent(d: Document, r: DownloadReply)
  {
    r.body == d.fileContent
    && d.fileSize.Some? && ParseMediaType(d.fileType).Some? && IsConcrete(ParseMediaType(d.fileType).value)
    && r.headers == Some(DownloadHeaders(ParseMediaType(d.fileType).value, FormDataDisposition("attachment", d.fileName), d.fileSize.value))
  }

  /** The list shape of `GET /api/documents/all`: one page holding every
      summary. `List.size()` saturates at `Integer.MAX_VALUE`. */
  function AllAsOnePage(list: seq<DocumentService.DocumentSummary>): (r: DocumentService.DocumentListResponse)
    ensures r.documents == list
    ensures r.currentPage == 1 && r.totalPages == 1 && !r.hasNext && !r.hasPrevious
    ensures |list| <= INT_MAX ==> r.totalCount == |list|
  {
    DocumentService.DocumentListResponse(list, SaturateInt(|list|), 1, 1, false, false)
  }

  /** `GET /api/documents/all`: every active document in a single page. */
  function GetAllDocuments(docs: seq<Document>): (r: Reply<DocumentService.DocumentListResponse>)
    ensures Consistent(r) && r.status == Ok && r.body.value.message == ALL_FOUND
    ensures r.body.value.data.value == AllAsOnePage(DocumentService.GetAllDocuments(docs))
  {
    Succeeded(ALL_FOUND, AllAsOnePage(DocumentService.GetAllDocuments(docs)))
  }

  /** The single-page listing reports the number of active documents and
      describes a page that holds all of them. */
  lemma AllDocumentsIsWholeList(docs: seq<Document>)
    requires CountActive(docs) <= INT_MAX
    ensures var v := GetAllDocuments(docs).body.value.data.value;
      v.totalCount == CountActive(docs) == |v.documents|
      && (forall i :: 0 <= i < |v.documents| ==> v.documents[i] == DocumentService.ToSummary(FindAllActive(docs)[i]))
  {
  }

  /** The multipart file as received. */
  datatype UploadedFile = UploadedFile(originalFilename: string, contentType: string, bytes: seq<byte>)

  /** `UploadDocumentRequest`, built from the three form fields. */
  datatype UploadDocumentRequest = UploadDocumentRequest(title: string, description: Option<string>, file: UploadedFile)

  /** `POST /api/documents`: the form fields go to the upload service
      unchanged; its result or its exception message is wrapped. The
      upload service is not part of this model and is a parameter. */
  function UploadDocument(title: string, description: Option<string>, file: UploadedFile,
                          upload: UploadDocumentRequest -> Result<DocumentService.DocumentResponse, string>): (r: Reply<DocumentService.DocumentResponse>)
    ensures Consistent(r) && r.body.Some?
    ensures var sent := upload(UploadDocumentRequest(title, description, file));
      (r.status == Ok <==> sent.Success?)
      && (r.status == Ok || r.status == InternalServerError)
      && (sent.Success? ==> r.body.value.data == Some(sent.value) && r.body.value.message == UPLOADED)
      && (sent.Failure? ==> UPLOAD_FAILED <= r.body.value.message
                            && r.body.value.message[|UPLOAD_FAILED|..] == sent.error)
  {
    match upload(UploadDocumentRequest(title, description, file))
    case Success(d) => Succeeded(UPLOADED, d)
    case Failure(e) => Failed(UPLOAD_FAILED + e)
  }
}

=== FILE: document_list_view.dfy ===
/** What the document list (`DocumentList`) shows for one row: the icon
    chosen from the stored media type by keyword, and the type label cut
    from the media type's subtype. */
module DocumentListView {
  import opened Results
  import opened Text
  import opened MediaTypes

  /** The six icons of the list: 📄 📊 📝 📋 🖼️ 📁. */
  datatype Icon = Pdf | Sheet | Word | Slide | Image | Folder

  predicate PdfKey(t: string) { Contains(t, "pdf") }

  predicate SheetKey(t: string)
  {
    Contains(t, "excel") || Contains(t, "spreadsheet") || Contains(t, "xlsx")
  }

  predicate WordKey(t: string)
  {
    Contains(t, "word") || Contains(t, "document") || Contains(t, "docx")
  }

  predicate SlideKey(t: string)
  {
    Contains(t, "presentation") || Contains(t, "powerpoint") || Contains(t, "pptx")
  }

  predicate ImageKey(t: string)
  {
    Contains(t, "image") || Contains(t, "jpeg") || Contains(t, "jpg") || Contains(t, "png")
  }

  /** `getFileIcon` as written: the keyword groups are tried in the order
      pdf, spreadsheet, word processor, presentation, image. */
  function FileIconAsWritten(t: string): (r: Icon)
    ensures r == Pdf <==> PdfKey(t)
    ensures r == Sheet <==> !PdfKey(t) && SheetKey(t)
    ensures r == Word <==> !PdfKey(t) && !SheetKey(t) && WordKey(t)
    ensures r == Slide <==> !PdfKey(t) && !SheetKey(t) && !WordKey(t) && SlideKey(t)
    ensures r == Image <==> !PdfKey(t) && !SheetKey(t) && !WordKey(t) && !SlideKey(t) && ImageKey(t)
  {
    if PdfKey(t) then Pdf
    else if SheetKey(t) then Sheet
    else if WordKey(t) then Word
    else if SlideKey(t) then Slide
    else if ImageKey(t) then Image
    else Folder
  }

  /** The icon choice with the presentation keywords tried before the word
      processor ones, so that an OOXML presentation type, whose name also
      holds "officedocument", gets the presentation icon. */
  function FileIcon(t: string): (r: Icon)
    ensures r == Pdf <==> PdfKey(t)
    ensures r == Sheet <==> !PdfKey(t) && SheetKey(t)
    ensures r == Slide <==> !PdfKey(t) && !SheetKey(t) && SlideKey(t)
    ensures r == Word <==> !PdfKey(t) && !SheetKey(t) && !SlideKey(t) && WordKey(t)
    ensures r == Image <==> !PdfKey(t) && !SheetKey(t) && !WordKey(t) && !SlideKey(t) && ImageKey(t)
  {
    if PdfKey(t) then Pdf
    else if SheetKey(t) then Sheet
    else if SlideKey(t) then Slide
    else if WordKey(t) then Word
    else if ImageKey(t) then Image
    else Folder
  }

  /** The two orders disagree exactly on types that hold both a word
      processor keyword and a presentation keyword (and no earlier one). */
  lemma IconOrdersDiffer(t: string)
    ensures FileIconAsWritten(t) != FileIcon(t) <==>
      !PdfKey(t) && !SheetKey(t) && WordKey(t) && SlideKey(t)
    ensures FileIconAsWritten(t) != FileIcon(t) ==> FileIconAsWritten(t) == Word && FileIcon(t) == Slide
  {
  }

  /** The media type stored for a PowerPoint upload, written as its words
      and the separators between them; "openxmlformats" is split at its 'm'. */
  const PPTX_TYPE := "application" + ("/" + ("vnd" + ("." + (("openx" + ("m" + "lformats"))
    + ("-" + ("officedocument" + ("." + ("presentationml" + ("." + "presentation")))))))))

  /** A word that lacks one of the characters of `part` does not hold it. */
  lemma Lacks(word: string, part: string, c: char)
    requires c in part && c !in word
    ensures !Contains(word, part)
  {
    ContainedCharsOccur(word, part);
  }

  /** A keyword with none of the separators, found in none of the words,
      is not in `PPTX_TYPE`. */
  lemma NotInPptxType(part: string)
    requires '/' !in part && '.' !in part && '-' !in part && 'm' !in part
    requires !Contains("application", part) && !Contains("vnd", part)
    requires !Contains("openx", part) && !Contains("lformats", part)
    requires !Contains("officedocument", part) && !Contains("presentationml", part)
    requires !Contains("presentation", part)
    ensures !Contains(PPTX_TYPE, part)
  {
    ContainsAcross("presentationml", ".", "presentation", part);
    ContainsAcross("officedocument", ".", "presentationml" + ("." + "presentation"), part);
    var tail := "officedocument" + ("." + ("presentationml" + ("." + "presentation")));
    ContainsAcross("openx", "m", "lformats", part);
    ContainsAcross("openx" + ("m" + "lformats"), "-", tail, part);
    var rest := ("openx" + ("m" + "lformats")) + ("-" + tail);
    ContainsAcross("vnd", ".", rest, part);
    ContainsAcross("application", "/", "vnd" + ("." + rest), part);
  }

  lemma PptxNotPdf()
    ensures !PdfKey(PPTX_TYPE)
  {
    var p := "pdf";
    Lacks("application", p, 'd');
    Lacks("vnd", p, 'p');
    Lacks("openx", p, 'd');
    Lacks("lformats", p, 'p');
    Lacks("officedocument", p, 'p');
    Lacks("presentationml", p, 'd');
    Lacks("presentation", p, 'd');
    NotInPptxType(p);
  }

  lemma PptxNotExcel()
    ensures !Contains(PPTX_TYPE, "excel")
  {
    var p := "excel";
    Lacks("application", p, 'x');
    Lacks("vnd", p, 'e');
    Lacks("openx", p, 'c');
    Lacks("lformats", p, 'x');
    Lacks("officedocument", p, 'x');
    Lacks("presentationml", p, 'x');
    Lacks("presentation", p, 'x');
    NotInPptxType(p);
  }

  lemma PptxNotSpreadsheet()
    ensures !Contains(PPTX_TYPE, "spreadsheet")
  {
    var p := "spreadsheet";
    Lacks("application", p, 'h');
    Lacks("vnd", p, 's');
    Lacks("openx", p, 'h');
    Lacks("lformats", p, 'h');
    Lacks("officedocument", p, 'h');
    Lacks("presentationml", p, 'h');
    Lacks("presentation", p, 'h');
    NotInPptxType(p);
  }

  lemma PptxNotXlsx()
    ensures !Contains(PPTX_TYPE, "xlsx")
  {
    var p := "xlsx";
    Lacks("application", p, 'x');
    Lacks("vnd", p, 'x');
    Lacks("openx", p, 'l');
    Lacks("lformats", p, 'x');
    Lacks("officedocument", p, 'x');
    Lacks("presentationml", p, 'x');
    Lacks("presentation", p, 'x');
    NotInPptxType(p);
  }

  /** An occurrence in the part after "openxmlformats-" is an occurrence in
      `PPTX_TYPE`. */
  lemma InPptxType(part: string)
    requires Contains("officedocument" + ("." + ("presentationml" + ("." + "presentation"))), part)
    ensures Contains(PPTX_TYPE, part)
  {
    var tail := "officedocument" + ("." + ("presentationml" + ("." + "presentation")));
    var w := "openx" + ("m" + "lformats");
    ContainsInConcat("-", tail, part);
    ContainsInConcat(w, "-" + tail, part);
    var rest := w + ("-" + tail);
    ContainsInConcat(".", rest, part);
    ContainsInConcat("vnd", "." + rest, part);
    ContainsInConcat("/", "vnd" + ("." + rest), part);
    ContainsInConcat("application", "/" + ("vnd" + ("." + rest)), part);
  }

  lemma PptxHasKeys()
    ensures Contains(PPTX_TYPE, "document") && Contains(PPTX_TYPE, "presentation")
  {
    var pres := "presentationml" + ("." + "presentation");
    assert SliceAt(pres, "presentation", 0);
    ContainsInConcat(".", pres, "presentation");
    ContainsInConcat("officedocument", "." + pres, "presentation");
    InPptxType("presentation");
    assert SliceAt("officedocument", "document", 6);
    ContainsInConcat("officedocument", "." + pres, "document");
    InPptxType("document");
  }

  /** The icon of a PowerPoint upload: the word processor icon as written,
      the presentation icon once presentations are tried first. */
  lemma PptxIcon()
    ensures FileIconAsWritten(PPTX_TYPE) == Word
    ensures FileIcon(PPTX_TYPE) == Slide
  {
    PptxNotPdf();
    PptxNotExcel();
    PptxNotSpreadsheet();
    PptxNotXlsx();
    PptxHasKeys();
  }

  /** `fileType.split('/')[1]`: the text between the first '/' and the next
      one (or the end), absent when there is no '/'. */
  function Subtype(t: string): (r: Option<string>)
    ensures r.None? <==> '/' !in t
    ensures r.Some? ==> '/' !in r.value
    ensures r.Some? ==> exists a :: SliceAt(t, r.value, a) && a == IndexOf(t, '/') + 1
  {
    if '/' !in t then None
    else
      var rest := t[IndexOf(t, '/') + 1..];
      var n := if '/' in rest then IndexOf(rest, '/') else |rest|;
      assert SliceAt(t, rest[..n], IndexOf(t, '/') + 1);
      Some(rest[..n])
  }

  /** The type label: the upper-cased subtype, or "FILE" when there is none
      or it is empty (`?.` and `||` in the template). */
  function TypeLabel(t: string): (r: string)
    ensures Subtype(t).Some? && Subtype(t).value != [] ==> r == Upper(Subtype(t).value)
    ensures Subtype(t).None? || Subtype(t).value == [] ==> r == "FILE"
    ensures r != []
  {
    match Subtype(t)
    case Some(s) => if s == [] then "FILE" else Upper(s)
    case None => "FILE"
  }

  /** For a well-formed media type the label is its subtype in capitals,
      as in "PDF" for "application/pdf". */
  lemma {:induction false} TypeLabelOfMediaType(m: MediaType)
    requires WellFormed(m)
    ensures TypeLabel(Format(m)) == Upper(m.subtype)
  {
    FormatSlash(m);
    var t := Format(m);
    assert t[IndexOf(t, '/') + 1..] == m.subtype;
    assert '/' !in m.subtype by {
      forall i | 0 <= i < |m.subtype| ensures m.subtype[i] != '/' {
        assert IsTokenChar(m.subtype[i]);
      }
    }
  }
}

=== FILE: document_repository.dfy ===
/** The QueryDSL document queries of `DocumentRepositoryImpl`. The table is a
    sequence of rows; every query keeps the active rows (`isActive = true`),
    orders them newest first by `uploadedAt` and, for the paged variant,
    cuts out one window. */
module DocumentRepository {
  import opened Results
  import opened Seqs
  import opened Entities
  import opened Paging

  /** `findAllActiveOrderByUploadedAtDesc()`: exactly the active rows, each
      as often as it is stored, newest first. */
  function FindAllActive(docs: seq<Document>): (r: seq<Document>)
    ensures forall d :: multiset(r)[d] == if IsActive(d) then multiset(docs)[d] else 0
    ensures forall d :: d in r <==> d in docs && IsActive(d)
    ensures SortedDesc(r, UploadedAt)
  {
    var r := SortDesc(Filter(docs, IsActive), UploadedAt);
    PermutationSameMembers(r, Filter(docs, IsActive));
    r
  }

  /** `countActiveDocuments()`: the number of active rows. */
  function CountActive(docs: seq<Document>): (n: nat)
    ensures n == |FindAllActive(docs)|
    ensures n <= |docs|
  {
    if |docs| == 0 then 0
    else
      assert docs == [docs[0]] + docs[1..];
      assert multiset(docs) == multiset{docs[0]} + multiset(docs[1..]);
      CountActive(docs[1..]) + if IsActive(docs[0]) then 1 else 0
  }

  /** `findAllActiveOrderByUploadedAtDesc(pageable)`: the window of the
      ordered active list at the request's offset, with the total of all
      active rows. */
  function FindAllActivePage(docs: seq<Document>, req: PageRequest): (p: Page<Document>)
    ensures p.request == req
    ensures p.total == CountActive(docs)
    ensures |p.content| <= req.size
    ensures forall i :: 0 <= i < |p.content| ==>
      Offset(req) + i < CountActive(docs) && p.content[i] == FindAllActive(docs)[Offset(req) + i]
    ensures forall d :: d in p.content ==> d in docs && IsActive(d)
  {
    PageOf(FindAllActive(docs), req)
  }

  /** `findByIdAndIsActiveTrue(id)`: the active row with that id, if any.
      Ids are the primary key, so at most one row matches. */
  function FindByIdActive(docs: seq<Document>, id: nat): (r: Option<Document>)
    ensures r.Some? ==> r.value in docs && r.value.id == id && IsActive(r.value)
    ensures r.None? <==> forall i :: 0 <= i < |docs| ==> !(docs[i].id == id && IsActive(docs[i]))
  {
    if |docs| == 0 then None
    else if docs[0].id == id && IsActive(docs[0]) then Some(docs[0])
    else
      var r := FindByIdActive(docs[1..], id);
      assert forall i :: 1 <= i < |docs| ==> docs[i] == docs[1..][i - 1];
      r
  }

  /** The uploader join of `findByUploaderIdAndIsActiveTrue`: a row with no
      uploader never matches. */
  predicate UploadedByActive(uploaderId: nat, d: Document)
  {
    IsActive(d) && d.uploadedBy.Some? && d.uploadedBy.value.id == uploaderId
  }

  /** `findByUploaderIdAndIsActiveTrue(uploaderId)`: exactly the active rows
      of that uploader, newest first. */
  function FindByUploaderActive(docs: seq<Document>, uploaderId: nat): (r: seq<Document>)
    ensures forall d :: multiset(r)[d] == if UploadedByActive(uploaderId, d) then multiset(docs)[d] else 0
    ensures forall d :: d in r <==> d in docs && IsActive(d) && d.uploadedBy.Some? && d.uploadedBy.value.id == uploaderId
    ensures SortedDesc(r, UploadedAt)
  {
    var keep := (d: Document) => UploadedByActive(uploaderId, d);
    var r := SortDesc(Filter(docs, keep), UploadedAt);
    PermutationSameMembers(r, Filter(docs, keep));
    r
  }

  /** An uploader's list is the part of the full active list that they
      uploaded: the same rows, with the same multiplicities. */
  lemma UploaderListIsSublist(docs: seq<Document>, uploaderId: nat)
    ensures multiset(FindByUploaderActive(docs, uploaderId)) <= multiset(FindAllActive(docs))
    ensures |FindByUploaderActive(docs, uploaderId)| <= CountActive(docs)
  {
    var r := FindByUploaderActive(docs, uploaderId);
    var all := FindAllActive(docs);
    assert forall d :: multiset(r)[d] <= multiset(all)[d];
    assert |multiset(r)| <= |multiset(all)| by {
      MultisetSubsetSize(multiset(r), multiset(all));
    }
  }

  lemma MultisetSubsetSize<T>(a: multiset<T>, b: multiset<T>)
    requires a <= b
    ensures |a| <= |b|
  {
    assert b == a + (b - a);
  }

  /** Paging through the active list page by page, up to the reported page
      count, visits every active row exactly once and in order. */
  lemma ActivePagesReassemble(docs: seq<Document>, size: nat)
    requires 1 <= size && CountActive(docs) <= INT_MAX
    ensures TotalPages(FindAllActivePage(docs, PageRequest(0, size))) == CeilDiv(CountActive(docs), size)
    ensures Concat(PageContents(FindAllActive(docs), size, CeilDiv(CountActive(docs), size))) == FindAllActive(docs)
  {
    PagesReassemble(FindAllActive(docs), size);
  }
}

=== FILE: document_service.dfy ===
/** `DocumentService`: page metadata and the three response shapes built
    from stored documents, and the choice of unit for a human-readable file
    size. */
module DocumentService {
  import opened Results
  import opened Seqs
  import opened Entities
  import opened Paging
  import opened DocumentRepository

  /** Message of the `RuntimeException` the list and lookup operations throw. */
  const FETCH_FAILED := "문서를 가져오는 중 오류가 발생했습니다."

  /** Uploader name and username shown when a document has no uploader. */
  const UNKNOWN_NAME := "알 수 없음"
  const UNKNOWN_USERNAME := "unknown"

  // ---------------------------------------------------------------------------
  // formatFileSize: which unit a size is shown in
  // ---------------------------------------------------------------------------

  const UNITS: seq<string> := ["B", "KB", "MB", "GB", "TB"]

  function Pow1024(k: nat): (r: nat)
    ensures r >= 1
  {
    if k == 0 then 1 else 1024 * Pow1024(k - 1)
  }

  /** The unit a positive size is shown in: the largest `k <= 4` with
      `1024^k <= bytes`. */
  function UnitIndex(bytes: nat): (k: nat)
    requires bytes >= 1
    ensures k <= 4 && Pow1024(k) <= bytes
    ensures k < 4 ==> bytes < Pow1024(k + 1)
  {
    if bytes >= Pow1024(4) then 4
    else if bytes >= Pow1024(3) then 3
    else if bytes >= Pow1024(2) then 2
    else if bytes >= Pow1024(1) then 1
    else 0
  }

  /** The rendered size: "0 B" for a missing or zero size, otherwise the
      size divided by the unit's power of 1024 and the unit's name. Only the
      whole part of the quotient is kept; the one-decimal rendering is not
      modelled. */
  datatype SizeLabel = ZeroBytes | Scaled(whole: nat, unit: string)

  function FileSizeLabel(bytes: Option<nat>): SizeLabel
  {
    match bytes
    case None => ZeroBytes
    case Some(b) =>
      if b == 0 then ZeroBytes
      else Scaled(b / Pow1024(UnitIndex(b)), UNITS[UnitIndex(b)])
  }

  lemma MulMono(p: nat, x: nat, y: nat)
    requires x <= y
    ensures p * x <= p * y
  {
  }

  /** One more division by 1024 keeps `P * size <= b < P * (size + 1)`
      with `P` multiplied by 1024. */
  lemma ScaleStep(b: nat, p: nat, size: nat)
    requires p * size <= b < p * (size + 1)
    ensures (p * 1024) * (size / 1024) <= b < (p * 1024) * (size / 1024 + 1)
  {
    var s := size / 1024;
    assert 1024 * s <= size < 1024 * (s + 1);
    MulMono(p, 1024 * s, size);
    MulMono(p, size + 1, 1024 * (s + 1));
    assert p * (1024 * s) == (p * 1024) * s;
    assert p * (1024 * (s + 1)) == (p * 1024) * (s + 1);
  }

  /** The whole quotient is the unique `q` with `p * q <= b < p * (q + 1)`. */
  lemma QuotientIsUnique(b: nat, p: nat, q: nat)
    requires p >= 1 && p * q <= b < p * (q + 1)
    ensures b / p == q
  {
    var d := b / p;
    assert p * d <= b < p * (d + 1);
    assert p * d < p * (q + 1);
    assert p * q < p * (d + 1);
  }

  /** Powers of 1024 grow with the exponent. */
  lemma {:induction false} PowMono(i: nat, j: nat)
    ensures i <= j ==> Pow1024(i) <= Pow1024(j)
    decreases j
  {
    if i < j {
      PowMono(i, j - 1);
    }
  }

  /** `UnitIndex` is the only `k <= 4` whose unit range holds `bytes`. */
  lemma UnitIndexUnique(b: nat, k: nat)
    requires b >= 1 && k <= 4 && Pow1024(k) <= b
    requires k < 4 ==> b < Pow1024(k + 1)
    ensures UnitIndex(b) == k
  {
    var u := UnitIndex(b);
    PowMono(k + 1, u);
    PowMono(u + 1, k);
  }

  /** `whole` is `b` expressed in unit `k`, rounded down. */
  predicate InUnit(b: nat, k: nat, whole: nat)
  {
    Pow1024(k) * whole <= b < Pow1024(k) * (whole + 1)
  }

  /** `formatFileSize(bytes)`, following the source loop: divide by 1024
      while the value is at least 1024 and the unit is below TB. The shown
      whole number is at least 1 and below 1024 except in TB, and it is the
      size in that unit rounded down. */
  method FormatFileSize(bytes: Option<nat>) returns (shown: SizeLabel)
    ensures shown == FileSizeLabel(bytes)
    ensures shown == ZeroBytes <==> bytes == None || bytes == Some(0)
    ensures shown.Scaled? ==> 1 <= shown.whole && (shown.whole < 1024 || shown.unit == "TB")
    ensures shown.Scaled? ==> exists k :: 0 <= k < |UNITS| && shown.unit == UNITS[k] && InUnit(bytes.value, k, shown.whole)
  {
    if bytes == None || bytes == Some(0) {
      return ZeroBytes;
    }
    var b := bytes.value;
    var unitIndex := 0;
    var size := b;
    while size >= 1024 && unitIndex < |UNITS| - 1
      invariant 0 <= unitIndex <= 4
      invariant size >= 1
      invariant InUnit(b, unitIndex, size)
    {
      ScaleStep(b, Pow1024(unitIndex), size);
      size := size / 1024;
      unitIndex := unitIndex + 1;
    }
    MulMono(Pow1024(unitIndex), 1, size);
    if size < 1024 {
      MulMono(Pow1024(unitIndex), size + 1, 1024);
    }
    UnitIndexUnique(b, unitIndex);
    QuotientIsUnique(b, Pow1024(unitIndex), size);
    shown := Scaled(size, UNITS[unitIndex]);
  }

  // ---------------------------------------------------------------------------
  // Response shapes
  // ---------------------------------------------------------------------------

  /** `DocumentResponse.DocumentSummary` (the formatted date is left out). */
  datatype DocumentSummary = DocumentSummary(
    id: nat,
    title: string,
    description: Option<string>,
    fileName: string,
    fileType: string,
    fileSize: Option<nat>,
    uploaderName: string,
    uploadedAt: nat,
    formattedFileSize: SizeLabel)

  /** `DocumentResponse` (the formatted date is left out). */
  datatype DocumentResponse = DocumentResponse(
    id: nat,
    title: string,
    description: Option<string>,
    fileName: string,
    fileType: string,
    fileSize: Option<nat>,
    uploaderName: string,
    uploaderUsername: string,
    uploadedAt: nat,
    formattedFileSize: SizeLabel)

  /** `DocumentResponse.DocumentDownload`. */
  datatype DocumentDownload = DocumentDownload(
    id: nat,
    title: string,
    fileName: string,
    fileType: string,
    fileContent: seq<byte>,
    fileSize: Option<nat>)

  /** `DocumentListResponse`: the page counters are Java `int`s. */
  datatype DocumentListResponse = DocumentListResponse(
    documents: seq<DocumentSummary>,
    totalCount: int32,
    currentPage: int32,
    totalPages: int32,
    hasNext: bool,
    hasPrevious: bool)

  function UploaderName(d: Document): (r: string)
    ensures d.uploadedBy.Some? ==> r == d.uploadedBy.value.name
    ensures d.uploadedBy.None? ==> r == UNKNOWN_NAME
  {
    match d.uploadedBy
    case Some(u) => u.name
    case None => UNKNOWN_NAME
  }

  function UploaderUsername(d: Document): (r: string)
    ensures d.uploadedBy.Some? ==> r == d.uploadedBy.value.username
    ensures d.uploadedBy.None? ==> r == UNKNOWN_USERNAME
  {
    match d.uploadedBy
    case Some(u) => u.username
    case None => UNKNOWN_USERNAME
  }

  /** `convertToDocumentSummary`. */
  function ToSummary(d: Document): DocumentSummary
  {
    DocumentSummary(d.id, d.title, d.description, d.fileName, d.fileType, d.fileSize,
      UploaderName(d), d.uploadedAt, FileSizeLabel(d.fileSize))
  }

  /** `convertToDocumentResponse`. */
  function ToResponse(d: Document): DocumentResponse
  {
    DocumentResponse(d.id, d.title, d.description, d.fileName, d.fileType, d.fileSize,
      UploaderName(d), UploaderUsername(d), d.uploadedAt, FileSizeLabel(d.fileSize))
  }

  /** `convertToDocumentDownload`. */
  function ToDownload(d: Document): DocumentDownload
  {
    DocumentDownload(d.id, d.title, d.fileName, d.fileType, d.fileContent, d.fileSize)
  }

  /** The summary, the full response and the download record of one
      document agree with each other and with the stored row on every field
      they share; only the full response carries the uploader's username. */
  lemma ConvertersAgree(d: Document)
    ensures var s, r, w := ToSummary(d), ToResponse(d), ToDownload(d);
      s.id == r.id == w.id == d.id
      && s.title == r.title == w.title == d.title
      && s.description == r.description == d.description
      && s.fileName == r.fileName == w.fileName == d.fileName
      && s.fileType == r.fileType == w.fileType == d.fileType
      && s.fileSize == r.fileSize == w.fileSize == d.fileSize
      && w.fileContent == d.fileContent
      && s.uploaderName == r.uploaderName
      && s.uploadedAt == r.uploadedAt == d.uploadedAt
      && s.formattedFileSize == r.formattedFileSize
      && (d.uploadedBy.Some? ==>
            s.uploaderName == d.uploadedBy.value.name && r.uploaderUsername == d.uploadedBy.value.username)
      && (d.uploadedBy.None? ==> s.uploaderName == UNKNOWN_NAME && r.uploaderUsername == UNKNOWN_USERNAME)
  {
  }

  // ---------------------------------------------------------------------------
  // Operations
  // ---------------------------------------------------------------------------

  /** `getRecentDocuments(page, size)`: the summaries of page `page` of the
      active documents with the page metadata, or the service's exception
      when `PageRequest.of` rejects the arguments. */
  function GetRecentDocuments(docs: seq<Document>, page: int32, size: int32): (r: Result<DocumentListResponse, string>)
    ensures r.Failure? <==> page < 0 || size < 1
    ensures r.Failure? ==> r.error == FETCH_FAILED
    ensures r.Success? ==> |r.value.documents| <= size && r.value.hasPrevious == (page > 0)
  {
    match PageRequestOf(page, size)
    case Failure(_) => Failure(FETCH_FAILED)
    case Success(req) =>
      var p := FindAllActivePage(docs, req);
      Success(DocumentListResponse(
        Map(p.content, ToSummary),
        WrapInt(p.total),
        WrapInt(page + 1),
        TotalPages(p),
        HasNext(p),
        HasPrevious(p)))
  }

  /** A successful page holds the summaries of the active documents at
      positions `page * size` onwards of the newest-first list, in order. */
  lemma RecentDocumentsContent(docs: seq<Document>, page: int32, size: int32)
    requires page >= 0 && size >= 1
    ensures var v := GetRecentDocuments(docs, page, size).value;
      forall i :: 0 <= i < |v.documents| ==>
        page * size + i < CountActive(docs)
        && v.documents[i] == ToSummary(FindAllActive(docs)[page * size + i])
  {
    var p := FindAllActivePage(docs, PageRequest(page, size));
    assert Offset(PageRequest(page, size)) == page * size;
  }

  /** Within Java `int` range, the metadata of a successful page says what
      the caller expects: the 1-based page number, the number of active
      documents, the number of pages they fill, and whether rows remain
      before and after this page. */
  lemma RecentDocumentsMetadata(docs: seq<Document>, page: int32, size: int32)
    requires 0 <= page < INT_MAX && size >= 1
    requires CountActive(docs) <= INT_MAX
    ensures GetRecentDocuments(docs, page, size).Success?
    ensures var v := GetRecentDocuments(docs, page, size).value;
      v.currentPage == page + 1
      && v.totalCount == CountActive(docs)
      && v.totalPages == CeilDiv(CountActive(docs), size)
      && (v.hasPrevious <==> v.currentPage > 1)
      && (v.hasNext <==> v.currentPage < v.totalPages)
      && (v.hasNext <==> (page + 1) * size < CountActive(docs))
  {
    var req := PageRequest(page, size);
    assert PageRequestOf(page, size) == Success(req);
    var p := FindAllActivePage(docs, req);
    NextAndPrevious(p);
    CeilDivAtMost(CountActive(docs), size);
    assert GetRecentDocuments(docs, page, size).value == DocumentListResponse(
      Map(p.content, ToSummary), WrapInt(p.total), WrapInt(page + 1), TotalPages(p), HasNext(p), HasPrevious(p));
  }

  /** `getDocumentById(id)`: the full response of the active document with
      that id, if there is one. */
  function GetDocumentById(docs: seq<Document>, id: nat): (r: Option<DocumentResponse>)
    ensures r.None? <==> forall i :: 0 <= i < |docs| ==> !(docs[i].id == id && IsActive(docs[i]))
    ensures r.Some? ==> exists d :: d in docs && d.id == id && IsActive(d) && r.value == ToResponse(d)
  {
    match FindByIdActive(docs, id)
    case None => None
    case Some(d) => Some(ToResponse(d))
  }

  /** `getDocumentForDownload(id)`: the download record of the active
      document with that id, if there is one. */
  function GetDocumentForDownload(docs: seq<Document>, id: nat): (r: Option<DocumentDownload>)
    ensures r.None? <==> forall i :: 0 <= i < |docs| ==> !(docs[i].id == id && IsActive(docs[i]))
    ensures r.Some? ==> exists d :: d in docs && d.id == id && IsActive(d) && r.value == ToDownload(d)
  {
    match FindByIdActive(docs, id)
    case None => None
    case Some(d) => Some(ToDownload(d))
  }

  /** The detail view and the download of the same id are found or missed
      together, and describe the same file. */
  lemma DetailAndDownloadAgree(docs: seq<Document>, id: nat)
    ensures GetDocumentById(docs, id).Some? <==> GetDocumentForDownload(docs, id).Some?
    ensures GetDocumentById(docs, id).Some? ==>
      var r, w := GetDocumentById(docs, id).value, GetDocumentForDownload(docs, id).value;
      r.id == w.id && r.fileName == w.fileName && r.fileType == w.fileType && r.fileSize == w.fileSize
  {
  }

  /** `getAllDocuments()`: one summary per active document, newest first. */
  function GetAllDocuments(docs: seq<Document>): (r: seq<DocumentSummary>)
    ensures |r| == CountActive(docs)
    ensures forall i :: 0 <= i < |r| ==> r[i] == ToSummary(FindAllActive(docs)[i])
    ensures forall i, j :: 0 <= i < j < |r| ==> r[i].uploadedAt >= r[j].uploadedAt
  {
    var all := FindAllActive(docs);
    assert forall i, j :: 0 <= i < j < |all| ==> UploadedAt(all[i]) >= UploadedAt(all[j]);
    Map(all, ToSummary)
  }
}

=== FILE: entities.dfy ===
/** The persistent entities: users, units, notices and documents. Object
    references of the JPA model become nested values (`Option` where the
    column or reference may be null); timestamps are opaque naturals ordered
    like the `LocalDateTime` values they stand for. */
module Entities {
  import opened Results

  newtype byte = x: int | 0 <= x < 256

  datatype UserRole = SysAdmin | Admin | Manager

  /** A military unit or department. */
  datatype Unit = Unit(id: nat, name: string, code: string, createdAt: nat)

  datatype User = User(
    id: nat,
    username: string,
    name: string,
    passwordHash: string,
    role: UserRole,
    unit: Option<Unit>,
    createdAt: nat)

  datatype Notice = Notice(
    id: nat,
    title: string,
    content: string,
    writtenBy: Option<User>,
    createdAt: nat)

  datatype Document = Document(
    id: nat,
    title: string,
    description: Option<string>,
    fileName: string,
    fileType: string,
    fileSize: Option<nat>,
    fileContent: seq<byte>,
    uploadedBy: Option<User>,
    uploadedAt: nat,
    isActive: Option<bool>)

  /** `isActive.eq(true)`: a null flag does not match. */
  predicate IsActive(d: Document) { d.isActive == Some(true) }

  function UploadedAt(d: Document): int { d.uploadedAt }

  function CreatedAt(n: Notice): int { n.createdAt }

  /** The identity column of the next saved row: larger than every id in use. */
  function NextId(ids: seq<nat>): (r: nat)
    ensures forall i :: 0 <= i < |ids| ==> ids[i] < r
  {
    if |ids| == 0 then 1
    else
      var rest := NextId(ids[1..]);
      assert forall i :: 1 <= i < |ids| ==> ids[i] == ids[1..][i - 1];
      if ids[0] < rest then rest else ids[0] + 1
  }

  function NoticeIds(ns: seq<Notice>): (r: seq<nat>)
    ensures |r| == |ns| && forall i :: 0 <= i < |ns| ==> r[i] == ns[i].id
  {
    seq(|ns|, i requires 0 <= i < |ns| => ns[i].id)
  }

  function UserIds(us: seq<User>): (r: seq<nat>)
    ensures |r| == |us| && forall i :: 0 <= i < |us| ==> r[i] == us[i].id
  {
    seq(|us|, i requires 0 <= i < |us| => us[i].id)
  }

  /** `userRepository.findByUsername`: usernames are unique in the store (a
      unique column), so the first match is the match. */
  function FindUserByUsername(users: seq<User>, username: string): (r: Option<User>)
    ensures r.Some? ==> r.value in users && r.value.username == username
    ensures r.None? <==> forall i :: 0 <= i < |users| ==> users[i].username != username
  {
    if |users| == 0 then None
    else if users[0].username == username then Some(users[0])
    else
      var r := FindUserByUsername(users[1..], username);
      assert forall i :: 1 <= i < |users| ==> users[i] == users[1..][i - 1];
      r
  }

  /** `userRepository.existsByUsername`. */
  predicate UsernameTaken(users: seq<User>, username: string)
  {
    exists i :: 0 <= i < |users| && users[i].username == username
  }
}

=== FILE: list_pagination.dfy ===
/** The pagination bar of the notice and document lists (`NoticeList`,
    `DocumentList`): the lists keep a 0-based page, fetch it from the
    server, and draw previous/next buttons and one button per page from the
    metadata of the answer. Both lists draw the bar the same way. */
module ListPagination {
  import opened Seqs
  import opened Entities
  import opened Paging
  import opened DocumentRepository
  import NoticeService
  import DocumentService

  /** What the bar is drawn from: the list's own 0-based page state and the
      hook's loading, error and page metadata. */
  datatype View = View(currentPage: int, loading: bool, error: bool,
                       totalPages: int, hasNext: bool, hasPrevious: bool)

  /** One button: whether it can be pressed and the 0-based page it
      requests when pressed. */
  datatype Button = Button(enabled: bool, target: int)

  /** A numbered button: its number, whether it is drawn as the current
      page, and the 0-based page it requests. */
  datatype PageButton = PageButton(number: int, strong: bool, target: int)

  /** `handlePageChange(page)`: the lists number pages from 1 and request
      them from 0. */
  function PageChange(page: int): (r: int)
    ensures r + 1 == page
  {
    page - 1
  }

  /** The view once the fetch of the list's page `page` has finished: the
      list's page next to the answer's metadata. */
  function Drawn(page: int, totalPages: int, hasNext: bool, hasPrevious: bool): View
  {
    View(page, false, false, totalPages, hasNext, hasPrevious)
  }

  /** The hook also keeps the answer's page, made 0-based again; the lists
      never read it, and for the services' answers it equals the page the
      list asked for. */
  lemma HookPageIsListPage(notices: seq<Notice>, docs: seq<Document>, page: int32, size: int32)
    requires 0 <= page < INT_MAX && size >= 1
    requires |notices| <= INT_MAX && CountActive(docs) <= INT_MAX
    ensures NoticeService.GetRecentNotices(notices, page, size).Success?
      && NoticeService.GetRecentNotices(notices, page, size).value.currentPage - 1 == page
    ensures DocumentService.GetRecentDocuments(docs, page, size).Success?
      && DocumentService.GetRecentDocuments(docs, page, size).value.currentPage - 1 == page
  {
    NoticeService.RecentNoticesMetadata(notices, page, size);
    DocumentService.RecentDocumentsMetadata(docs, page, size);
  }

  /** The bar is drawn only after a successful fetch of more than one page. */
  predicate Shown(v: View)
  {
    !v.loading && !v.error && v.totalPages > 1
  }

  /** "이전": pressable when the server reported a previous page; it asks
      for the page before the current one. */
  function Previous(v: View): (b: Button)
    ensures b.enabled <==> v.hasPrevious
    ensures b.target + 1 == v.currentPage
  {
    Button(v.hasPrevious, PageChange(v.currentPage))
  }

  /** "다음": pressable when the server reported a next page; it asks for
      the page after the current one. */
  function Next(v: View): (b: Button)
    ensures b.enabled <==> v.hasNext
    ensures b.target == v.currentPage + 1
  {
    Button(v.hasNext, PageChange(v.currentPage + 2))
  }

  /** The numbered buttons 1 .. totalPages; the one whose number is one more
      than the current 0-based page is drawn strong. */
  function PageButtons(v: View): (r: seq<PageButton>)
    ensures |r| == if v.totalPages > 0 then v.totalPages else 0
    ensures forall i :: 0 <= i < |r| ==> r[i].number == i + 1 && r[i].target == i
    ensures forall i :: 0 <= i < |r| ==> (r[i].strong <==> i == v.currentPage)
  {
    var n := if v.totalPages > 0 then v.totalPages else 0;
    seq(n, i requires 0 <= i < n => PageButton(i + 1, v.currentPage + 1 == i + 1, PageChange(i + 1)))
  }

  /** Exactly one numbered button is strong when the current page is one of
      the pages, and none otherwise. */
  lemma OneStrongButton(v: View)
    ensures var r := PageButtons(v);
      (exists i :: 0 <= i < |r| && r[i].strong) <==> 0 <= v.currentPage < v.totalPages
    ensures var r := PageButtons(v);
      forall i, j :: 0 <= i < |r| && 0 <= j < |r| && r[i].strong && r[j].strong ==> i == j
  {
    var r := PageButtons(v);
    if 0 <= v.currentPage < v.totalPages {
      assert r[v.currentPage].strong;
    }
  }

  /** Every request the bar can make after showing page `page` of `count`
      rows lands on a page that has rows: the numbered buttons request
      pages `0 .. totalPages-1`, "다음" is pressable only when page
      `page + 1` has rows, and "이전" only when `page > 0`. */
  predicate RequestsStayInRange(v: View, page: int, count: nat, size: nat)
  {
    v.currentPage == page
    && (forall b :: b in PageButtons(v) ==> 0 <= b.target && b.target * size < count)
    && (Next(v).enabled ==> Next(v).target * size < count)
    && (Previous(v).enabled ==>
          (0 <= Previous(v).target && (page * size < count ==> Previous(v).target * size < count)))
  }

  /** The shared part of the two lists' claims: page metadata as the
      services report it keeps every request in range. */
  lemma {:induction false} MetadataKeepsRequestsInRange(v: View, page: nat, count: nat, size: nat)
    requires size >= 1 && v.currentPage == page
    requires v.totalPages == CeilDiv(count, size)
    requires v.hasPrevious <==> page > 0
    requires v.hasNext <==> (page + 1) * size < count
    ensures RequestsStayInRange(v, page, count, size)
  {
    forall b | b in PageButtons(v) ensures 0 <= b.target && b.target * size < count {
      var r := PageButtons(v);
      var i :| 0 <= i < |r| && r[i] == b;
      CeilDivPageBound(count, size, i);
    }
    if Previous(v).enabled {
      assert (page - 1) * size <= page * size by {
        MulLeq(page - 1, page, size);
      }
    }
  }

  lemma MulLeq(a: nat, b: nat, c: nat)
    requires a <= b
    ensures a * c <= b * c
  {
  }

  /** `NoticeList` after fetching page `page` of `size` notices: the bar
      requests only pages that hold notices. */
  lemma NoticeRequestsStayInRange(notices: seq<Notice>, page: int32, size: int32)
    requires 0 <= page < INT_MAX && size >= 1 && |notices| <= INT_MAX
    ensures NoticeService.GetRecentNotices(notices, page, size).Success?
    ensures var m := NoticeService.GetRecentNotices(notices, page, size).value;
      RequestsStayInRange(Drawn(page, m.totalPages, m.hasNext, m.hasPrevious), page, |notices|, size)
  {
    NoticeService.RecentNoticesMetadata(notices, page, size);
    var m := NoticeService.GetRecentNotices(notices, page, size).value;
    MetadataKeepsRequestsInRange(Drawn(page, m.totalPages, m.hasNext, m.hasPrevious), page, |notices|, size);
  }

  /** `DocumentList` after fetching page `page` of `size` active documents:
      the bar requests only pages that hold documents. */
  lemma DocumentRequestsStayInRange(docs: seq<Document>, page: int32, size: int32)
    requires 0 <= page < INT_MAX && size >= 1 && CountActive(docs) <= INT_MAX
    ensures DocumentService.GetRecentDocuments(docs, page, size).Success?
    ensures var m := DocumentService.GetRecentDocuments(docs, page, size).value;
      RequestsStayInRange(Drawn(page, m.totalPages, m.hasNext, m.hasPrevious), page, CountActive(docs), size)
  {
    DocumentService.RecentDocumentsMetadata(docs, page, size);
    var m := DocumentService.GetRecentDocuments(docs, page, size).value;
    MetadataKeepsRequestsInRange(Drawn(page, m.totalPages, m.hasNext, m.hasPrevious), page, CountActive(docs), size);
  }

  /** The bar appears exactly when the rows fill more than one page. */
  lemma {:induction false} ShownIffSeveralPages(notices: seq<Notice>, page: int32, size: int32)
    requires 0 <= page < INT_MAX && size >= 1 && |notices| <= INT_MAX
    ensures var m := NoticeService.GetRecentNotices(notices, page, size).value;
      Shown(Drawn(page, m.totalPages, m.hasNext, m.hasPrevious)) <==> |notices| > size
  {
    NoticeService.RecentNoticesMetadata(notices, page, size);
    CeilDivPageBound(|notices|, size, 1);
  }
}

=== FILE: media_type.dfy ===
/** Spring's `MediaType.parseMediaType`, as the download endpoint uses it on
    the stored file type: the part before the first ';' is trimmed and split
    at its first '/' into a type and a subtype, both of which must be RFC 7230
    tokens; `*` alone stands for `*` / `*`, and a wildcard type only goes with
    a wildcard subtype. Parameters after ';' are not checked. */
module MediaTypes {
  import opened Results
  import opened Text

  datatype MediaType = MediaType(mainType: string, subtype: string)

  /** `tchar` of section 3.2.6 of RFC 7230: a visible ASCII character that is
      not a separator. */
  predicate IsTokenChar(c: char)
  {
    ' ' < c < '\U{007F}' && !IsSeparator(c)
  }

  predicate IsSeparator(c: char)
  {
    c == '(' || c == ')' || c == '<' || c == '>' || c == '@' || c == ',' || c == ';' || c == ':'
    || c == '\\' || c == '"' || c == '/' || c == '[' || c == ']' || c == '?' || c == '=' || c == '{' || c == '}'
  }

  predicate IsToken(s: string)
  {
    |s| > 0 && forall i :: 0 <= i < |s| ==> IsTokenChar(s[i])
  }

  /** `*`, the wildcard type or subtype. */
  predicate IsWildcard(s: string)
  {
    |s| == 1 && s[0] == '*'
  }

  /** What `HttpHeaders.setContentType` accepts: neither a wildcard type
      nor a wildcard subtype, where a subtype is a wildcard when it is `*`
      or starts with `*+` (`MimeType.isWildcardSubtype`). */
  predicate IsConcrete(m: MediaType)
  {
    !IsWildcard(m.mainType) && !IsWildcard(m.subtype) && !StartsWith(m.subtype, "*+")
  }

  // `*/*` is the full wildcard.
  lemma AnyTypeExample()
    ensures WellFormed(MediaType("*", "*")) && !IsConcrete(MediaType("*", "*"))
    ensures Format(MediaType("*", "*")) == "*/*"
  {
  }

  // `image/*` has a wildcard subtype.
  lemma AnyImageExample()
    ensures WellFormed(MediaType("image", "*")) && !IsConcrete(MediaType("image", "*"))
    ensures Format(MediaType("image", "*")) == "image/*"
  {
  }

  // `application/*+json` has a structured-suffix wildcard subtype.
  lemma AnyJsonExample()
    ensures WellFormed(MediaType("application", "*+json")) && !IsConcrete(MediaType("application", "*+json"))
    ensures Format(MediaType("application", "*+json")) == "application/*+json"
  {
    SuffixWildcard("application", "json");
  }

  /** A wildcard with a structured suffix, `*+suffix`, after a lower-case
      type is well formed and not concrete. */
  lemma SuffixWildcard(main: string, suffix: string)
    requires |main| > 0 && forall i :: 0 <= i < |main| ==> 'a' <= main[i] <= 'z'
    requires |suffix| > 0 && forall i :: 0 <= i < |suffix| ==> 'a' <= suffix[i] <= 'z'
    ensures WellFormed(MediaType(main, "*+" + suffix)) && !IsConcrete(MediaType(main, "*+" + suffix))
  {
    LowercaseWord(main);
    var sub := "*+" + suffix;
    assert sub[..2] == "*+";
    forall i | 0 <= i < |sub| ensures IsTokenChar(sub[i]) && !IsAsciiUpper(sub[i]) {
      if i >= 2 {
        assert sub[i] == suffix[i - 2];
      }
    }
  }

  /** A word of lower-case ASCII letters is a token without upper case. */
  lemma LowercaseWord(w: string)
    requires |w| > 0 && forall i :: 0 <= i < |w| ==> 'a' <= w[i] <= 'z'
    ensures IsToken(w) && forall i :: 0 <= i < |w| ==> !IsAsciiUpper(w[i])
  {
  }

  /** Lower-casing a token gives a token without upper-case letters. */
  lemma LowerToken(x: string)
    requires IsToken(x)
    ensures IsToken(Lower(x))
    ensures forall i :: 0 <= i < |x| ==> !IsAsciiUpper(Lower(x)[i])
  {
    forall i | 0 <= i < |x| ensures IsTokenChar(Lower(x)[i]) && !IsAsciiUpper(Lower(x)[i]) {
      if IsAsciiUpper(x[i]) {
        assert IsAsciiLower(Lower(x)[i]);
      }
    }
  }

  /** The text before the first ';' (all of it when there is none). */
  function BeforeParameters(s: string): (h: string)
    ensures StartsWith(s, h) && ';' !in h
    ensures |h| < |s| ==> s[|h|] == ';'
  {
    var k := IndexOf(s, ';');
    if k == -1 then s else s[..k]
  }

  /** The text before the first ';', trimmed as `String.trim()` does: what
      is kept neither starts nor ends with a trimmable character, and
      `FullTypeIsTrimmedHead` states that only trimmable characters are cut. */
  function FullType(s: string): (r: string)
    ensures |r| <= |BeforeParameters(s)|
    ensures |r| > 0 ==> !IsJavaTrimmable(r[0]) && !IsJavaTrimmable(r[|r| - 1])
    ensures ';' !in r
  {
    var head := BeforeParameters(s);
    TrimKeepsAbsent(head, IsJavaTrimmable, ';');
    Trim(head, IsJavaTrimmable)
  }

  /** The full type sits inside the text before the first ';', and only
      trimmable characters surround it there. */
  lemma FullTypeIsTrimmedHead(s: string)
    ensures exists a :: TrimmedAt(BeforeParameters(s), FullType(s), a, IsJavaTrimmable)
  {
    var head := BeforeParameters(s);
    assert FullType(s) == Trim(head, IsJavaTrimmable);
  }

  /** `MediaType.parseMediaType(s)`: `None` where Spring throws
      `InvalidMediaTypeException`. The empty text is rejected, a lone `*`
      stands for `*` / `*`, and any other full type goes to
      `SplitFullType`. */
  function ParseMediaType(s: string): (r: Option<MediaType>)
    ensures r.Some? ==> WellFormed(r.value)
    ensures r.Some? && IsWildcard(FullType(s)) ==> r.value == MediaType("*", "*")
    ensures r.Some? && !IsWildcard(FullType(s)) ==> Format(r.value) == Lower(FullType(s))
    ensures |s| == 0 ==> r.None?
  {
    if |s| == 0 then None
    else if IsWildcard(FullType(s)) then
      SplitStar();
      SplitFullType("*/*")
    else SplitFullType(FullType(s))
  }

  /** The rest of `parseMimeType` once the full type is known: split at the
      first '/', refuse a wildcard type with a concrete subtype, require two
      tokens, and lower-case them. A result is well formed and prints as
      the full type, lower-cased. */
  function SplitFullType(full: string): (r: Option<MediaType>)
    ensures r.Some? ==> WellFormed(r.value)
    ensures r.Some? ==> Format(r.value) == Lower(full)
  {
    var k := IndexOf(full, '/');
    if k == -1 || k == |full| - 1 then None
    else
      var mainType, subtype := full[..k], full[k + 1..];
      if IsWildcard(mainType) && !IsWildcard(subtype) then None
      else if !IsToken(mainType) || !IsToken(subtype) then None
      else
        LowerToken(mainType);
        LowerToken(subtype);
        SplitAround(full, k);
        LowerAroundSlash(mainType, subtype);
        Some(MediaType(Lower(mainType), Lower(subtype)))
  }

  /** The full type a lone `*` stands for gives two wildcards. */
  lemma SplitStar()
    ensures SplitFullType("*/*") == Some(MediaType("*", "*"))
  {
    IndexOfFirst("*/*", '/', 1);
    assert "*/*"[..1] == "*" && "*/*"[2..] == "*";
    assert Lower("*")[0] == '*';
    assert Lower("*") == "*";
  }

  /** Lower-casing a type and subtype separately is lower-casing the whole. */
  lemma LowerAroundSlash(a: string, b: string)
    ensures Lower(a + "/" + b) == Lower(a) + "/" + Lower(b)
  {
    var x, y := Lower(a + "/" + b), Lower(a) + "/" + Lower(b);
    forall i | 0 <= i < |x| ensures x[i] == y[i] {
      if i > |a| {
        assert (a + "/" + b)[i] == b[i - |a| - 1];
      }
    }
  }

  /** `full` is the type `a` and the subtype `b` joined by '/', both
      tokens, and a wildcard type has a wildcard subtype. */
  predicate TypeAndSubtype(full: string, a: string, b: string)
  {
    full == a + "/" + b && IsToken(a) && IsToken(b) && (IsWildcard(a) ==> IsWildcard(b))
  }

  /** The parser accepts exactly a lone `*` and a full type made of a type
      token, '/', and a subtype token, where a wildcard type has a wildcard
      subtype. */
  lemma {:induction false} ParseMediaTypeAccepts(s: string)
    ensures ParseMediaType(s).Some? <==>
      IsWildcard(FullType(s)) || exists a, b :: TypeAndSubtype(FullType(s), a, b)
  {
    if |s| == 0 {
      assert |FullType(s)| == 0;
    } else if IsWildcard(FullType(s)) {
      SplitStar();
    } else {
      SplitFullTypeAccepts(FullType(s));
    }
  }

  /** Splitting succeeds exactly on a type token, '/', and a subtype token
      where a wildcard type has a wildcard subtype. */
  lemma {:induction false} SplitFullTypeAccepts(full: string)
    ensures SplitFullType(full).Some? <==> exists a, b :: TypeAndSubtype(full, a, b)
  {
    if SplitFullType(full).Some? {
      var k := IndexOf(full, '/');
      SplitAround(full, k);
      assert TypeAndSubtype(full, full[..k], full[k + 1..]);
    }
    if exists a, b :: TypeAndSubtype(full, a, b) {
      var a, b :| TypeAndSubtype(full, a, b);
      TokenHasNoSlash(a);
      JoinAround(a, b);
    }
  }

  /** A '/' splits its text into what is before and what is after it. */
  lemma SplitAround(full: string, k: int)
    requires 0 <= k < |full| && full[k] == '/'
    ensures full == full[..k] + "/" + full[k + 1..]
  {
  }

  /** Joining a text without '/' to another with a '/' between them puts
      the first '/' right after the first text. */
  lemma JoinAround(a: string, b: string)
    requires '/' !in a
    ensures IndexOf(a + "/" + b, '/') == |a|
    ensures (a + "/" + b)[..|a|] == a && (a + "/" + b)[|a| + 1..] == b
  {
    var full := a + "/" + b;
    assert full[..|a|] == a && full[|a|] == '/' && full[|a| + 1..] == b;
    IndexOfFirst(full, '/', |a|);
  }

  lemma TokenHasNoSlash(a: string)
    requires IsToken(a)
    ensures '/' !in a
  {
  }

  /** `MediaType.toString()` without parameters. */
  function Format(m: MediaType): string
  {
    m.mainType + "/" + m.subtype
  }

  /** A well-formed media type: what `ParseMediaType` can return. */
  predicate WellFormed(m: MediaType)
  {
    IsToken(m.mainType) && IsToken(m.subtype)
    && (forall i :: 0 <= i < |m.mainType| ==> !IsAsciiUpper(m.mainType[i]))
    && (forall i :: 0 <= i < |m.subtype| ==> !IsAsciiUpper(m.subtype[i]))
    && (IsWildcard(m.mainType) ==> IsWildcard(m.subtype))
  }

  /** The printed form has no ';' and nothing to trim. */
  lemma FormatFullType(m: MediaType)
    requires WellFormed(m)
    ensures FullType(Format(m)) == Format(m)
  {
    var s := Format(m);
    var n := |m.mainType|;
    assert s[..n] == m.mainType && s[n] == '/' && s[n + 1..] == m.subtype;
    forall i | 0 <= i < |s| ensures IsTokenChar(s[i]) || i == n {
      if i > n {
        assert s[i] == m.subtype[i - n - 1];
      }
    }
    assert ';' !in s;
    assert s[|s| - 1] == m.subtype[|m.subtype| - 1];
    TrimKeepsBareEnds(s, IsJavaTrimmable);
  }

  /** The first '/' of the printed form is the one after the type. */
  lemma FormatSlash(m: MediaType)
    requires WellFormed(m)
    ensures IndexOf(Format(m), '/') == |m.mainType|
    ensures Format(m)[..|m.mainType|] == m.mainType && Format(m)[|m.mainType| + 1..] == m.subtype
  {
    var s := Format(m);
    var n := |m.mainType|;
    assert s[..n] == m.mainType && s[n] == '/' && s[n + 1..] == m.subtype;
    assert '/' !in m.mainType;
    IndexOfFirst(s, '/', n);
  }

  /** Parsing the printed form of a well-formed media type gives it back
      (and, by `ParseMediaType`'s contract, every parse result is well
      formed). */
  lemma ParseFormat(m: MediaType)
    requires WellFormed(m)
    ensures ParseMediaType(Format(m)) == Some(m)
  {
    FormatFullType(m);
    FormatSlash(m);
    assert !IsWildcard(Format(m));
    LowerFixesNonUpper(m.mainType);
    LowerFixesNonUpper(m.subtype);
  }
}

=== FILE: notice_controller.dfy ===
/** `NoticeController`: wraps the notice service's results in the HTTP
    envelope, builds the single-page "all" listing, and validates the
    create request before the service sees it. */
module NoticeController {
  import opened Results
  import opened Text
  import opened Entities
  import opened Paging
  import opened Security
  import opened Api
  import opened NoticeRepository
  import NoticeService

  const FOUND := "공지사항을 성공적으로 조회했습니다."
  const FETCH_FAILED := "공지사항 조회 중 오류가 발생했습니다."
  const ALL_FOUND := "전체 공지사항을 성공적으로 조회했습니다."
  const CREATED := "공지사항이 성공적으로 작성되었습니다."
  const CREATE_FAILED := "공지사항 작성 중 오류가 발생했습니다: "

  /** `GET /api/notices?page&size`: the service's page on success; the
      service throws exactly when `PageRequest.of` rejects the arguments,
      and that becomes a 500 without data. */
  function GetRecentNotices(notices: seq<Notice>, page: int32, size: int32): (r: Reply<NoticeService.NoticeListResponse>)
    ensures Consistent(r)
    ensures r.status == Ok <==> page >= 0 && size >= 1
    ensures r.status != Ok ==> r == Failed(FETCH_FAILED)
    ensures r.status == Ok ==> (r.body.value.message == FOUND
      && r.body.value.data.value.currentPage == WrapInt(page + 1)
      && |r.body.value.data.value.notices| <= size)
  {
    match NoticeService.GetRecentNotices(notices, page, size)
    case Success(list) => Succeeded(FOUND, list)
    case Failure(_) => Failed(FETCH_FAILED)
  }

  /** `GET /api/notices/{id}`: the notice's full response, or 404 without a
      body. */
  function GetNoticeById(notices: seq<Notice>, id: nat): (r: Reply<NoticeService.NoticeResponse>)
    ensures Consistent(r)
    ensures r.status == NotFound <==> forall i :: 0 <= i < |notices| ==> notices[i].id != id
    ensures r.status == NotFound ==> r.body.None?
    ensures r.status != NotFound ==> (r.status == Ok && r.body.value.message == FOUND
      && exists n :: n in notices && n.id == id && r.body.value.data == Some(NoticeService.ToNoticeResponse(n)))
  {
    match NoticeService.GetNoticeById(notices, id)
    case Some(n) => Succeeded(FOUND, n)
    case None => Reply(NotFound, None)
  }

  /** The list shape of `GET /api/notices/all`: one page holding every
      summary. `List.size()` saturates at `Integer.MAX_VALUE`. */
  function AllAsOnePage(list: seq<NoticeService.NoticeSummary>): (r: NoticeService.NoticeListResponse)
    ensures r.notices == list
    ensures r.currentPage == 1 && r.totalPages == 1 && !r.hasNext && !r.hasPrevious
    ensures |list| <= INT_MAX ==> r.totalCount == |list|
  {
    NoticeService.NoticeListResponse(list, SaturateInt(|list|), 1, 1, false, false)
  }

  /** `GET /api/notices/all`: every notice in a single page. */
  function GetAllNotices(notices: seq<Notice>): (r: Reply<NoticeService.NoticeListResponse>)
    ensures Consistent(r) && r.status == Ok && r.body.value.message == ALL_FOUND
    ensures r.body.value.data.value == AllAsOnePage(NoticeService.GetAllNotices(notices))
  {
    Succeeded(ALL_FOUND, AllAsOnePage(NoticeService.GetAllNotices(notices)))
  }

  /** The single-page listing reports the number of notices and holds all
      of them, newest first. */
  lemma AllNoticesIsWholeList(notices: seq<Notice>)
    requires |notices| <= INT_MAX
    ensures var v := GetAllNotices(notices).body.value.data.value;
      v.totalCount == |notices| == |v.notices|
      && (forall i :: 0 <= i < |v.notices| ==> v.notices[i] == NoticeService.ToNoticeSummary(FindAll(notices)[i]))
  {
  }

  /** `@Valid` on `CreateNoticeRequest`: title and content are `@NotBlank`. */
  predicate ValidRequest(request: NoticeService.CreateNoticeRequest)
  {
    JavaNotBlank(request.title) && JavaNotBlank(request.content)
  }

  /** The reply to `POST /api/notices` and the notice table after it. */
  datatype CreateReply = CreateReply(reply: Reply<NoticeService.NoticeResponse>, notices: seq<Notice>)

  /** `POST /api/notices`. A blank title or content is answered with 400
      before the service runs; otherwise the service's exception becomes a
      500 carrying its message, and its result a 200. */
  function CreateNotice(request: NoticeService.CreateNoticeRequest, auth: Option<Authentication>,
                        notices: seq<Notice>, users: seq<User>, now: nat): (r: CreateReply)
    ensures Consistent(r.reply)
    ensures r.reply.status == BadRequest <==> !ValidRequest(request)
    ensures r.reply.status == BadRequest ==> r.reply.body.None? && r.notices == notices
    ensures r.reply.status == Ok <==> ValidRequest(request) && NoticeService.CanWrite(auth, users)
    ensures r.reply.status == InternalServerError ==>
      r.reply == Failed(CREATE_FAILED + NoticeService.CREATE_FAILED) && r.notices == notices
    ensures r.reply.status == Ok ==> (r.reply.body.value.message == CREATED
      && |r.notices| == |notices| + 1 && r.notices[..|notices|] == notices)
  {
    if !ValidRequest(request) then CreateReply(Reply(BadRequest, None), notices)
    else
      var outcome := NoticeService.CreateNotice(request, auth, notices, users, now);
      assert outcome.response.Success? <==> NoticeService.CanWrite(auth, users);
      if outcome.response.Success? then
        CreateReply(Succeeded(CREATED, outcome.response.value), outcome.notices)
      else
        assert outcome.notices == notices && outcome.response.error == NoticeService.CREATE_FAILED;
        CreateReply(Failed(CREATE_FAILED + outcome.response.error), outcome.notices)
  }

  /** A valid request from a stored, signed-in user is answered with the
      request's title and content and the user's name as author, and the
      notice can then be fetched by the id in the answer. */
  lemma CreatedNoticeEchoesRequest(request: NoticeService.CreateNoticeRequest, auth: Option<Authentication>,
                                   notices: seq<Notice>, users: seq<User>, now: nat)
    requires ValidRequest(request) && NoticeService.CanWrite(auth, users)
    ensures var r := CreateNotice(request, auth, notices, users, now);
      r.reply.status == Ok
      && r.reply.body.value.data.value.title == request.title
      && r.reply.body.value.data.value.content == request.content
      && r.reply.body.value.data.value.authorName == FindUserByUsername(users, AuthName(auth.value)).value.name
      && GetNoticeById(r.notices, r.reply.body.value.data.value.id).body.value.data == r.reply.body.value.data
  {
    NoticeService.CreatedNoticeIsFound(request, auth, notices, users, now);
  }
}

=== FILE: notice_form.dfy ===
/** The notice creation dialog (`CreateNoticeModal`): the checks run before
    a request is sent, the trimmed request, and the reset on close. String
    lengths are counted in characters. */
module NoticeForm {
  import opened Results
  import opened Text
  import NoticeService

  const TITLE_REQUIRED := "제목을 입력해주세요."
  const CONTENT_REQUIRED := "내용을 입력해주세요."
  const TITLE_TOO_LONG := "제목은 200자를 초과할 수 없습니다."
  const CONTENT_TOO_LONG := "내용은 5000자를 초과할 수 없습니다."
  const SUBMIT_FAILED := "공지사항 작성 중 오류가 발생했습니다."

  const MAX_TITLE := 200
  const MAX_CONTENT := 5000

  /** The dialog's state: the two inputs as typed and the shown error. */
  datatype Form = Form(title: string, content: string, error: Option<string>)

  const EMPTY := Form([], [], None)

  /** `!s.trim()`: nothing is left after trimming. */
  predicate Blank(s: string)
  {
    JsTrim(s) == []
  }

  /** The checks of `handleSubmit`, in order; the first that fails names
      the message shown. */
  function Check(title: string, content: string): (r: Option<string>)
    ensures r.None? <==> !Blank(title) && !Blank(content) && |title| <= MAX_TITLE && |content| <= MAX_CONTENT
    ensures r == Some(TITLE_REQUIRED) <==> Blank(title)
    ensures r == Some(CONTENT_REQUIRED) <==> !Blank(title) && Blank(content)
    ensures r == Some(TITLE_TOO_LONG) <==> !Blank(title) && !Blank(content) && |title| > MAX_TITLE
    ensures r == Some(CONTENT_TOO_LONG) <==>
      !Blank(title) && !Blank(content) && |title| <= MAX_TITLE && |content| > MAX_CONTENT
  {
    if Blank(title) then Some(TITLE_REQUIRED)
    else if Blank(content) then Some(CONTENT_REQUIRED)
    else if |title| > MAX_TITLE then Some(TITLE_TOO_LONG)
    else if |content| > MAX_CONTENT then Some(CONTENT_TOO_LONG)
    else None
  }

  /** What one press of the submit button does: the form afterwards, the
      request handed to `onSubmit` if any, and whether the dialog closed. */
  datatype Submitted = Submitted(form: Form, sent: Option<NoticeService.CreateNoticeRequest>, closed: bool)

  /** `handleSubmit`. `accepts` stands for the outcome of `onSubmit`: true
      when it resolves, false when it rejects. */
  function Submit(f: Form, accepts: NoticeService.CreateNoticeRequest -> bool): (r: Submitted)
    ensures Check(f.title, f.content).Some? ==>
      r.sent.None? && !r.closed && r.form == f.(error := Check(f.title, f.content))
    ensures Check(f.title, f.content).None? ==>
      r.sent == Some(NoticeService.CreateNoticeRequest(JsTrim(f.title), JsTrim(f.content)))
    ensures r.sent.Some? && accepts(r.sent.value) ==> r.closed && r.form == EMPTY
    ensures r.sent.Some? && !accepts(r.sent.value) ==>
      !r.closed && r.form == f.(error := Some(SUBMIT_FAILED))
  {
    match Check(f.title, f.content)
    case Some(message) => Submitted(f.(error := Some(message)), None, false)
    case None =>
      var request := NoticeService.CreateNoticeRequest(JsTrim(f.title), JsTrim(f.content));
      if accepts(request) then Submitted(Close(f), Some(request), true)
      else Submitted(f.(error := Some(SUBMIT_FAILED)), Some(request), false)
  }

  /** `handleClose`: both inputs and the error are cleared, whatever the
      state was. */
  function Close(f: Form): (r: Form)
    ensures r.title == [] && r.content == [] && r.error.None?
  {
    EMPTY
  }

  /** The trimmed request passes the same checks again: trimming keeps a
      non-blank value non-blank and never makes it longer. */
  lemma SentRequestPassesCheck(f: Form, accepts: NoticeService.CreateNoticeRequest -> bool)
    requires Submit(f, accepts).sent.Some?
    ensures var q := Submit(f, accepts).sent.value;
      Check(q.title, q.content).None? && |q.title| <= |f.title| && |q.content| <= |f.content|
  {
    CheckTrimmed(f.title, f.content);
  }

  lemma CheckTrimmed(title: string, content: string)
    requires Check(title, content).None?
    ensures Check(JsTrim(title), JsTrim(content)).None?
  {
    TrimIdempotent(title, IsJsWhitespace);
    TrimIdempotent(content, IsJsWhitespace);
  }

  /** Where the form and the server's `@NotBlank` agree: for text whose
      characters up to U+0020 are all JavaScript whitespace (no other
      control characters), a value the form accepts is not blank for the
      server either. */
  lemma AcceptedIsNotBlankOnServer(s: string)
    requires forall i :: 0 <= i < |s| && IsJavaTrimmable(s[i]) ==> IsJsWhitespace(s[i])
    ensures !Blank(s) <==> JavaNotBlank(JsTrim(s))
  {
    var t := JsTrim(s);
    if t != [] {
      var a :| TrimmedAt(s, t, a, IsJsWhitespace);
      assert t[0] == s[a];
    }
  }

  /** Where they differ: a lone U+0001 is not JavaScript whitespace, so the
      form sends it, while the server's `trim()` removes it and rejects the
      request as blank. */
  lemma ControlCharacterPassesOnlyTheForm()
    ensures !Blank("\U{0001}") && !JavaNotBlank(JsTrim("\U{0001}"))
  {
    var s := "\U{0001}";
    assert !IsJsWhitespace(s[0]);
    assert JsTrim(s) == s by {
      TrimKeepsBareEnds(s, IsJsWhitespace);
    }
  }
}

=== FILE: notice_repository.dfy ===
/** The QueryDSL notice queries of `NoticeRepositoryImpl`: every query orders
    the notices newest first by `createdAt`; none filters on a flag. */
module NoticeRepository {
  import opened Seqs
  import opened Text
  import opened Entities
  import opened Paging

  /** `findAllOrderByCreatedAtDesc()`: every notice, newest first. */
  function FindAll(notices: seq<Notice>): (r: seq<Notice>)
    ensures multiset(r) == multiset(notices)
    ensures |r| == |notices|
    ensures SortedDesc(r, CreatedAt)
  {
    SortDesc(notices, CreatedAt)
  }

  /** `findAllOrderByCreatedAtDesc(pageable)`: one window of the ordered
      list, with the total number of notices. */
  function FindAllPage(notices: seq<Notice>, req: PageRequest): (p: Page<Notice>)
    ensures p.request == req
    ensures p.total == |notices|
    ensures |p.content| <= req.size
    ensures forall i :: 0 <= i < |p.content| ==>
      Offset(req) + i < |notices| && p.content[i] == FindAll(notices)[Offset(req) + i]
  {
    PageOf(FindAll(notices), req)
  }

  /** `findTopNByOrderByCreatedAtDesc(pageable)`: the same query as the paged
      one without the count, so it returns exactly that page's content. */
  function FindTopN(notices: seq<Notice>, req: PageRequest): (r: seq<Notice>)
    ensures r == FindAllPage(notices, req).content
    ensures |r| <= req.size
    ensures forall i :: 0 <= i < |r| ==> Offset(req) + i < |notices| && r[i] == FindAll(notices)[Offset(req) + i]
  {
    Slice(FindAll(notices), Offset(req), req.size)
  }

  /** The author join of `findByWrittenByIdOrderByCreatedAtDesc`: a notice
      without an author never matches. */
  predicate WrittenBy(userId: nat, n: Notice)
  {
    n.writtenBy.Some? && n.writtenBy.value.id == userId
  }

  /** `findByWrittenByIdOrderByCreatedAtDesc(userId)`: exactly that user's
      notices, newest first. */
  function FindByWrittenBy(notices: seq<Notice>, userId: nat): (r: seq<Notice>)
    ensures forall n :: multiset(r)[n] == if WrittenBy(userId, n) then multiset(notices)[n] else 0
    ensures forall n :: n in r <==> n in notices && n.writtenBy.Some? && n.writtenBy.value.id == userId
    ensures SortedDesc(r, CreatedAt)
  {
    var keep := (n: Notice) => WrittenBy(userId, n);
    var r := SortDesc(Filter(notices, keep), CreatedAt);
    PermutationSameMembers(r, Filter(notices, keep));
    r
  }

  /** `title.likeIgnoreCase("%" + text + "%") or content.likeIgnoreCase(...)`. */
  predicate Matches(text: string, n: Notice)
  {
    Contains(Lower(n.title), Lower(text)) || Contains(Lower(n.content), Lower(text))
  }

  /** `findByTitleContainingOrContentContainingOrderByCreatedAtDesc(text)`:
      exactly the notices whose title or content contains the text, ignoring
      case, newest first. */
  function Search(notices: seq<Notice>, text: string): (r: seq<Notice>)
    ensures forall n :: n in r <==> (n in notices &&
      ((exists i :: SliceAt(Lower(n.title), Lower(text), i)) || (exists i :: SliceAt(Lower(n.content), Lower(text), i))))
    ensures forall n :: multiset(r)[n] == if Matches(text, n) then multiset(notices)[n] else 0
    ensures SortedDesc(r, CreatedAt)
  {
    var keep := (n: Notice) => Matches(text, n);
    var r := SortDesc(Filter(notices, keep), CreatedAt);
    PermutationSameMembers(r, Filter(notices, keep));
    r
  }

  /** An empty search text matches every notice, so the search returns the
      whole table. */
  lemma EmptySearchFindsAll(notices: seq<Notice>)
    ensures multiset(Search(notices, "")) == multiset(FindAll(notices))
  {
    forall n | n in notices ensures Matches("", n) {
      assert SliceAt(Lower(n.title), Lower(""), 0);
    }
    assert forall n :: multiset(Search(notices, ""))[n] == multiset(notices)[n];
  }

  /** Paging through the notices up to the reported page count visits every
      notice exactly once and in order. */
  lemma NoticePagesReassemble(notices: seq<Notice>, size: nat)
    requires 1 <= size && |notices| <= INT_MAX
    ensures TotalPages(FindAllPage(notices, PageRequest(0, size))) == CeilDiv(|notices|, size)
    ensures Concat(PageContents(FindAll(notices), size, CeilDiv(|notices|, size))) == FindAll(notices)
  {
    PagesReassemble(FindAll(notices), size);
  }
}

=== FILE: notice_service.dfy ===
/** `NoticeService`: page metadata and response shapes built from stored
    notices, and the creation of a notice by the signed-in user. */
module NoticeService {
  import opened Results
  import opened Seqs
  import opened Entities
  import opened Paging
  import opened Security
  import opened NoticeRepository

  /** Message of the `RuntimeException` the list and lookup operations throw. */
  const FETCH_FAILED := "공지사항을 가져오는 중 오류가 발생했습니다."

  /** Message of the `RuntimeException` that wraps every failure of
      `createNotice`, whatever the cause. */
  const CREATE_FAILED := "공지사항 생성 중 오류가 발생했습니다."

  /** Author name and username shown when a notice has no author. */
  const UNKNOWN_NAME := "알 수 없음"
  const UNKNOWN_USERNAME := "unknown"

  /** `NoticeResponse.NoticeSummary` (the formatted date is left out). */
  datatype NoticeSummary = NoticeSummary(id: nat, title: string, authorName: string, createdAt: nat)

  /** `NoticeResponse` (the formatted date is left out). */
  datatype NoticeResponse = NoticeResponse(
    id: nat,
    title: string,
    content: string,
    authorName: string,
    authorUsername: string,
    createdAt: nat)

  /** `NoticeListResponse`: the page counters are Java `int`s. */
  datatype NoticeListResponse = NoticeListResponse(
    notices: seq<NoticeSummary>,
    totalCount: int32,
    currentPage: int32,
    totalPages: int32,
    hasNext: bool,
    hasPrevious: bool)

  /** `CreateNoticeRequest`: the title and content as received. */
  datatype CreateNoticeRequest = CreateNoticeRequest(title: string, content: string)

  function AuthorName(n: Notice): (r: string)
    ensures n.writtenBy.Some? ==> r == n.writtenBy.value.name
    ensures n.writtenBy.None? ==> r == UNKNOWN_NAME
  {
    match n.writtenBy
    case Some(u) => u.name
    case None => UNKNOWN_NAME
  }

  function AuthorUsername(n: Notice): (r: string)
    ensures n.writtenBy.Some? ==> r == n.writtenBy.value.username
    ensures n.writtenBy.None? ==> r == UNKNOWN_USERNAME
  {
    match n.writtenBy
    case Some(u) => u.username
    case None => UNKNOWN_USERNAME
  }

  /** `convertToNoticeSummary`. */
  function ToNoticeSummary(n: Notice): NoticeSummary
  {
    NoticeSummary(n.id, n.title, AuthorName(n), n.createdAt)
  }

  /** `convertToNoticeResponse`. */
  function ToNoticeResponse(n: Notice): NoticeResponse
  {
    NoticeResponse(n.id, n.title, n.content, AuthorName(n), AuthorUsername(n), n.createdAt)
  }

  /** The summary and the full response of a notice agree with each other
      and with the stored row on every field they share; only the full
      response carries the content and the author's username. */
  lemma NoticeConvertersAgree(n: Notice)
    ensures var s, r := ToNoticeSummary(n), ToNoticeResponse(n);
      s.id == r.id == n.id
      && s.title == r.title == n.title
      && r.content == n.content
      && s.authorName == r.authorName
      && s.createdAt == r.createdAt == n.createdAt
      && (n.writtenBy.Some? ==>
            s.authorName == n.writtenBy.value.name && r.authorUsername == n.writtenBy.value.username)
      && (n.writtenBy.None? ==> s.authorName == UNKNOWN_NAME && r.authorUsername == UNKNOWN_USERNAME)
  {
  }

  /** `getRecentNotices(page, size)`: the summaries of page `page` of the
      notices with the page metadata, or the service's exception when
      `PageRequest.of` rejects the arguments. */
  function GetRecentNotices(notices: seq<Notice>, page: int32, size: int32): (r: Result<NoticeListResponse, string>)
    ensures r.Failure? <==> page < 0 || size < 1
    ensures r.Failure? ==> r.error == FETCH_FAILED
    ensures r.Success? ==> |r.value.notices| <= size && r.value.hasPrevious == (page > 0)
  {
    match PageRequestOf(page, size)
    case Failure(_) => Failure(FETCH_FAILED)
    case Success(req) =>
      var p := FindAllPage(notices, req);
      Success(NoticeListResponse(
        Map(p.content, ToNoticeSummary),
        WrapInt(p.total),
        WrapInt(page + 1),
        TotalPages(p),
        HasNext(p),
        HasPrevious(p)))
  }

  /** A successful page holds the summaries of the notices at positions
      `page * size` onwards of the newest-first list, in order. */
  lemma RecentNoticesContent(notices: seq<Notice>, page: int32, size: int32)
    requires page >= 0 && size >= 1
    ensures var v := GetRecentNotices(notices, page, size).value;
      forall i :: 0 <= i < |v.notices| ==>
        page * size + i < |notices|
        && v.notices[i] == ToNoticeSummary(FindAll(notices)[page * size + i])
  {
    var p := FindAllPage(notices, PageRequest(page, size));
    assert Offset(PageRequest(page, size)) == page * size;
  }

  /** Within Java `int` range, the metadata of a successful page is the
      1-based page number, the number of notices, the number of pages they
      fill, and whether notices remain before and after this page. */
  lemma RecentNoticesMetadata(notices: seq<Notice>, page: int32, size: int32)
    requires 0 <= page < INT_MAX && size >= 1
    requires |notices| <= INT_MAX
    ensures GetRecentNotices(notices, page, size).Success?
    ensures var v := GetRecentNotices(notices, page, size).value;
      v.currentPage == page + 1
      && v.totalCount == |notices|
      && v.totalPages == CeilDiv(|notices|, size)
      && (v.hasPrevious <==> v.currentPage > 1)
      && (v.hasNext <==> v.currentPage < v.totalPages)
      && (v.hasNext <==> (page + 1) * size < |notices|)
  {
    var p := FindAllPage(notices, PageRequest(page, size));
    NextAndPrevious(p);
    CeilDivAtMost(|notices|, size);
  }

  /** `noticeRepository.findById(id)`: ids are the primary key, so the first
      notice with that id is the one. */
  function FindNoticeById(notices: seq<Notice>, id: nat): (r: Option<Notice>)
    ensures r.Some? ==> r.value in notices && r.value.id == id
    ensures r.None? <==> forall i :: 0 <= i < |notices| ==> notices[i].id != id
  {
    if |notices| == 0 then None
    else if notices[0].id == id then Some(notices[0])
    else
      var r := FindNoticeById(notices[1..], id);
      assert forall i :: 1 <= i < |notices| ==> notices[i] == notices[1..][i - 1];
      r
  }

  /** `getNoticeById(id)`: the full response of the notice with that id,
      empty exactly when no notice has it. */
  function GetNoticeById(notices: seq<Notice>, id: nat): (r: Option<NoticeResponse>)
    ensures r.None? <==> forall i :: 0 <= i < |notices| ==> notices[i].id != id
    ensures r.Some? ==> r.value.id == id && exists n :: n in notices && n.id == id && r.value == ToNoticeResponse(n)
  {
    match FindNoticeById(notices, id)
    case None => None
    case Some(n) => Some(ToNoticeResponse(n))
  }

  /** `getAllNotices()`: one summary per notice, newest first. */
  function GetAllNotices(notices: seq<Notice>): (r: seq<NoticeSummary>)
    ensures |r| == |notices|
    ensures forall i :: 0 <= i < |r| ==> r[i] == ToNoticeSummary(FindAll(notices)[i])
    ensures forall i, j :: 0 <= i < j < |r| ==> r[i].createdAt >= r[j].createdAt
  {
    var all := FindAll(notices);
    assert forall i, j :: 0 <= i < j < |all| ==> CreatedAt(all[i]) >= CreatedAt(all[j]);
    Map(all, ToNoticeSummary)
  }

  /** What `createNotice` returns, together with the notice table after
      the call. */
  datatype CreateOutcome = CreateOutcome(response: Result<NoticeResponse, string>, notices: seq<Notice>)

  /** The user `createNotice` writes as: the stored user whose username is
      the signed-in caller's name. */
  predicate CanWrite(auth: Option<Authentication>, users: seq<User>)
  {
    SignedIn(auth) && UsernameTaken(users, AuthName(auth.value))
  }

  /** `createNotice(request)`. The caller must be signed in and stored as a
      user; otherwise nothing is saved and the wrapped exception is
      reported. On success the new row gets the next identity value, the
      request's title and content, the caller as author and `now` as its
      creation time, and is appended to the table. */
  function CreateNotice(request: CreateNoticeRequest, auth: Option<Authentication>,
                        notices: seq<Notice>, users: seq<User>, now: nat): (r: CreateOutcome)
    ensures r.response.Failure? <==> !CanWrite(auth, users)
    ensures r.response.Failure? ==> r.response.error == CREATE_FAILED && r.notices == notices
    ensures r.response.Success? ==>
      |r.notices| == |notices| + 1 && r.notices[..|notices|] == notices
      && var n := r.notices[|notices|];
      n.title == request.title && n.content == request.content && n.createdAt == now
      && n.writtenBy.Some? && n.writtenBy.value in users && n.writtenBy.value.username == AuthName(auth.value)
      && (forall i :: 0 <= i < |notices| ==> notices[i].id != n.id)
      && r.response.value == ToNoticeResponse(n)
  {
    if !SignedIn(auth) then CreateOutcome(Failure(CREATE_FAILED), notices)
    else match FindUserByUsername(users, AuthName(auth.value))
      case None => CreateOutcome(Failure(CREATE_FAILED), notices)
      case Some(user) =>
        var n := Notice(NextId(NoticeIds(notices)), request.title, request.content, Some(user), now);
        assert (notices + [n])[..|notices|] == notices;
        CreateOutcome(Success(ToNoticeResponse(n)), notices + [n])
  }

  /** A created notice can be read back: looking its id up in the new
      table gives exactly the response `createNotice` returned, and the
      author shown is the caller's stored name. */
  lemma CreatedNoticeIsFound(request: CreateNoticeRequest, auth: Option<Authentication>,
                             notices: seq<Notice>, users: seq<User>, now: nat)
    requires CanWrite(auth, users)
    ensures var r := CreateNotice(request, auth, notices, users, now);
      r.response.Success?
      && GetNoticeById(r.notices, r.response.value.id) == Some(r.response.value)
      && r.response.value.title == request.title
      && r.response.value.content == request.content
      && r.response.value.authorName == FindUserByUsername(users, AuthName(auth.value)).value.name
  {
    var r := CreateNotice(request, auth, notices, users, now);
    var n := r.notices[|notices|];
    assert FindNoticeById(r.notices, n.id) == Some(n) by {
      FirstWithIdIsLast(notices, n);
    }
  }

  /** In `notices + [n]` with a fresh id, the lookup of that id finds `n`. */
  lemma {:induction false} FirstWithIdIsLast(notices: seq<Notice>, n: Notice)
    requires forall i :: 0 <= i < |notices| ==> notices[i].id != n.id
    ensures FindNoticeById(notices + [n], n.id) == Some(n)
  {
    if |notices| > 0 {
      assert (notices + [n])[1..] == notices[1..] + [n];
      FirstWithIdIsLast(notices[1..], n);
    }
  }
}

=== FILE: paging.dfy ===
/** Spring Data's `PageRequest` and `PageImpl` as the repositories and
    services use them, together with the Java `int` arithmetic the services
    apply to page numbers and totals. */
module Paging {
  import opened Results
  import opened Seqs

  const INT_MIN: int := -0x8000_0000
  const INT_MAX: int := 0x7fff_ffff

  /** A Java `int`. */
  type int32 = x: int | INT_MIN <= x <= INT_MAX

  /** Java `int` arithmetic and the `(int)` cast of a `long`: the value
      modulo 2^32, read back as a signed number. */
  function WrapInt(x: int): (r: int32)
    ensures (r - x) % 0x1_0000_0000 == 0
    ensures INT_MIN <= x <= INT_MAX ==> r == x
  {
    var m := x % 0x1_0000_0000;
    if m > INT_MAX then m - 0x1_0000_0000 else m
  }

  /** The `(int)` cast of a non-negative `double` that holds a whole number:
      values above `Integer.MAX_VALUE` become `Integer.MAX_VALUE`. */
  function SaturateInt(x: nat): (r: int32)
    ensures r <= x
    ensures x <= INT_MAX ==> r == x
  {
    if x > INT_MAX then INT_MAX else x
  }

  /** A validated page request: zero-based page index and page size. */
  datatype PageRequest = PageRequest(page: nat, size: nat)

  /** The `IllegalArgumentException`s thrown by `PageRequest.of`. */
  datatype PageRequestError = NegativePage | SizeBelowOne

  /** `PageRequest.of(page, size)`: the page index must not be negative and
      the size must be at least one. */
  function PageRequestOf(page: int32, size: int32): (r: Result<PageRequest, PageRequestError>)
    ensures r.Success? <==> page >= 0 && size >= 1
    ensures r.Success? ==> r.value.page == page && r.value.size == size && r.value.size >= 1
    ensures page < 0 ==> r == Failure(NegativePage)
  {
    if page < 0 then Failure(NegativePage)
    else if size < 1 then Failure(SizeBelowOne)
    else Success(PageRequest(page, size))
  }

  /** `pageable.getOffset()`, computed in `long` from two `int`s. */
  function Offset(req: PageRequest): nat
  {
    req.page * req.size
  }

  /** A `PageImpl`: the page content, the request that produced it and the
      total number of rows matching the query. */
  datatype Page<T> = Page(content: seq<T>, request: PageRequest, total: nat)

  /** `new PageImpl<>(content, pageable, total)`. On a non-empty last page the
      constructor recomputes the total as offset plus content size. */
  function MakePage<T>(content: seq<T>, req: PageRequest, total: nat): Page<T>
  {
    var adjusted :=
      if |content| > 0 && Offset(req) + req.size > total then Offset(req) + |content| else total;
    Page(content, req, adjusted)
  }

  /** When the content really is the requested slice of a list of `total`
      rows, the constructor's correction leaves the total unchanged. */
  lemma MakePageKeepsTotal<T>(all: seq<T>, req: PageRequest)
    ensures MakePage(Slice(all, Offset(req), req.size), req, |all|).total == |all|
  {
  }

  /** `getTotalPages()`: `(int) Math.ceil((double) total / size)`, and 1 for
      an unbounded size of zero. */
  function TotalPages<T>(p: Page<T>): int32
  {
    if p.request.size == 0 then 1 else SaturateInt(CeilDiv(p.total, p.request.size))
  }

  /** `hasNext()`: `getNumber() + 1 < getTotalPages()`, in `int`. */
  predicate HasNext<T>(p: Page<T>)
  {
    WrapInt(p.request.page + 1) < TotalPages(p)
  }

  /** `hasPrevious()`: `getNumber() > 0`. */
  predicate HasPrevious<T>(p: Page<T>)
  {
    p.request.page > 0
  }

  /** For a page index below `Integer.MAX_VALUE` and a total that fits an
      `int`, there is a next page exactly when rows remain after this page,
      and a previous page exactly when this is not the first one. */
  lemma NextAndPrevious<T>(p: Page<T>)
    requires p.request.size >= 1
    requires p.request.page < INT_MAX
    requires p.total <= INT_MAX
    ensures HasNext(p) <==> (p.request.page + 1) * p.request.size < p.total
    ensures HasNext(p) <==> p.request.page + 1 < TotalPages(p)
    ensures HasPrevious(p) <==> p.request.page + 1 > 1
  {
    CeilDivPageBound(p.total, p.request.size, p.request.page + 1);
    CeilDivAtMost(p.total, p.request.size);
    assert TotalPages(p) == CeilDiv(p.total, p.request.size);
  }

  // ---------------------------------------------------------------------------
  // A query that returns page `req` of an ordered result and counts all rows
  // ---------------------------------------------------------------------------

  /** `new PageImpl<>(query.offset(o).limit(l).fetch(), pageable, countQuery)`
      over an ordered result `all`: the content is the requested window and
      the total is the row count of the whole result. */
  function PageOf<T>(all: seq<T>, req: PageRequest): (r: Page<T>)
    ensures r.request == req && r.total == |all|
    ensures |r.content| <= req.size
    ensures |r.content| == if Offset(req) >= |all| then 0 else Min(req.size, |all| - Offset(req))
    ensures forall i :: 0 <= i < |r.content| ==> r.content[i] == all[Offset(req) + i]
  {
    MakePageKeepsTotal(all, req);
    MakePage(Slice(all, Offset(req), req.size), req, |all|)
  }

  /** The contents of pages `0 .. count-1` of size `size`, in page order. */
  function PageContents<T>(all: seq<T>, size: nat, count: nat): (r: seq<seq<T>>)
    ensures |r| == count
    ensures forall k :: 0 <= k < count ==> r[k] == PageOf(all, PageRequest(k, size)).content
  {
    seq(count, k requires 0 <= k < count => PageOf(all, PageRequest(k, size)).content)
  }

  /** Concatenation of a sequence of pages. */
  function Concat<T>(pages: seq<seq<T>>): seq<T>
  {
    if |pages| == 0 then [] else Concat(pages[..|pages| - 1]) + pages[|pages| - 1]
  }

  lemma {:induction false} ConcatIsPages<T>(all: seq<T>, size: nat, count: nat)
    requires size > 0
    ensures Concat(PageContents(all, size, count)) == Pages(all, size, count)
  {
    if count > 0 {
      ConcatIsPages(all, size, count - 1);
      assert PageContents(all, size, count)[..count - 1] == PageContents(all, size, count - 1);
    }
  }

  /** Fetching pages 0, 1, ... up to the reported page count and
      concatenating their contents reproduces the whole ordered result:
      no row is skipped or repeated. */
  lemma PagesReassemble<T>(all: seq<T>, size: nat)
    requires 1 <= size && |all| <= INT_MAX
    ensures TotalPages(PageOf(all, PageRequest(0, size))) == CeilDiv(|all|, size)
    ensures Concat(PageContents(all, size, CeilDiv(|all|, size))) == all
  {
    CeilDivAtMost(|all|, size);
    ConcatIsPages(all, size, CeilDiv(|all|, size));
    AllPagesReassemble(all, size);
  }
}

=== FILE: results.dfy ===
/** Optional values and success/failure results. They stand in for Java's
    `Optional`, `null` references and thrown exceptions, and for the
    `undefined`/`null` values of the TypeScript front end. */
module Results {

  /** A value that may be absent: `Optional.empty()`, `null` or `undefined`. */
  datatype Option<+T> = None | Some(value: T)
  {
    /** The value, or `default` when absent. */
    function GetOr(default: T): T
    {
      match this
      case Some(v) => v
      case None => default
    }
  }

  /** The outcome of an operation that either returns a value or throws. */
  datatype Result<+T, +E> = Success(value: T) | Failure(error: E)
}

=== FILE: security.dfy ===
/** The authenticated caller. The services read it from Spring Security's
    context; here it is passed explicitly. */
module Security {
  import opened Results

  /** `authentication.getPrincipal()`: the application's own `UserPrincipal`
      or any other principal object. */
  datatype Principal = UserPrincipal(username: string) | OtherPrincipal(name: string)

  /** An `Authentication` in the security context. */
  datatype Authentication = Authentication(authenticated: bool, principal: Principal)

  /** `authentication.getName()`: a `UserPrincipal` is a `UserDetails`, whose
      name is its username. */
  function AuthName(a: Authentication): string
  {
    match a.principal
    case UserPrincipal(u) => u
    case OtherPrincipal(n) => n
  }

  /** `authentication != null && authentication.isAuthenticated()`. */
  predicate SignedIn(auth: Option<Authentication>)
  {
    auth.Some? && auth.value.authenticated
  }
}

=== FILE: seeding.dfy ===
/** `DataInitializer`: the start-up seeding of an administrator, the units
    with one manager each, and sample notices and documents. Every step
    first checks whether its rows already exist, so that seeding a seeded
    store changes nothing. The four repositories become one store value;
    the password encoder's output and the sample rows are inputs, and every
    row saved in one run gets the same creation time `now`. */
module Seeding {
  import opened Results
  import opened Text
  import opened Entities
  import opened UnitCode

  const ADMIN_USERNAME := "admin"
  const ADMIN_NAME := "시스템 관리자"
  const MANAGER_SUFFIX := "_manager"
  const MANAGER_NAME_SUFFIX := " 관리자"

  /** The units created at start-up, in creation order. */
  const UNIT_NAMES: seq<string> := [
    "제1전투비행단", "제3훈련비행단", "제5공중기동비행단", "제8전투비행단", "제10전투비행단",
    "제11전투비행단", "제15특수임무비행단", "제16전투비행단", "제17전투비행단", "제18전투비행단",
    "제19전투비행단", "제20전투비행단", "공군사관학교", "공군교육사령부", "미사일방어사령부",
    "방공관제사령부", "공작사근무지원단", "제38전투비행전대", "제7항공통신전대", "항공안전단"
  ]

  /** The four tables the seeding reads and writes. */
  datatype Store = Store(units: seq<Unit>, users: seq<User>, notices: seq<Notice>, documents: seq<Document>)

  datatype NoticeSeed = NoticeSeed(title: string, content: string)

  datatype DocumentSeed = DocumentSeed(
    title: string,
    description: string,
    fileName: string,
    fileType: string,
    fileSize: nat,
    fileContent: seq<byte>)

  /** What seeding takes from outside: the encoded default passwords of the
      administrator and of the managers, and the sample rows. */
  datatype Seeds = Seeds(
    adminHash: string,
    managerHash: string,
    notices: seq<NoticeSeed>,
    documents: seq<DocumentSeed>)

  function UnitIds(units: seq<Unit>): (r: seq<nat>)
    ensures |r| == |units| && forall i :: 0 <= i < |units| ==> r[i] == units[i].id
  {
    seq(|units|, i requires 0 <= i < |units| => units[i].id)
  }

  /** `unitRepository.existsByName`. */
  predicate UnitNameTaken(units: seq<Unit>, name: string)
  {
    exists i :: 0 <= i < |units| && units[i].name == name
  }

  /** Some unit already has the code; the `unique` constraint on the code
      column then makes the save fail. */
  predicate UnitCodeTaken(units: seq<Unit>, code: string)
  {
    exists i :: 0 <= i < |units| && units[i].code == code
  }

  // ---------------------------------------------------------------------------
  // The manager account of a unit
  // ---------------------------------------------------------------------------

  /** `unit.getCode().toLowerCase() + "_manager"`. */
  function ManagerUsername(code: string): string
  {
    Lower(code) + MANAGER_SUFFIX
  }

  /** The code of a generated unit can be read back from its manager's
      username: drop the suffix and upper-case the rest. */
  lemma ManagerUsernameRoundTrip(code: string)
    requires Upper(code) == code
    ensures var u := ManagerUsername(code);
      |u| == |code| + |MANAGER_SUFFIX| && u[|code|..] == MANAGER_SUFFIX && Upper(u[..|code|]) == code
  {
    var u := ManagerUsername(code);
    assert u[..|code|] == Lower(code);
    assert u[|code|..] == MANAGER_SUFFIX;
    forall i | 0 <= i < |code| ensures Upper(Lower(code))[i] == code[i] {
      assert UpperChar(code[i]) == code[i];
    }
  }

  /** Different unit codes give different manager usernames. */
  lemma ManagerUsernameInjective(a: string, b: string)
    requires Upper(a) == a && Upper(b) == b
    ensures ManagerUsername(a) == ManagerUsername(b) ==> a == b
  {
    if ManagerUsername(a) == ManagerUsername(b) {
      ManagerUsernameRoundTrip(a);
      ManagerUsernameRoundTrip(b);
    }
  }

  /** `createManagerForUnit(unit)`: a `MANAGER` of the unit named after its
      code, unless that username is already taken. */
  function CreateManagerForUnit(users: seq<User>, unit: Unit, hash: string, now: nat): (r: seq<User>)
    ensures UsernameTaken(r, ManagerUsername(unit.code))
    ensures UsernameTaken(users, ManagerUsername(unit.code)) ==> r == users
    ensures !UsernameTaken(users, ManagerUsername(unit.code)) ==>
      |r| == |users| + 1 && r[..|users|] == users
      && var m := r[|users|];
      m.username == ManagerUsername(unit.code) && m.name == unit.name + MANAGER_NAME_SUFFIX
      && m.role == Manager && m.unit == Some(unit) && m.passwordHash == hash
      && (forall i :: 0 <= i < |users| ==> users[i].id != m.id)
  {
    var username := ManagerUsername(unit.code);
    if UsernameTaken(users, username) then users
    else
      var m := User(NextId(UserIds(users)), username, unit.name + MANAGER_NAME_SUFFIX, hash, Manager, Some(unit), now);
      assert (users + [m])[|users|] == m;
      assert (users + [m])[..|users|] == users;
      users + [m]
  }

  // ---------------------------------------------------------------------------
  // The four steps
  // ---------------------------------------------------------------------------

  /** `initializeTestAdmin()`: an `ADMIN` named "admin" without a unit,
      unless the username is taken. */
  function InitializeTestAdmin(s: Store, hash: string, now: nat): (r: Store)
    ensures UsernameTaken(r.users, ADMIN_USERNAME)
    ensures UsernameTaken(s.users, ADMIN_USERNAME) ==> r == s
    ensures !UsernameTaken(s.users, ADMIN_USERNAME) ==>
      r == s.(users := r.users) && |r.users| == |s.users| + 1 && r.users[..|s.users|] == s.users
      && var a := r.users[|s.users|];
      a.username == ADMIN_USERNAME && a.name == ADMIN_NAME && a.role == Admin && a.unit.None?
      && a.passwordHash == hash
  {
    if UsernameTaken(s.users, ADMIN_USERNAME) then s
    else
      var a := User(NextId(UserIds(s.users)), ADMIN_USERNAME, ADMIN_NAME, hash, Admin, None, now);
      assert (s.users + [a])[|s.users|] == a;
      assert (s.users + [a])[..|s.users|] == s.users;
      s.(users := s.users + [a])
  }

  /** One iteration of `initializeUnitsAndManagers()`: an existing name is
      skipped; otherwise the unit is saved with the code `generate` gives
      its name (`Run` passes `generateUnitCode` as written) and gets its
      manager. A code another unit already has violates the column's
      `unique` constraint; the exception ends the seeding, and the code is
      reported. */
  function SeedUnit(s: Store, name: string, generate: string -> string, hash: string, now: nat): (r: Result<Store, string>)
    ensures UnitNameTaken(s.units, name) ==> r == Success(s)
    ensures r.Failure? <==> !UnitNameTaken(s.units, name) && UnitCodeTaken(s.units, generate(name))
    ensures r.Failure? ==> r.error == generate(name)
    ensures r.Success? ==> (UnitNameTaken(r.value.units, name)
      && r.value.notices == s.notices && r.value.documents == s.documents
      && |s.units| <= |r.value.units| && r.value.units[..|s.units|] == s.units
      && |s.users| <= |r.value.users| && r.value.users[..|s.users|] == s.users)
    ensures r.Success? && !UnitNameTaken(s.units, name) ==>
      |r.value.units| == |s.units| + 1
      && var u := r.value.units[|s.units|];
      u.name == name && u.code == generate(name)
      && UsernameTaken(r.value.users, ManagerUsername(u.code))
  {
    if UnitNameTaken(s.units, name) then Success(s)
    else
      var code := generate(name);
      if UnitCodeTaken(s.units, code) then Failure(code)
      else
        var u := Unit(NextId(UnitIds(s.units)), name, code, now);
        var units := s.units + [u];
        assert units[|s.units|] == u;
        assert units[..|s.units|] == s.units;
        Success(s.(units := units, users := CreateManagerForUnit(s.users, u, hash, now)))
  }

  /** Start-up seeding saves the training wing under the code the generator
      as written produces, "3훈련WING", not the intended "3TRAIN". */
  lemma SeededTrainingWing(s: Store, hash: string, now: nat)
    requires !UnitNameTaken(s.units, "제" + "3" + "훈련비행단")
    requires !UnitCodeTaken(s.units, "3" + "훈련WING")
    ensures var r := SeedUnit(s, "제" + "3" + "훈련비행단", GenerateAsWritten, hash, now);
      r.Success? && r.value.units[|s.units|].code == "3" + "훈련WING"
  {
    ThirdTrainingWing();
  }

  /** `initializeUnitsAndManagers()` over a list of names, in order. */
  function SeedUnits(s: Store, names: seq<string>, generate: string -> string, hash: string, now: nat): (r: Result<Store, string>)
    ensures r.Success? ==> r.value.notices == s.notices && r.value.documents == s.documents
    decreases |names|
  {
    if |names| == 0 then Success(s)
    else match SeedUnit(s, names[0], generate, hash, now)
      case Failure(code) => Failure(code)
      case Success(next) => SeedUnits(next, names[1..], generate, hash, now)
  }

  /** Rows created in one `saveAll`: identity values `first`, `first + 1`, … */
  function SampleNotices(samples: seq<NoticeSeed>, author: User, first: nat, now: nat): (r: seq<Notice>)
    ensures |r| == |samples|
    ensures forall i :: 0 <= i < |r| ==>
      r[i] == Notice(first + i, samples[i].title, samples[i].content, Some(author), now)
  {
    seq(|samples|, i requires 0 <= i < |samples| =>
      Notice(first + i, samples[i].title, samples[i].content, Some(author), now))
  }

  function SampleDocuments(samples: seq<DocumentSeed>, uploader: User, first: nat, now: nat): (r: seq<Document>)
    ensures |r| == |samples|
    ensures forall i :: 0 <= i < |r| ==> r[i] == DocumentOf(samples[i], uploader, first + i, now)
  {
    seq(|samples|, i requires 0 <= i < |samples| => DocumentOf(samples[i], uploader, first + i, now))
  }

  /** A sample document as saved: active, uploaded by `uploader` at `now`. */
  function DocumentOf(d: DocumentSeed, uploader: User, id: nat, now: nat): (r: Document)
    ensures IsActive(r) && r.uploadedBy == Some(uploader)
    ensures r.title == d.title && r.description == Some(d.description)
    ensures r.fileName == d.fileName && r.fileType == d.fileType
    ensures r.fileSize == Some(d.fileSize) && r.fileContent == d.fileContent
  {
    Document(id, d.title, Some(d.description), d.fileName, d.fileType, Some(d.fileSize), d.fileContent,
      Some(uploader), now, Some(true))
  }

  /** `initializeSampleNotices()`: only into an empty table, and only when
      the administrator exists to be their author. */
  function InitializeSampleNotices(s: Store, samples: seq<NoticeSeed>, now: nat): (r: Store)
    ensures |s.notices| > 0 || !UsernameTaken(s.users, ADMIN_USERNAME) ==> r == s
    ensures |s.notices| == 0 && UsernameTaken(s.users, ADMIN_USERNAME) ==>
      r == s.(notices := r.notices) && |r.notices| == |samples|
      && forall i :: 0 <= i < |samples| ==>
           r.notices[i].title == samples[i].title && r.notices[i].content == samples[i].content
           && r.notices[i].writtenBy == FindUserByUsername(s.users, ADMIN_USERNAME)
  {
    if |s.notices| > 0 then s
    else match FindUserByUsername(s.users, ADMIN_USERNAME)
      case None => s
      case Some(admin) => s.(notices := SampleNotices(samples, admin, NextId(NoticeIds(s.notices)), now))
  }

  /** `initializeSampleDocuments()`: only into an empty table, and only when
      the administrator exists to be their uploader. */
  function InitializeSampleDocuments(s: Store, samples: seq<DocumentSeed>, now: nat): (r: Store)
    ensures |s.documents| > 0 || !UsernameTaken(s.users, ADMIN_USERNAME) ==> r == s
    ensures |s.documents| == 0 && UsernameTaken(s.users, ADMIN_USERNAME) ==>
      r == s.(documents := r.documents) && |r.documents| == |samples|
      && forall i :: 0 <= i < |samples| ==>
           IsActive(r.documents[i]) && r.documents[i].title == samples[i].title
           && r.documents[i].uploadedBy == FindUserByUsername(s.users, ADMIN_USERNAME)
  {
    if |s.documents| > 0 then s
    else match FindUserByUsername(s.users, ADMIN_USERNAME)
      case None => s
      case Some(admin) => s.(documents := SampleDocuments(samples, admin, NextId([]), now))
  }

  /** `run()`: the four steps in order, with the start-up unit names and
      `generateUnitCode` as written. A failed unit save ends the run. */
  function Run(s: Store, seeds: Seeds, now: nat): (r: Result<Store, string>)
    ensures r.Success? ==> UsernameTaken(r.value.users, ADMIN_USERNAME)
  {
    RunWith(s, seeds, UNIT_NAMES, GenerateAsWritten, now)
  }

  /** The four steps for any list of unit names and any code generator. */
  function RunWith(s: Store, seeds: Seeds, names: seq<string>, generate: string -> string, now: nat): (r: Result<Store, string>)
    ensures r.Success? ==> UsernameTaken(r.value.users, ADMIN_USERNAME)
  {
    var withAdmin := InitializeTestAdmin(s, seeds.adminHash, now);
    match SeedUnits(withAdmin, names, generate, seeds.managerHash, now)
    case Failure(code) => Failure(code)
    case Success(withUnits) =>
      SeedUnitsKeepsUsers(withAdmin, names, generate, seeds.managerHash, now);
      var withNotices := InitializeSampleNotices(withUnits, seeds.notices, now);
      Success(InitializeSampleDocuments(withNotices, seeds.documents, now))
  }

  // ---------------------------------------------------------------------------
  // Seeding twice is seeding once
  // ---------------------------------------------------------------------------

  /** The unit steps only append users, so a taken username stays taken. */
  lemma {:induction false} SeedUnitsKeepsUsers(s: Store, names: seq<string>, generate: string -> string, hash: string, now: nat)
    ensures var r := SeedUnits(s, names, generate, hash, now);
      r.Success? ==> (|s.users| <= |r.value.users| && r.value.users[..|s.users|] == s.users
      && (UsernameTaken(s.users, ADMIN_USERNAME) ==> UsernameTaken(r.value.users, ADMIN_USERNAME)))
    decreases |names|
  {
    var r := SeedUnits(s, names, generate, hash, now);
    if |names| > 0 && r.Success? {
      var next := SeedUnit(s, names[0], generate, hash, now).value;
      SeedUnitsKeepsUsers(next, names[1..], generate, hash, now);
      assert r.value.users[..|s.users|] == r.value.users[..|next.users|][..|s.users|];
    }
    if r.Success? && UsernameTaken(s.users, ADMIN_USERNAME) {
      var i :| 0 <= i < |s.users| && s.users[i].username == ADMIN_USERNAME;
      assert r.value.users[i] == r.value.users[..|s.users|][i];
    }
  }

  /** Every name the unit step was given is a unit name afterwards. */
  lemma {:induction false} SeedUnitsCoversNames(s: Store, names: seq<string>, generate: string -> string, hash: string, now: nat)
    requires SeedUnits(s, names, generate, hash, now).Success?
    ensures var r := SeedUnits(s, names, generate, hash, now).value;
      forall i :: 0 <= i < |names| ==> UnitNameTaken(r.units, names[i])
    ensures var r := SeedUnits(s, names, generate, hash, now).value;
      |s.units| <= |r.units| && r.units[..|s.units|] == s.units
    decreases |names|
  {
    if |names| > 0 {
      var next := SeedUnit(s, names[0], generate, hash, now).value;
      SeedUnitsCoversNames(next, names[1..], generate, hash, now);
      var r := SeedUnits(s, names, generate, hash, now).value;
      assert r.units[..|s.units|] == r.units[..|next.units|][..|s.units|];
      var j :| 0 <= j < |next.units| && next.units[j].name == names[0];
      assert r.units[j] == r.units[..|next.units|][j];
      forall i | 1 <= i < |names| ensures UnitNameTaken(r.units, names[i]) {
        assert names[i] == names[1..][i - 1];
      }
    }
  }

  /** Names that are all taken are all skipped. */
  lemma {:induction false} SeedUnitsSkipsTaken(s: Store, names: seq<string>, generate: string -> string, hash: string, now: nat)
    requires forall i :: 0 <= i < |names| ==> UnitNameTaken(s.units, names[i])
    ensures SeedUnits(s, names, generate, hash, now) == Success(s)
    decreases |names|
  {
    if |names| > 0 {
      assert SeedUnit(s, names[0], generate, hash, now) == Success(s);
      SeedUnitsSkipsTaken(s, names[1..], generate, hash, now);
    }
  }

  /** Seeding a store a second time, at any later time, changes nothing:
      the administrator and every unit exist, and the sample tables are
      either filled or were left empty by the first run for lack of
      samples. */
  lemma RunIsIdempotent(s: Store, seeds: Seeds, now: nat, later: nat)
    requires Run(s, seeds, now).Success?
    ensures var r := Run(s, seeds, now).value;
      Run(r, seeds, later) == Success(r)
  {
    RunWithIsIdempotent(s, seeds, UNIT_NAMES, GenerateAsWritten, now, later);
  }

  /** The same for any unit names and any code generator. */
  lemma RunWithIsIdempotent(s: Store, seeds: Seeds, names: seq<string>, generate: string -> string, now: nat, later: nat)
    requires RunWith(s, seeds, names, generate, now).Success?
    ensures var r := RunWith(s, seeds, names, generate, now).value;
      RunWith(r, seeds, names, generate, later) == Success(r)
  {
    var withAdmin := InitializeTestAdmin(s, seeds.adminHash, now);
    var withUnits := SeedUnits(withAdmin, names, generate, seeds.managerHash, now).value;
    SeedUnitsKeepsUsers(withAdmin, names, generate, seeds.managerHash, now);
    SeedUnitsCoversNames(withAdmin, names, generate, seeds.managerHash, now);
    var r := RunWith(s, seeds, names, generate, now).value;
    assert r.units == withUnits.units && r.users == withUnits.users;
    assert InitializeTestAdmin(r, seeds.adminHash, later) == r;
    SeedUnitsSkipsTaken(r, names, generate, seeds.managerHash, later);
  }
}

=== FILE: seqs.dfy ===
/** Filtering, ordering and slicing of record sequences: the building blocks
    of every list query in the repositories and of the page slicing in the
    front end. */
module Seqs {

  function Min(a: int, b: int): int { if a <= b then a else b }

  /** The elements of `s` that satisfy `p`, in their original order: a
      `where` clause. */
  function Filter<T(!new)>(s: seq<T>, p: T -> bool): (r: seq<T>)
    ensures |r| <= |s|
    ensures forall x :: x in r <==> x in s && p(x)
    ensures forall x :: multiset(r)[x] == if p(x) then multiset(s)[x] else 0
  {
    if |s| == 0 then []
    else
      assert s == [s[0]] + s[1..];
      if p(s[0]) then [s[0]] + Filter(s[1..], p)
      else Filter(s[1..], p)
  }

  /** Element-wise conversion, as `stream().map(f).collect(toList())`. */
  function Map<T, U>(s: seq<T>, f: T -> U): (r: seq<U>)
    ensures |r| == |s|
    ensures forall i :: 0 <= i < |s| ==> r[i] == f(s[i])
  {
    seq(|s|, i requires 0 <= i < |s| => f(s[i]))
  }

  // ---------------------------------------------------------------------------
  // Ordering by a timestamp key, newest first
  // ---------------------------------------------------------------------------

  /** `orderBy(key.desc())`: keys never increase along the sequence. */
  ghost predicate SortedDesc<T>(s: seq<T>, key: T -> int)
  {
    forall i, j :: 0 <= i < j < |s| ==> key(s[i]) >= key(s[j])
  }

  /** Insert `x` into a sequence already ordered newest first. */
  function InsertDesc<T>(x: T, s: seq<T>, key: T -> int): (r: seq<T>)
    requires SortedDesc(s, key)
    ensures |r| == |s| + 1
    ensures multiset(r) == multiset(s) + multiset{x}
    ensures SortedDesc(r, key)
  {
    if |s| == 0 then [x]
    else if key(x) >= key(s[0]) then [x] + s
    else
      var rest := InsertDesc(x, s[1..], key);
      assert s == [s[0]] + s[1..];
      RestBelowHead(x, s, rest, key);
      ConsSorted(s[0], rest, key);
      [s[0]] + rest
  }

  /** Every record of `s[1..]` with `x` added is no newer than `s[0]` when
      `x` is older than `s[0]`. */
  lemma RestBelowHead<T>(x: T, s: seq<T>, rest: seq<T>, key: T -> int)
    requires |s| > 0 && SortedDesc(s, key) && key(x) < key(s[0])
    requires multiset(rest) == multiset(s[1..]) + multiset{x}
    ensures forall k :: 0 <= k < |rest| ==> key(rest[k]) <= key(s[0])
  {
    forall k | 0 <= k < |rest| ensures key(rest[k]) <= key(s[0]) {
      assert rest[k] in multiset(rest);
      if rest[k] != x {
        assert rest[k] in multiset(s[1..]);
        var j :| 0 <= j < |s[1..]| && s[1..][j] == rest[k];
        assert s[j + 1] == rest[k];
      }
    }
  }

  /** A record no older than every record of an ordered sequence can head
      it. */
  lemma ConsSorted<T>(h: T, rest: seq<T>, key: T -> int)
    requires SortedDesc(rest, key)
    requires forall k :: 0 <= k < |rest| ==> key(rest[k]) <= key(h)
    ensures SortedDesc([h] + rest, key)
  {
    var r := [h] + rest;
    forall i, j | 0 <= i < j < |r| ensures key(r[i]) >= key(r[j]) {
      assert r[j] == rest[j - 1];
      if i > 0 {
        assert r[i] == rest[i - 1];
      }
    }
  }

  /** The records of `s` ordered newest first. Ties are left in whatever
      order the insertion produces: callers may rely only on the ordering
      and on the result being a permutation of the input. */
  function SortDesc<T>(s: seq<T>, key: T -> int): (r: seq<T>)
    ensures |r| == |s|
    ensures multiset(r) == multiset(s)
    ensures SortedDesc(r, key)
  {
    if |s| == 0 then []
    else
      assert s == [s[0]] + s[1..];
      InsertDesc(s[0], SortDesc(s[1..], key), key)
  }

  /** Membership is unchanged by any permutation. */
  lemma PermutationSameMembers<T>(a: seq<T>, b: seq<T>)
    requires multiset(a) == multiset(b)
    ensures forall x :: x in a <==> x in b
  {
    forall x ensures x in a <==> x in b {
      assert x in a <==> x in multiset(a);
      assert x in b <==> x in multiset(b);
    }
  }

  // ---------------------------------------------------------------------------
  // Slicing: `offset(o).limit(l)` in a query, `s[o..min(o+l, |s|)]`
  // ---------------------------------------------------------------------------

  /** The rows from `offset` on, at most `limit` of them. */
  function Slice<T>(s: seq<T>, offset: nat, limit: nat): (r: seq<T>)
    ensures |r| <= limit
    ensures |r| == if offset >= |s| then 0 else Min(limit, |s| - offset)
    ensures forall i :: 0 <= i < |r| ==> r[i] == s[offset + i]
  {
    if offset >= |s| then [] else s[offset..Min(offset + limit, |s|)]
  }

  /** Ceiling of `n / d`: the number of pages of size `d` that hold `n` rows. */
  function CeilDiv(n: nat, d: nat): nat
    requires d > 0
  {
    (n + d - 1) / d
  }

  /** `CeilDiv(n, d)` is the least `q` with `q * d >= n`. */
  lemma CeilDivIsLeast(n: nat, d: nat)
    requires d > 0
    ensures CeilDiv(n, d) * d >= n
    ensures CeilDiv(n, d) == 0 || (CeilDiv(n, d) - 1) * d < n
  {
    var q := CeilDiv(n, d);
    var m := n + d - 1;
    assert m == q * d + m % d;
    assert 0 <= m % d < d;
    if q > 0 {
      assert (q - 1) * d == q * d - d;
    }
  }

  /** There are never more pages than rows. */
  lemma CeilDivAtMost(n: nat, d: nat)
    requires d > 0
    ensures CeilDiv(n, d) <= n
  {
    var q := CeilDiv(n, d);
    var m := n + d - 1;
    assert q * d <= m by {
      assert m == q * d + m % d;
    }
    assert n * d >= n;
    assert q * d < (n + 1) * d;
  }

  /** `k * d < n` exactly when page `k` (0-based) is not past the last page. */
  lemma CeilDivPageBound(n: nat, d: nat, k: nat)
    requires d > 0
    ensures k < CeilDiv(n, d) <==> k * d < n
  {
    CeilDivIsLeast(n, d);
    var q := CeilDiv(n, d);
    if k < q {
      MulLeqRight(k, q - 1, d);
    } else {
      MulLeqRight(q, k, d);
    }
  }

  lemma MulLeqRight(a: nat, b: nat, d: nat)
    requires a <= b
    ensures a * d <= b * d
  {
  }

  /** Pages 0 .. count-1 of size `size`, concatenated. */
  function Pages<T>(s: seq<T>, size: nat, count: nat): seq<T>
  {
    if count == 0 then [] else Pages(s, size, count - 1) + Slice(s, (count - 1) * size, size)
  }

  /** The first `count` pages are exactly the first `count * size` rows. */
  lemma {:induction false} PagesArePrefix<T>(s: seq<T>, size: nat, count: nat)
    requires size > 0
    ensures Pages(s, size, count) == s[..Min(count * size, |s|)]
  {
    if count > 0 {
      PagesArePrefix(s, size, count - 1);
      var a := (count - 1) * size;
      assert a + size == count * size;
      if a < |s| {
        assert s[..Min(a, |s|)] + s[a..Min(a + size, |s|)] == s[..Min(a + size, |s|)];
      }
    }
  }

  /** Concatenating the pages at offsets 0, size, 2*size, ... up to the last
      page reproduces the whole sequence. */
  lemma AllPagesReassemble<T>(s: seq<T>, size: nat)
    requires size > 0
    ensures Pages(s, size, CeilDiv(|s|, size)) == s
  {
    PagesArePrefix(s, size, CeilDiv(|s|, size));
    CeilDivIsLeast(|s|, size);
  }
}

=== FILE: text.dfy ===
/** Character classes and string operations shared by the back end (Java)
    and the front end (TypeScript). Strings are sequences of Unicode scalar
    values; UTF-16 surrogate pairs are not modelled. */
module Text {

  // ---------------------------------------------------------------------------
  // Character classes
  // ---------------------------------------------------------------------------

  /** `\d` in a Java regular expression (ASCII digits only). */
  predicate IsDigit(c: char) { '0' <= c <= '9' }

  /** The regex class `가-힣`: the precomposed Hangul syllables U+AC00..U+D7A3. */
  predicate IsHangulSyllable(c: char) { '가' <= c <= '힣' }

  predicate IsAsciiLower(c: char) { 'a' <= c <= 'z' }

  predicate IsAsciiUpper(c: char) { 'A' <= c <= 'Z' }

  /** Characters removed by Java's `String.trim()`: every code point up to U+0020. */
  predicate IsJavaTrimmable(c: char) { c <= ' ' }

  /** ECMAScript WhiteSpace and LineTerminator code points, the set removed by
      `String.prototype.trim()`. */
  predicate IsJsWhitespace(c: char)
  {
    c == '\t' || c == '\n' || c == '\U{000B}' || c == '\U{000C}' || c == '\r'
    || c == ' ' || c == '\U{00A0}' || c == '\U{1680}'
    || ('\U{2000}' <= c <= '\U{200A}')
    || c == '\U{2028}' || c == '\U{2029}' || c == '\U{202F}' || c == '\U{205F}'
    || c == '\U{3000}' || c == '\U{FEFF}'
  }

  /** Java's `Character.isWhitespace`: the Unicode space, line and
      paragraph separators except the three no-break spaces, and the
      controls U+0009..U+000D and U+001C..U+001F. */
  predicate IsJavaWhitespace(c: char)
  {
    ('\t' <= c <= '\r') || ('\U{001C}' <= c <= ' ')
    || c == '\U{1680}' || ('\U{2000}' <= c <= '\U{2006}') || ('\U{2008}' <= c <= '\U{200A}')
    || c == '\U{2028}' || c == '\U{2029}' || c == '\U{205F}' || c == '\U{3000}'
  }

  /** Spring's `StringUtils.hasText`: some character is not whitespace. */
  predicate HasText(s: string)
  {
    exists i :: 0 <= i < |s| && !IsJavaWhitespace(s[i])
  }

  // ---------------------------------------------------------------------------
  // Case mapping (only ASCII letters have case among the characters that
  // reach these functions; Hangul, digits and '_' map to themselves)
  // ---------------------------------------------------------------------------

  function UpperChar(c: char): (r: char)
    ensures IsAsciiLower(c) ==> IsAsciiUpper(r)
    ensures !IsAsciiLower(c) ==> r == c
  {
    if IsAsciiLower(c) then (c as int - 'a' as int + 'A' as int) as char else c
  }

  function LowerChar(c: char): (r: char)
    ensures IsAsciiUpper(c) ==> IsAsciiLower(r)
    ensures !IsAsciiUpper(c) ==> r == c
  {
    if IsAsciiUpper(c) then (c as int - 'A' as int + 'a' as int) as char else c
  }

  /** `toUpperCase()` restricted to ASCII case mapping. */
  function Upper(s: string): (r: string)
    ensures |r| == |s|
    ensures forall i :: 0 <= i < |s| ==> r[i] == UpperChar(s[i])
  {
    seq(|s|, i requires 0 <= i < |s| => UpperChar(s[i]))
  }

  /** `toLowerCase()` restricted to ASCII case mapping. */
  function Lower(s: string): (r: string)
    ensures |r| == |s|
    ensures forall i :: 0 <= i < |s| ==> r[i] == LowerChar(s[i])
  {
    seq(|s|, i requires 0 <= i < |s| => LowerChar(s[i]))
  }

  /** A string with no lower-case ASCII letter is its own upper-case form. */
  lemma UpperFixesNonLower(s: string)
    requires forall i :: 0 <= i < |s| ==> !IsAsciiLower(s[i])
    ensures Upper(s) == s
  {
  }

  /** A string with no upper-case ASCII letter is its own lower-case form. */
  lemma LowerFixesNonUpper(s: string)
    requires forall i :: 0 <= i < |s| ==> !IsAsciiUpper(s[i])
    ensures Lower(s) == s
  {
  }

  // ---------------------------------------------------------------------------
  // Substrings
  // ---------------------------------------------------------------------------

  predicate StartsWith(s: string, prefix: string)
  {
    |prefix| <= |s| && s[..|prefix|] == prefix
  }

  /** `part` occurs in `s` starting at position `a`. */
  predicate SliceAt(s: string, part: string, a: int)
  {
    0 <= a <= |s| - |part| && s[a..a + |part|] == part
  }

  /** `s.includes(part)` / `s.contains(part)`: `part` occurs at some position. */
  predicate Contains(s: string, part: string)
  {
    exists i :: 0 <= i <= |s| - |part| && SliceAt(s, part, i)
  }

  /** A prefix occurs; an occurrence in the tail is an occurrence in the
      whole string. */
  lemma ContainsStep(s: string, part: string)
    ensures StartsWith(s, part) ==> Contains(s, part)
    ensures |s| > 0 && Contains(s[1..], part) ==> Contains(s, part)
  {
    if StartsWith(s, part) {
      assert SliceAt(s, part, 0);
    }
    if |s| > 0 && Contains(s[1..], part) {
      var i :| 0 <= i <= |s[1..]| - |part| && SliceAt(s[1..], part, i);
      assert s[1..][i..i + |part|] == s[i + 1..i + 1 + |part|];
      assert SliceAt(s, part, i + 1);
    }
  }

  /** An occurrence in either half is an occurrence in the concatenation. */
  lemma ContainsInConcat(a: string, b: string, part: string)
    ensures Contains(a, part) || Contains(b, part) ==> Contains(a + b, part)
  {
    var s := a + b;
    if Contains(a, part) {
      var i :| 0 <= i <= |a| - |part| && SliceAt(a, part, i);
      assert s[i..i + |part|] == a[i..i + |part|];
      assert SliceAt(s, part, i);
    } else if Contains(b, part) {
      var i :| 0 <= i <= |b| - |part| && SliceAt(b, part, i);
      assert s[|a| + i..|a| + i + |part|] == b[i..i + |part|];
      assert SliceAt(s, part, |a| + i);
    }
  }

  /** Every character of a part that occurs in `s` is a character of `s`. */
  lemma ContainedCharsOccur(s: string, part: string)
    ensures Contains(s, part) ==> forall k :: 0 <= k < |part| ==> part[k] in s
  {
    if Contains(s, part) {
      var i :| 0 <= i <= |s| - |part| && SliceAt(s, part, i);
      forall k | 0 <= k < |part| ensures part[k] in s {
        assert part[k] == s[i + k];
      }
    }
  }

  /** An occurrence of `part` in `a + sep + b`, for a one-character
      separator, lies wholly in `a` or wholly in `b` unless `part` itself
      contains the separator. */
  lemma ContainsAcross(a: string, sep: string, b: string, part: string)
    requires |sep| == 1
    ensures Contains(a + (sep + b), part) ==> Contains(a, part) || Contains(b, part) || sep[0] in part
  {
    var s := a + (sep + b);
    if Contains(s, part) {
      var i :| 0 <= i <= |s| - |part| && SliceAt(s, part, i);
      if i + |part| <= |a| {
        assert s[i..i + |part|] == a[i..i + |part|];
        assert SliceAt(a, part, i);
      } else if i > |a| {
        var j := i - |a| - 1;
        assert s[i..i + |part|] == b[j..j + |part|];
        assert SliceAt(b, part, j);
      } else {
        assert part[|a| - i] == s[|a|] == sep[0];
      }
    }
  }

  /** Position of the first occurrence of `c`, if any (`indexOf`). */
  function IndexOf(s: string, c: char): (r: int)
    ensures -1 <= r < |s|
    ensures r == -1 <==> c !in s
    ensures r >= 0 ==> s[r] == c && c !in s[..r]
  {
    if |s| == 0 then -1
    else if s[0] == c then 0
    else
      var k := IndexOf(s[1..], c);
      if k == -1 then -1
      else
        assert s[..k + 1] == [s[0]] + s[1..][..k];
        k + 1
  }

  /** The first occurrence is where `c` occurs with no earlier `c`. */
  lemma {:induction false} IndexOfFirst(s: string, c: char, k: nat)
    requires k < |s| && s[k] == c && c !in s[..k]
    ensures IndexOf(s, c) == k
  {
    if k > 0 {
      assert s[0] in s[..k];
      assert s[1..][..k - 1] == s[1..k];
      assert s[1..k] == s[..k][1..];
      IndexOfFirst(s[1..], c, k - 1);
    }
  }

  // ---------------------------------------------------------------------------
  // Literal replacement: Java's `replaceAll` with a pattern that contains no
  // regex metacharacter. Matches are found left to right and do not overlap;
  // scanning resumes after each replaced occurrence.
  // ---------------------------------------------------------------------------

  function ReplaceAll(s: string, pattern: string, replacement: string): (r: string)
    requires |pattern| > 0
    decreases |s|
  {
    if |s| == 0 then []
    else if StartsWith(s, pattern) then replacement + ReplaceAll(s[|pattern|..], pattern, replacement)
    else [s[0]] + ReplaceAll(s[1..], pattern, replacement)
  }

  /** A string that does not contain the pattern comes out unchanged. */
  lemma {:induction false} ReplaceAllAbsent(s: string, pattern: string, replacement: string)
    requires |pattern| > 0
    requires !Contains(s, pattern)
    ensures ReplaceAll(s, pattern, replacement) == s
    decreases |s|
  {
    if |s| > 0 {
      ContainsStep(s, pattern);
      ReplaceAllAbsent(s[1..], pattern, replacement);
      assert s == [s[0]] + s[1..];
    }
  }

  /** Every character of the output comes from the input or from the
      replacement text: a character class closed under both is preserved. */
  lemma {:induction false} ReplaceAllKeepsClass(s: string, pattern: string, replacement: string, ok: char -> bool)
    requires |pattern| > 0
    requires forall i :: 0 <= i < |s| ==> ok(s[i])
    requires forall i :: 0 <= i < |replacement| ==> ok(replacement[i])
    ensures forall i :: 0 <= i < |ReplaceAll(s, pattern, replacement)| ==> ok(ReplaceAll(s, pattern, replacement)[i])
    decreases |s|
  {
    if |s| > 0 {
      if StartsWith(s, pattern) {
        ReplaceAllKeepsClass(s[|pattern|..], pattern, replacement, ok);
      } else {
        ReplaceAllKeepsClass(s[1..], pattern, replacement, ok);
      }
    }
  }

  /** Replacing a pattern never lets the scan skip characters before the
      pattern's first character shows up. */
  lemma {:induction false} ReplaceAllSkipsPrefix(d: string, t: string, pattern: string, replacement: string)
    requires |pattern| > 0 && pattern[0] !in d
    ensures ReplaceAll(d + t, pattern, replacement) == d + ReplaceAll(t, pattern, replacement)
    decreases |d|
  {
    if |d| > 0 {
      if |pattern| <= |d + t| {
        assert (d + t)[..|pattern|][0] == d[0] != pattern[0];
      }
      assert !StartsWith(d + t, pattern);
      assert (d + t)[1..] == d[1..] + t;
      assert pattern[0] !in d[1..];
      ReplaceAllSkipsPrefix(d[1..], t, pattern, replacement);
      var rest := ReplaceAll(t, pattern, replacement);
      assert ReplaceAll(d + t, pattern, replacement) == [d[0]] + (d[1..] + rest);
      assert [d[0]] + (d[1..] + rest) == ([d[0]] + d[1..]) + rest;
      assert d == [d[0]] + d[1..];
    } else {
      assert d + t == t;
    }
  }

  /** Some character of `s` belongs to the class `cls`. */
  predicate HasCharIn(s: string, cls: char -> bool)
  {
    exists i :: 0 <= i < |s| && cls(s[i])
  }

  lemma HasCharInConcat(a: string, b: string, cls: char -> bool)
    ensures HasCharIn(a + b, cls) <==> HasCharIn(a, cls) || HasCharIn(b, cls)
  {
    var s := a + b;
    if HasCharIn(s, cls) {
      var i :| 0 <= i < |s| && cls(s[i]);
      if i >= |a| {
        assert s[i] == b[i - |a|];
      }
    }
    if HasCharIn(a, cls) {
      var j :| 0 <= j < |a| && cls(a[j]);
      assert s[j] == a[j];
    }
    if HasCharIn(b, cls) {
      var j :| 0 <= j < |b| && cls(b[j]);
      assert s[|a| + j] == b[j];
    }
  }

  /** When neither the pattern nor the replacement has a character of the
      class, replacing keeps the question "is there such a character?"
      unchanged. */
  lemma {:induction false} ReplaceAllKeepsPresence(s: string, pattern: string, replacement: string, cls: char -> bool)
    requires |pattern| > 0
    requires !HasCharIn(pattern, cls) && !HasCharIn(replacement, cls)
    ensures HasCharIn(ReplaceAll(s, pattern, replacement), cls) <==> HasCharIn(s, cls)
    decreases |s|
  {
    if |s| > 0 {
      if StartsWith(s, pattern) {
        var rest := s[|pattern|..];
        assert s == pattern + rest;
        HasCharInConcat(pattern, rest, cls);
        HasCharInConcat(replacement, ReplaceAll(rest, pattern, replacement), cls);
        ReplaceAllKeepsPresence(rest, pattern, replacement, cls);
      } else {
        assert s == [s[0]] + s[1..];
        HasCharInConcat([s[0]], s[1..], cls);
        HasCharInConcat([s[0]], ReplaceAll(s[1..], pattern, replacement), cls);
        ReplaceAllKeepsPresence(s[1..], pattern, replacement, cls);
      }
    }
  }

  /** `s.replaceAll("[^...]", "")`: keep only the characters in a class. */
  function KeepOnly(s: string, keep: char -> bool): (r: string)
    ensures |r| <= |s|
    ensures forall i :: 0 <= i < |r| ==> keep(r[i])
    ensures forall c :: c in r <==> c in s && keep(c)
    ensures (forall i :: 0 <= i < |s| ==> keep(s[i])) ==> r == s
  {
    if |s| == 0 then []
    else if keep(s[0]) then [s[0]] + KeepOnly(s[1..], keep)
    else KeepOnly(s[1..], keep)
  }

  // ---------------------------------------------------------------------------
  // Trimming, parameterised by the whitespace class of the language
  // ---------------------------------------------------------------------------

  /** Drop leading characters of the class `ws`. */
  function TrimStart(s: string, ws: char -> bool): (r: string)
    ensures |r| <= |s| && r == s[|s| - |r|..]
    ensures forall i :: 0 <= i < |s| - |r| ==> ws(s[i])
    ensures |r| > 0 ==> !ws(r[0])
  {
    if |s| == 0 || !ws(s[0]) then s else TrimStart(s[1..], ws)
  }

  /** Drop trailing characters of the class `ws`. */
  function TrimEnd(s: string, ws: char -> bool): (r: string)
    ensures |r| <= |s| && r == s[..|r|]
    ensures forall i :: |r| <= i < |s| ==> ws(s[i])
    ensures |r| > 0 ==> !ws(r[|r| - 1])
  {
    if |s| == 0 || !ws(s[|s| - 1]) then s else TrimEnd(s[..|s| - 1], ws)
  }

  /** `trim()`: drop leading and trailing characters of the class `ws`. The
      result is a contiguous piece of the input that neither starts nor ends
      with such a character, and it is empty exactly when every character of
      the input belongs to the class. */
  function Trim(s: string, ws: char -> bool): (r: string)
    ensures |r| <= |s|
    ensures exists a :: TrimmedAt(s, r, a, ws)
    ensures |r| > 0 ==> !ws(r[0]) && !ws(r[|r| - 1])
    ensures r == [] <==> forall i :: 0 <= i < |s| ==> ws(s[i])
  {
    var t := TrimStart(s, ws);
    var r := TrimEnd(t, ws);
    TrimmedAtBothEnds(s, t, r, ws);
    r
  }

  /** Trimming the front and then the back of the rest leaves a piece of
      `s` with only class characters around it. */
  lemma TrimmedAtBothEnds(s: string, t: string, r: string, ws: char -> bool)
    requires |t| <= |s| && t == s[|s| - |t|..]
    requires forall i :: 0 <= i < |s| - |t| ==> ws(s[i])
    requires |r| <= |t| && r == t[..|r|]
    requires forall i :: |r| <= i < |t| ==> ws(t[i])
    ensures TrimmedAt(s, r, |s| - |t|, ws)
  {
    var a := |s| - |t|;
    assert s[a..a + |r|] == r;
    forall i | a + |r| <= i < |s| ensures ws(s[i]) {
      assert s[i] == t[i - a];
    }
  }

  /** `r` sits at position `a` of `s`, and everything around it is in the
      class `ws`. */
  predicate TrimmedAt(s: string, r: string, a: int, ws: char -> bool)
  {
    SliceAt(s, r, a)
    && (forall i :: 0 <= i < a ==> ws(s[i]))
    && (forall i :: a + |r| <= i < |s| ==> ws(s[i]))
  }

  /** Trimming adds no character. */
  lemma TrimKeepsAbsent(s: string, ws: char -> bool, c: char)
    requires c !in s
    ensures c !in Trim(s, ws)
  {
    var r := Trim(s, ws);
    var a :| TrimmedAt(s, r, a, ws);
    forall i | 0 <= i < |r| ensures r[i] != c {
      assert r[i] == s[a + i];
    }
  }

  /** Trimming twice is trimming once. */
  lemma TrimIdempotent(s: string, ws: char -> bool)
    ensures Trim(Trim(s, ws), ws) == Trim(s, ws)
  {
    var t := Trim(s, ws);
    assert TrimStart(t, ws) == t;
    assert TrimEnd(t, ws) == t;
  }

  /** A string that neither starts nor ends with a character of the class
      is left as it is. */
  lemma TrimKeepsBareEnds(s: string, ws: char -> bool)
    requires |s| > 0 && !ws(s[0]) && !ws(s[|s| - 1])
    ensures Trim(s, ws) == s
  {
  }

  /** JavaScript `s.trim()`. */
  function JsTrim(s: string): string
  {
    Trim(s, IsJsWhitespace)
  }

  /** Bean Validation `@NotBlank` on a String: some character is not one
      that `trim()` removes. */
  predicate JavaNotBlank(s: string)
  {
    exists i :: 0 <= i < |s| && !IsJavaTrimmable(s[i])
  }

  /** `@NotBlank` holds exactly when `trim()` leaves something, which is how
      Hibernate Validator checks it. */
  lemma JavaNotBlankIsTrimmedNonEmpty(s: string)
    ensures JavaNotBlank(s) <==> |Trim(s, IsJavaTrimmable)| > 0
  {
  }
}

=== FILE: unit_code.dfy ===
/** `generateUnitCode` of the seeding code: a unit name is reduced to its
    digits and Hangul syllables, "제" is dropped, an ordered list of literal
    substitutions turns unit kinds into English words, and a code without a
    digit falls back to the leading Hangul of the name. The result is
    upper-cased. The manager account of a unit is derived from the code. */
module UnitCode {
  import opened Seqs
  import opened Text

  /** One `replaceAll(pattern, replacement)` step; every pattern here is a
      plain Hangul word, so the regular expression matches it literally. */
  datatype Rule = Rule(pattern: string, replacement: string)

  /** The substitutions in the order the source applies them. "비행단" comes
      first, so the longer patterns that end in "비행단" can no longer
      match once it has run. */
  const RULES_AS_WRITTEN: seq<Rule> := [
    Rule("비행단", "WING"),
    Rule("훈련비행단", "TRAIN"),
    Rule("공중기동비행단", "MOBILE"),
    Rule("특수임무비행단", "SPECIAL"),
    Rule("사관학교", "ACADEMY"),
    Rule("교육사령부", "EDU_CMD"),
    Rule("미사일방어사령부", "MISSILE_CMD"),
    Rule("방공관제사령부", "AD_CMD"),
    Rule("공작사근무지원단", "SUPPORT"),
    Rule("전투비행전대", "SQUADRON"),
    Rule("항공통신전대", "COMM_SQUADRON"),
    Rule("항공안전단", "SAFETY")
  ]

  /** The same substitutions with the three longer "...비행단" patterns moved
      before "비행단", so that "제3훈련비행단" gives "3TRAIN" as the comment
      in the source says. */
  const RULES: seq<Rule> := [
    Rule("훈련비행단", "TRAIN"),
    Rule("공중기동비행단", "MOBILE"),
    Rule("특수임무비행단", "SPECIAL"),
    Rule("비행단", "WING"),
    Rule("사관학교", "ACADEMY"),
    Rule("교육사령부", "EDU_CMD"),
    Rule("미사일방어사령부", "MISSILE_CMD"),
    Rule("방공관제사령부", "AD_CMD"),
    Rule("공작사근무지원단", "SUPPORT"),
    Rule("전투비행전대", "SQUADRON"),
    Rule("항공통신전대", "COMM_SQUADRON"),
    Rule("항공안전단", "SAFETY")
  ]

  /** Characters a code may contain: what survives the first filter, and
      what the replacements introduce. */
  predicate IsCodeChar(c: char)
  {
    IsDigit(c) || IsHangulSyllable(c) || IsAsciiUpper(c) || c == '_'
  }

  /** `replaceAll` is only used with non-empty patterns. */
  predicate WellFormedRules(rules: seq<Rule>)
  {
    forall k :: 0 <= k < |rules| ==> |rules[k].pattern| > 0
  }

  /** The chain of `replaceAll` calls, first rule first. */
  function ApplyRules(s: string, rules: seq<Rule>): string
    requires WellFormedRules(rules)
    decreases |rules|
  {
    if |rules| == 0 then s
    else ApplyRules(ReplaceAll(s, rules[0].pattern, rules[0].replacement), rules[1..])
  }

  predicate KeepsDigitOrHangul(c: char) { IsDigit(c) || IsHangulSyllable(c) }

  /** `replaceAll("[^0-9가-힣]", "").replaceAll("제", "")`. */
  function Normalize(name: string): (r: string)
    ensures forall i :: 0 <= i < |r| ==> KeepsDigitOrHangul(r[i])
  {
    var kept := KeepOnly(name, KeepsDigitOrHangul);
    ReplaceAllKeepsClass(kept, "제", "", KeepsDigitOrHangul);
    ReplaceAll(kept, "제", "")
  }

  /** `name.substring(0, min(5, length)).replaceAll("[^가-힣]", "")`. */
  function Fallback(name: string): (r: string)
    ensures |r| <= 5
    ensures forall i :: 0 <= i < |r| ==> IsHangulSyllable(r[i])
  {
    KeepOnly(name[..Min(5, |name|)], IsHangulSyllable)
  }

  /** `code.isEmpty() || !code.matches(".*\\d.*")`, then `toUpperCase()`.
      The codes reaching this point contain no line terminator, so `.`
      matches every character and the test is "has a digit". */
  function Finish(name: string, code: string): string
  {
    Upper(if |code| == 0 || !HasCharIn(code, IsDigit) then Fallback(name) else code)
  }

  /** `generateUnitCode(unitName)` exactly as written: the definition the
      seeding model uses. */
  function GenerateAsWritten(name: string): string
  {
    Finish(name, ApplyRules(Normalize(name), RULES_AS_WRITTEN))
  }

  /** `generateUnitCode(unitName)` with the three longer "...비행단" rules
      moved first, as the source's comment intends. */
  function Generate(name: string): string
  {
    Finish(name, ApplyRules(Normalize(name), RULES))
  }

  /** The code the seeding saves uses only digits, Hangul syllables,
      upper-case letters and underscores, so upper-casing it again changes
      nothing; it has a digit exactly when the unit name has one, and a name
      without a digit gets the fallback code made of its leading Hangul. */
  lemma GenerateAsWrittenProperties(name: string)
    ensures var code := GenerateAsWritten(name);
      (forall i :: 0 <= i < |code| ==> IsCodeChar(code[i]))
      && Upper(code) == code
      && (HasCharIn(code, IsDigit) <==> HasCharIn(name, IsDigit))
      && (!HasCharIn(name, IsDigit) ==> code == Fallback(name))
  {
    RulesAsWrittenOk();
    CodeProperties(name, RULES_AS_WRITTEN);
  }

  /** The reordered rules keep every one of those properties. */
  lemma GenerateProperties(name: string)
    ensures var code := Generate(name);
      (forall i :: 0 <= i < |code| ==> IsCodeChar(code[i]))
      && Upper(code) == code
      && (HasCharIn(code, IsDigit) <==> HasCharIn(name, IsDigit))
      && (!HasCharIn(name, IsDigit) ==> code == Fallback(name))
  {
    RulesOk();
    CodeProperties(name, RULES);
  }

  // ---------------------------------------------------------------------------
  // Facts about the two rule lists
  // ---------------------------------------------------------------------------

  predicate IsUpperOrUnderscore(c: char) { IsAsciiUpper(c) || c == '_' }

  /** What the proofs need of a rule: a non-empty pattern that starts with
      a non-digit, no digit on either side, and a replacement made of
      upper-case letters and underscores. */
  predicate RuleOk(r: Rule)
  {
    |r.pattern| > 0 && !IsDigit(r.pattern[0])
    && !HasCharIn(r.pattern, IsDigit) && !HasCharIn(r.replacement, IsDigit)
    && forall j :: 0 <= j < |r.replacement| ==> IsUpperOrUnderscore(r.replacement[j])
  }

  predicate AllRulesOk(rules: seq<Rule>)
  {
    forall k :: 0 <= k < |rules| ==> RuleOk(rules[k])
  }

  lemma RulesOk()
    ensures AllRulesOk(RULES)
  {
    TrainingRuleOk();
    MobilityRuleOk();
    SpecialRuleOk();
    WingRuleOk();
    AcademyRuleOk();
    EducationRuleOk();
    MissileRuleOk();
    AirDefenseRuleOk();
    SupportRuleOk();
    SquadronRuleOk();
    CommunicationRuleOk();
    SafetyRuleOk();
  }

  lemma RulesAsWrittenOk()
    ensures AllRulesOk(RULES_AS_WRITTEN)
  {
    TrainingRuleOk();
    MobilityRuleOk();
    SpecialRuleOk();
    WingRuleOk();
    AcademyRuleOk();
    EducationRuleOk();
    MissileRuleOk();
    AirDefenseRuleOk();
    SupportRuleOk();
    SquadronRuleOk();
    CommunicationRuleOk();
    SafetyRuleOk();
  }

  lemma TrainingRuleOk() ensures RuleOk(Rule("훈련비행단", "TRAIN")) {}

  lemma MobilityRuleOk() ensures RuleOk(Rule("공중기동비행단", "MOBILE")) {}

  lemma SpecialRuleOk() ensures RuleOk(Rule("특수임무비행단", "SPECIAL")) {}

  lemma WingRuleOk() ensures RuleOk(Rule("비행단", "WING")) {}

  lemma AcademyRuleOk() ensures RuleOk(Rule("사관학교", "ACADEMY")) {}

  lemma EducationRuleOk() ensures RuleOk(Rule("교육사령부", "EDU_CMD")) {}

  lemma MissileRuleOk() ensures RuleOk(Rule("미사일방어사령부", "MISSILE_CMD")) {}

  lemma AirDefenseRuleOk() ensures RuleOk(Rule("방공관제사령부", "AD_CMD")) {}

  lemma SupportRuleOk() ensures RuleOk(Rule("공작사근무지원단", "SUPPORT")) {}

  lemma SquadronRuleOk() ensures RuleOk(Rule("전투비행전대", "SQUADRON")) {}

  lemma CommunicationRuleOk() ensures RuleOk(Rule("항공통신전대", "COMM_SQUADRON")) {}

  lemma SafetyRuleOk() ensures RuleOk(Rule("항공안전단", "SAFETY")) {}


  // ---------------------------------------------------------------------------
  // Properties of the code
  // ---------------------------------------------------------------------------

  /** No rule adds or removes the last digit: the substituted string has a
      digit exactly when its input has one. */
  lemma {:induction false} ApplyRulesKeepsDigits(s: string, rules: seq<Rule>)
    requires AllRulesOk(rules)
    ensures HasCharIn(ApplyRules(s, rules), IsDigit) <==> HasCharIn(s, IsDigit)
    decreases |rules|
  {
    if |rules| > 0 {
      assert RuleOk(rules[0]);
      ReplaceAllKeepsPresence(s, rules[0].pattern, rules[0].replacement, IsDigit);
      assert AllRulesOk(rules[1..]) by {
        forall k | 0 <= k < |rules[1..]| ensures RuleOk(rules[1..][k]) {
          assert rules[1..][k] == rules[k + 1];
        }
      }
      ApplyRulesKeepsDigits(ReplaceAll(s, rules[0].pattern, rules[0].replacement), rules[1..]);
    }
  }

  /** The substitutions keep a string inside the code alphabet. */
  lemma {:induction false} ApplyRulesKeepsAlphabet(s: string, rules: seq<Rule>)
    requires AllRulesOk(rules)
    requires forall i :: 0 <= i < |s| ==> IsCodeChar(s[i])
    ensures forall i :: 0 <= i < |ApplyRules(s, rules)| ==> IsCodeChar(ApplyRules(s, rules)[i])
    decreases |rules|
  {
    if |rules| > 0 {
      assert RuleOk(rules[0]);
      ReplaceAllKeepsClass(s, rules[0].pattern, rules[0].replacement, IsCodeChar);
      assert AllRulesOk(rules[1..]) by {
        forall k | 0 <= k < |rules[1..]| ensures RuleOk(rules[1..][k]) {
          assert rules[1..][k] == rules[k + 1];
        }
      }
      ApplyRulesKeepsAlphabet(ReplaceAll(s, rules[0].pattern, rules[0].replacement), rules[1..]);
    }
  }

  /** The normalized name has a digit exactly when the name has one. */
  lemma NormalizeKeepsDigits(name: string)
    ensures HasCharIn(Normalize(name), IsDigit) <==> HasCharIn(name, IsDigit)
  {
    var kept := KeepOnly(name, KeepsDigitOrHangul);
    if HasCharIn(name, IsDigit) {
      var i :| 0 <= i < |name| && IsDigit(name[i]);
      assert name[i] in kept;
      var j :| 0 <= j < |kept| && kept[j] == name[i];
    }
    if HasCharIn(kept, IsDigit) {
      var j :| 0 <= j < |kept| && IsDigit(kept[j]);
      assert kept[j] in name;
    }
    assert !HasCharIn("제", IsDigit);
    ReplaceAllKeepsPresence(kept, "제", "", IsDigit);
  }

  /** Upper-casing keeps the code alphabet and every digit. */
  lemma UpperKeepsCode(s: string)
    ensures forall i :: 0 <= i < |s| && IsCodeChar(s[i]) ==> IsCodeChar(Upper(s)[i])
    ensures HasCharIn(Upper(s), IsDigit) <==> HasCharIn(s, IsDigit)
  {
    if HasCharIn(s, IsDigit) {
      var i :| 0 <= i < |s| && IsDigit(s[i]);
      assert IsDigit(Upper(s)[i]);
    }
    if HasCharIn(Upper(s), IsDigit) {
      var i :| 0 <= i < |s| && IsDigit(Upper(s)[i]);
      assert IsDigit(s[i]);
    }
  }

  /** `Finish` on a code in the alphabet: the result stays in the alphabet,
      is its own upper-case form, keeps the code's digit when it has one
      and is the fallback otherwise. */
  lemma FinishProperties(name: string, code: string)
    requires forall i :: 0 <= i < |code| ==> IsCodeChar(code[i])
    ensures var r := Finish(name, code);
      (forall i :: 0 <= i < |r| ==> IsCodeChar(r[i]))
      && Upper(r) == r
      && (HasCharIn(r, IsDigit) <==> HasCharIn(code, IsDigit))
      && (!HasCharIn(code, IsDigit) ==> r == Fallback(name))
  {
    var fb := Fallback(name);
    UpperFixesNonLower(fb);
    assert !HasCharIn(fb, IsDigit);
    UpperKeepsCode(code);
    var r := Finish(name, code);
    UpperFixesNonLower(r);
  }

  /** The code built with any list of well-behaved rules. */
  lemma CodeProperties(name: string, rules: seq<Rule>)
    requires AllRulesOk(rules)
    ensures var code := Finish(name, ApplyRules(Normalize(name), rules));
      (forall i :: 0 <= i < |code| ==> IsCodeChar(code[i]))
      && Upper(code) == code
      && (HasCharIn(code, IsDigit) <==> HasCharIn(name, IsDigit))
      && (!HasCharIn(name, IsDigit) ==> code == Fallback(name))
  {
    var n := Normalize(name);
    NormalizeKeepsDigits(name);
    ApplyRulesKeepsDigits(n, rules);
    ApplyRulesKeepsAlphabet(n, rules);
    FinishProperties(name, ApplyRules(n, rules));
  }

  // ---------------------------------------------------------------------------
  // The rule order: "제<n>훈련비행단" and its two siblings
  // ---------------------------------------------------------------------------

  predicate IsDigits(d: string)
  {
    forall i :: 0 <= i < |d| ==> IsDigit(d[i])
  }

  /** Patterns start with a non-digit, so a leading run of digits is never
      touched by the substitutions. */
  lemma {:induction false} ApplyRulesSkipsDigits(d: string, t: string, rules: seq<Rule>)
    requires AllRulesOk(rules) && IsDigits(d)
    ensures ApplyRules(d + t, rules) == d + ApplyRules(t, rules)
    decreases |rules|
  {
    if |rules| > 0 {
      var r := rules[0];
      assert RuleOk(r);
      ReplaceAllSkipsPrefix(d, t, r.pattern, r.replacement);
      assert AllRulesOk(rules[1..]) by {
        forall k | 0 <= k < |rules[1..]| ensures RuleOk(rules[1..][k]) {
          assert rules[1..][k] == rules[k + 1];
        }
      }
      ApplyRulesSkipsDigits(d, ReplaceAll(t, r.pattern, r.replacement), rules[1..]);
    }
  }

  /** `s` lacks the first or the last character of `p`, so `p` does not
      occur in `s`. */
  predicate Misses(s: string, p: string)
  {
    |p| > 0 && (p[0] !in s || p[|p| - 1] !in s)
  }

  /** Rules whose patterns all miss `s` leave it unchanged. */
  lemma {:induction false} ApplyRulesAbsent(s: string, rules: seq<Rule>)
    requires WellFormedRules(rules)
    requires forall k :: 0 <= k < |rules| ==> Misses(s, rules[k].pattern)
    ensures ApplyRules(s, rules) == s
    decreases |rules|
  {
    if |rules| > 0 {
      var p := rules[0].pattern;
      ContainedCharsOccur(s, p);
      ReplaceAllAbsent(s, p, rules[0].replacement);
      ApplyRulesAbsent(s, rules[1..]);
    }
  }

  /** A pattern replaced in a string that is exactly the pattern. */
  lemma ReplaceAllWhole(p: string, replacement: string)
    requires |p| > 0
    ensures ReplaceAll(p, p, replacement) == replacement
  {
    assert p[|p|..] == [];
  }

  /** The rule at position `k` matches the whole of `s`: the rules before it
      miss `s`, and the rules after it miss its replacement, so the chain
      gives that replacement. */
  lemma {:induction false} ApplyRulesHit(s: string, rules: seq<Rule>, k: nat)
    requires WellFormedRules(rules) && k < |rules| && rules[k].pattern == s
    requires forall j :: 0 <= j < k ==> Misses(s, rules[j].pattern)
    requires forall j :: k < j < |rules| ==> Misses(rules[k].replacement, rules[j].pattern)
    ensures ApplyRules(s, rules) == rules[k].replacement
    decreases k
  {
    var p := rules[0].pattern;
    if k == 0 {
      ReplaceAllWhole(s, rules[0].replacement);
      ApplyRulesAbsent(rules[0].replacement, rules[1..]);
    } else {
      ContainedCharsOccur(s, p);
      ReplaceAllAbsent(s, p, rules[0].replacement);
      ApplyRulesHit(s, rules[1..], k - 1);
    }
  }

  /** "제", a number and a Hangul unit kind normalize to the number and the
      kind. */
  lemma {:induction false} NormalizeNumbered(d: string, kind: string)
    requires IsDigits(d)
    requires forall i :: 0 <= i < |kind| ==> IsHangulSyllable(kind[i])
    requires '제' !in kind
    ensures Normalize("제" + d + kind) == d + kind
  {
    var name := "제" + d + kind;
    assert KeepOnly(name, KeepsDigitOrHangul) == name;
    assert name[1..] == d + kind;
    ReplaceAllSkipsPrefix(d, kind, "제", "");
    ContainedCharsOccur(kind, "제");
    ReplaceAllAbsent(kind, "제", "");
  }

  /** With a non-empty number, the code of "제<number><kind>" is the number
      followed by the substituted kind. */
  lemma {:induction false} NumberedCode(d: string, kind: string, rules: seq<Rule>)
    requires AllRulesOk(rules) && IsDigits(d) && |d| > 0
    requires forall i :: 0 <= i < |kind| ==> IsHangulSyllable(kind[i])
    requires '제' !in kind
    ensures Finish("제" + d + kind, ApplyRules(Normalize("제" + d + kind), rules)) == d + ApplyRules(kind, rules)
  {
    NormalizeNumbered(d, kind);
    ApplyRulesSkipsDigits(d, kind, rules);
    ApplyRulesKeepsAlphabet(kind, rules);
    var code := d + ApplyRules(kind, rules);
    assert IsDigit(code[0]);
    UpperFixesNonLower(code);
  }


  /** "비행단" at the end of a kind that does not contain "비" becomes
      "WING". */
  lemma WingReplaced(rest: string)
    requires '비' !in rest
    ensures ReplaceAll(rest + "비행단", "비행단", "WING") == rest + "WING"
  {
    ReplaceAllSkipsPrefix(rest, "비행단", "비행단", "WING");
    ReplaceAllWhole("비행단", "WING");
  }

  /** As written, the first rule already consumes "비행단", and no later
      rule matches what is left. */
  lemma {:induction false} KindAsWritten(rest: string, kind: string, shown: string)
    requires '비' !in rest && kind == rest + "비행단" && shown == rest + "WING"
    requires forall k :: 1 <= k < |RULES_AS_WRITTEN| ==> Misses(shown, RULES_AS_WRITTEN[k].pattern)
    ensures ApplyRules(kind, RULES_AS_WRITTEN) == shown
  {
    WingReplaced(rest);
    ApplyRulesAbsent(shown, RULES_AS_WRITTEN[1..]);
  }

  lemma TrainingAsWritten()
    ensures ApplyRules("훈련비행단", RULES_AS_WRITTEN) == "훈련WING"
  {
    KindAsWritten("훈련", "훈련비행단", "훈련WING");
  }

  lemma MobilityAsWritten()
    ensures ApplyRules("공중기동비행단", RULES_AS_WRITTEN) == "공중기동WING"
  {
    KindAsWritten("공중기동", "공중기동비행단", "공중기동WING");
  }

  lemma SpecialAsWritten()
    ensures ApplyRules("특수임무비행단", RULES_AS_WRITTEN) == "특수임무WING"
  {
    KindAsWritten("특수임무", "특수임무비행단", "특수임무WING");
  }

  lemma AsWrittenIs(name: string, code: string)
    requires Finish(name, ApplyRules(Normalize(name), RULES_AS_WRITTEN)) == code
    ensures GenerateAsWritten(name) == code
  {
  }

  lemma GenerateIs(name: string, code: string)
    requires Finish(name, ApplyRules(Normalize(name), RULES)) == code
    ensures Generate(name) == code
  {
  }

  lemma {:induction false} NumberedAsWritten(d: string, kind: string)
    requires IsDigits(d) && |d| > 0
    requires forall i :: 0 <= i < |kind| ==> IsHangulSyllable(kind[i])
    requires '제' !in kind
    ensures GenerateAsWritten("제" + d + kind) == d + ApplyRules(kind, RULES_AS_WRITTEN)
  {
    RulesAsWrittenOk();
    NumberedCode(d, kind, RULES_AS_WRITTEN);
    AsWrittenIs("제" + d + kind, d + ApplyRules(kind, RULES_AS_WRITTEN));
  }

  lemma {:induction false} NumberedCorrected(d: string, kind: string)
    requires IsDigits(d) && |d| > 0
    requires forall i :: 0 <= i < |kind| ==> IsHangulSyllable(kind[i])
    requires '제' !in kind
    ensures Generate("제" + d + kind) == d + ApplyRules(kind, RULES)
  {
    RulesOk();
    NumberedCode(d, kind, RULES);
    GenerateIs("제" + d + kind, d + ApplyRules(kind, RULES));
  }

  /** With the corrected order each kind meets its own rule first. */
  lemma TrainingCorrected()
    ensures ApplyRules("훈련비행단", RULES) == "TRAIN"
  {
    ApplyRulesHit(RULES[0].pattern, RULES, 0);
  }

  lemma MobilityCorrected()
    ensures ApplyRules("공중기동비행단", RULES) == "MOBILE"
  {
    ApplyRulesHit(RULES[1].pattern, RULES, 1);
  }

  lemma SpecialCorrected()
    ensures ApplyRules("특수임무비행단", RULES) == "SPECIAL"
  {
    ApplyRulesHit(RULES[2].pattern, RULES, 2);
  }

  /** As written, "제<n>훈련비행단" is coded "<n>훈련WING": the general
      "비행단" rule runs first and the "훈련비행단" rule never matches. With
      the specific rules first it is "<n>TRAIN", the code the source's
      comment gives for "제3훈련비행단". */
  lemma {:induction false} TrainingWingCode(d: string)
    requires IsDigits(d) && |d| > 0
    ensures GenerateAsWritten("제" + d + "훈련비행단") == d + "훈련WING"
    ensures Generate("제" + d + "훈련비행단") == d + "TRAIN"
  {
    NumberedAsWritten(d, "훈련비행단");
    NumberedCorrected(d, "훈련비행단");
    TrainingAsWritten();
    TrainingCorrected();
  }

  /** The same for "제<n>공중기동비행단": "<n>공중기동WING" as written,
      "<n>MOBILE" corrected. */
  lemma {:induction false} MobilityWingCode(d: string)
    requires IsDigits(d) && |d| > 0
    ensures GenerateAsWritten("제" + d + "공중기동비행단") == d + "공중기동WING"
    ensures Generate("제" + d + "공중기동비행단") == d + "MOBILE"
  {
    NumberedAsWritten(d, "공중기동비행단");
    NumberedCorrected(d, "공중기동비행단");
    MobilityAsWritten();
    MobilityCorrected();
  }

  /** The same for "제<n>특수임무비행단": "<n>특수임무WING" as written,
      "<n>SPECIAL" corrected. */
  lemma {:induction false} SpecialWingCode(d: string)
    requires IsDigits(d) && |d| > 0
    ensures GenerateAsWritten("제" + d + "특수임무비행단") == d + "특수임무WING"
    ensures Generate("제" + d + "특수임무비행단") == d + "SPECIAL"
  {
    NumberedAsWritten(d, "특수임무비행단");
    NumberedCorrected(d, "특수임무비행단");
    SpecialAsWritten();
    SpecialCorrected();
  }

  /** The concrete case: "제3훈련비행단". */
  lemma ThirdTrainingWing()
    ensures GenerateAsWritten("제" + "3" + "훈련비행단") == "3" + "훈련WING"
    ensures Generate("제" + "3" + "훈련비행단") == "3" + "TRAIN"
  {
    TrainingWingCode("3");
  }
}

=== FILE: upload_form.dfy ===
/** The document upload dialog (`UploadDocumentModal`): the size limit on
    the chosen file, the checks run before a request is sent, the trimmed
    request, and the reset on close. */
module UploadForm {
  import opened Results
  import opened Text

  const FILE_TOO_LARGE := "파일 크기는 10MB를 초과할 수 없습니다."
  const TITLE_REQUIRED := "제목을 입력해주세요."
  const FILE_REQUIRED := "파일을 선택해주세요."
  const TITLE_TOO_LONG := "제목은 200자를 초과할 수 없습니다."
  const DESCRIPTION_TOO_LONG := "설명은 1000자를 초과할 수 없습니다."
  const SUBMIT_FAILED := "문서 업로드 중 오류가 발생했습니다."

  /** 10 MB, the largest file the dialog keeps. */
  const MAX_FILE_SIZE := 10 * 1024 * 1024
  const MAX_TITLE := 200
  const MAX_DESCRIPTION := 1000

  /** A browser `File`: its name and its size in bytes. */
  datatype ChosenFile = ChosenFile(name: string, size: nat)

  /** The dialog's state: the inputs as typed, the kept file and the shown
      error. */
  datatype Form = Form(title: string, description: string, file: Option<ChosenFile>, error: Option<string>)

  const EMPTY := Form([], [], None, None)

  /** The request `onSubmit` receives. */
  datatype UploadRequest = UploadRequest(title: string, description: Option<string>, file: ChosenFile)

  /** The kept file, if any, is within the limit. */
  predicate FileWithinLimit(f: Form)
  {
    f.file.Some? ==> f.file.value.size <= MAX_FILE_SIZE
  }

  /** `handleFileSelect`: no file chosen leaves the form as it is; a file
      over the limit is refused with a message and the previous choice
      stays; otherwise the file is kept and the error cleared. */
  function SelectFile(f: Form, chosen: Option<ChosenFile>): (r: Form)
    ensures r.title == f.title && r.description == f.description
    ensures chosen.None? ==> r == f
    ensures chosen.Some? && chosen.value.size > MAX_FILE_SIZE ==> r.file == f.file && r.error == Some(FILE_TOO_LARGE)
    ensures chosen.Some? && chosen.value.size <= MAX_FILE_SIZE ==> r.file == chosen && r.error.None?
    ensures FileWithinLimit(f) ==> FileWithinLimit(r)
  {
    match chosen
    case None => f
    case Some(file) =>
      if file.size > MAX_FILE_SIZE then f.(error := Some(FILE_TOO_LARGE))
      else f.(file := chosen, error := None)
  }

  predicate Blank(s: string)
  {
    JsTrim(s) == []
  }

  /** The checks of `handleSubmit`, in order. `description && ...` tests
      the length only of a non-empty description, and an empty one has
      length 0 anyway. */
  function Check(f: Form): (r: Option<string>)
    ensures r.None? <==> !Blank(f.title) && f.file.Some? && |f.title| <= MAX_TITLE && |f.description| <= MAX_DESCRIPTION
    ensures r == Some(TITLE_REQUIRED) <==> Blank(f.title)
    ensures r == Some(FILE_REQUIRED) <==> !Blank(f.title) && f.file.None?
    ensures r == Some(TITLE_TOO_LONG) <==> !Blank(f.title) && f.file.Some? && |f.title| > MAX_TITLE
    ensures r == Some(DESCRIPTION_TOO_LONG) <==>
      !Blank(f.title) && f.file.Some? && |f.title| <= MAX_TITLE && |f.description| > MAX_DESCRIPTION
  {
    if Blank(f.title) then Some(TITLE_REQUIRED)
    else if f.file.None? then Some(FILE_REQUIRED)
    else if |f.title| > MAX_TITLE then Some(TITLE_TOO_LONG)
    else if |f.description| > 0 && |f.description| > MAX_DESCRIPTION then Some(DESCRIPTION_TOO_LONG)
    else None
  }

  /** `description.trim() || undefined`: a blank description is not sent. */
  function SentDescription(description: string): (r: Option<string>)
    ensures r.None? <==> Blank(description)
    ensures r.Some? ==> r.value == JsTrim(description) && |r.value| <= |description|
  {
    var t := JsTrim(description);
    if t == [] then None else Some(t)
  }

  datatype Submitted = Submitted(form: Form, sent: Option<UploadRequest>, closed: bool)

  /** `handleSubmit`. `accepts` stands for the outcome of `onSubmit`. */
  function Submit(f: Form, accepts: UploadRequest -> bool): (r: Submitted)
    ensures Check(f).Some? ==> r.sent.None? && !r.closed && r.form == f.(error := Check(f))
    ensures Check(f).None? ==>
      r.sent == Some(UploadRequest(JsTrim(f.title), SentDescription(f.description), f.file.value))
    ensures r.sent.Some? && accepts(r.sent.value) ==> r.closed && r.form == EMPTY
    ensures r.sent.Some? && !accepts(r.sent.value) ==> !r.closed && r.form == f.(error := Some(SUBMIT_FAILED))
  {
    match Check(f)
    case Some(message) => Submitted(f.(error := Some(message)), None, false)
    case None =>
      var request := UploadRequest(JsTrim(f.title), SentDescription(f.description), f.file.value);
      if accepts(request) then Submitted(Close(f), Some(request), true)
      else Submitted(f.(error := Some(SUBMIT_FAILED)), Some(request), false)
  }

  /** `handleClose`: inputs, file and error are cleared. */
  function Close(f: Form): (r: Form)
    ensures r.title == [] && r.description == [] && r.file.None? && r.error.None?
  {
    EMPTY
  }

  /** Whatever the user does, the dialog never holds a file over the limit,
      so no request carries one. */
  lemma SentFileWithinLimit(f: Form, accepts: UploadRequest -> bool)
    requires FileWithinLimit(f)
    ensures var r := Submit(f, accepts);
      FileWithinLimit(r.form) && (r.sent.Some? ==> r.sent.value.file.size <= MAX_FILE_SIZE)
  {
  }

  /** The request respects the checks: a non-blank trimmed title of at most
      200 characters, the kept file, and a description that is absent or
      non-blank and at most 1000 characters. */
  lemma SentRequestIsValid(f: Form, accepts: UploadRequest -> bool)
    requires Submit(f, accepts).sent.Some?
    ensures var q := Submit(f, accepts).sent.value;
      !Blank(q.title) && |q.title| <= MAX_TITLE && Some(q.file) == f.file
      && (q.description.Some? ==> !Blank(q.description.value) && |q.description.value| <= MAX_DESCRIPTION)
  {
    TrimIdempotent(f.title, IsJsWhitespace);
    TrimIdempotent(f.description, IsJsWhitespace);
  }

  /** What the user can do with the open dialog. */
  datatype Event =
    | Choose(chosen: Option<ChosenFile>)
    | EditTitle(title: string)
    | EditDescription(description: string)
    | Press(accepted: bool)
    | Dismiss

  function Step(f: Form, e: Event): Form
  {
    match e
    case Choose(chosen) => SelectFile(f, chosen)
    case EditTitle(t) => f.(title := t)
    case EditDescription(d) => f.(description := d)
    case Press(accepted) => Submit(f, _ => accepted).form
    case Dismiss => Close(f)
  }

  function Replay(f: Form, events: seq<Event>): Form
    decreases |events|
  {
    if |events| == 0 then f else Replay(Step(f, events[0]), events[1..])
  }

  /** From an empty dialog, no sequence of choices, edits, submissions and
      closings ever leaves a file over 10 MB selected. */
  lemma {:induction false} NoOversizedFileIsKept(f: Form, events: seq<Event>)
    requires FileWithinLimit(f)
    ensures FileWithinLimit(Replay(f, events))
    decreases |events|
  {
    if |events| > 0 {
      StepKeepsLimit(f, events[0]);
      NoOversizedFileIsKept(Step(f, events[0]), events[1..]);
    }
  }

  /** One user action keeps the kept file within the limit. */
  lemma StepKeepsLimit(f: Form, e: Event)
    requires FileWithinLimit(f)
    ensures FileWithinLimit(Step(f, e))
  {
    match e
    case Press(accepted) => SentFileWithinLimit(f, _ => accepted);
    case _ =>
  }
}

=== FILE: user_service.dfy ===
/** `UserService`: the stored user behind a principal or a username,
    projected to the response shape. */
module UserService {
  import opened Results
  import opened Entities
  import opened Security

  datatype UnitInfo = UnitInfo(id: nat, name: string, code: string)

  /** `UserInfoResponse`. */
  datatype UserInfo = UserInfo(id: nat, username: string, name: string, role: UserRole, unit: Option<UnitInfo>)

  /** `convertToUserInfoResponse`: the user's identity fields, and the unit's
      id, name and code when the user belongs to one. */
  function ToUserInfo(u: User): (r: UserInfo)
    ensures r.id == u.id && r.username == u.username && r.name == u.name && r.role == u.role
    ensures r.unit.None? <==> u.unit.None?
    ensures u.unit.Some? ==>
      r.unit.value == UnitInfo(u.unit.value.id, u.unit.value.name, u.unit.value.code)
  {
    var unit := match u.unit
      case None => None
      case Some(un) => Some(UnitInfo(un.id, un.name, un.code));
    UserInfo(u.id, u.username, u.name, u.role, unit)
  }

  /** `getUserInfoByUsername(username)`: present exactly when a user with
      that username is stored. */
  function GetUserInfoByUsername(users: seq<User>, username: string): (r: Option<UserInfo>)
    ensures r.Some? <==> UsernameTaken(users, username)
    ensures r.Some? ==> (r.value.username == username &&
      exists i :: 0 <= i < |users| && users[i].username == username && r.value == ToUserInfo(users[i]))
  {
    match FindUserByUsername(users, username)
    case None => None
    case Some(u) => Some(ToUserInfo(u))
  }

  /** `getCurrentUserInfo()`: empty unless the caller is signed in with a
      `UserPrincipal` whose username is stored. */
  function GetCurrentUserInfo(auth: Option<Authentication>, users: seq<User>): (r: Option<UserInfo>)
    ensures r.Some? <==> (SignedIn(auth) && auth.value.principal.UserPrincipal?
      && UsernameTaken(users, auth.value.principal.username))
    ensures r.Some? ==> r.value.username == auth.value.principal.username
  {
    if !SignedIn(auth) then None
    else match auth.value.principal
      case UserPrincipal(username) => GetUserInfoByUsername(users, username)
      case OtherPrincipal(_) => None
  }

  /** For a signed-in `UserPrincipal`, the current user's info is the info of
      the stored user with the principal's username. */
  lemma CurrentUserIsLookup(auth: Option<Authentication>, users: seq<User>)
    requires SignedIn(auth) && auth.value.principal.UserPrincipal?
    ensures GetCurrentUserInfo(auth, users) == GetUserInfoByUsername(users, AuthName(auth.value))
  {
  }
}
